=== FILE: README.md ===
# CartoonCreator core in Dafny

This project models the logic of the "animate" cartoon creator: a Next.js application that turns a
story prompt into a structured story, then into scenes with avatars, narration and background images,
and finally into a video. The model covers the pure, sequential parts of the application. Each part
is described in the program's own terms:

- **Story text parser** (`lib/storyParser.ts`): the line scanner with its look-ahead loops, and the
  fallback "simple" parser. Modules `StoryParser` and `SimpleStory`.
- **Avatar builder** (`app/api/ai/character/route.ts`): the keyword classifier that picks a DiceBear
  style, the per-style parameter builders with `URLSearchParams.set` overwrite semantics, the
  background colour, the URL, and the POST defaults. Modules `Avatar`, `SearchParams` and `Keywords`.
- **Story route** (`app/api/story/route.ts`): the per-IP rate limiter as a pure map transition, the
  marker wrapping, the length table, the prompt template's scene headers, the request check order,
  the Groq then Hugging Face fallback, and the error-to-status classification. Modules `RateLimit`
  and `StoryRoute`.
- **Video planning** (`utils/videoGenerator.ts`): the per-scene duration rule, frame and audio file
  names, the `frames.txt` and `audio_concat.txt` concat scripts, the choice of FFmpeg command, the
  one-frame-per-scene rendering rule, the cleanup, and the three-level fallback chain. Module
  `VideoPlan`.
- **Speech route** (`app/api/audio/speech/route.ts`): the ordered validation chain and the mapping of
  the speech service's answer. Module `SpeechRoute`.
- **Scene helper routes** (`app/api/ai/scene/route.ts`, `app/api/generate/scene/route.ts`): keyword
  priority, the description template, and the table lookups under JavaScript's truncating `%`.
  Modules `AiScene` and `GenerateScene`.
- **Export download** (`app/api/export/download/route.ts`): the 400 and 404 checks, the placeholder
  file, the sanitised file name, the extension and the Content-Type. Module `ExportDownload`.

Shared modules:

- `Wrappers` holds `Option`.
- `Json` holds JSON values, JavaScript truthiness and request bodies.
- `JsText` models the JavaScript string built-ins the code relies on: `trim`, `startsWith`,
  `includes`, `split`, `join`, `toLowerCase`, number printing, `padStart`, the truncating `%`,
  UTF-16 length and UTF-8 encoding.

The clock, the network, the database, the environment and the browser are parameters. Their results
enter the model as inputs: an upstream story or error, a status code, an optional project row, an
audio duration, or a render outcome per scene.

Some behaviour of the code is easy to misread, and the model follows the code:

- `characterSets[sceneNumber % 4]` and `scenes[(sceneNumber - 1) % 4]` use JavaScript's truncating
  remainder, so most negative numbers index nothing. A number whose remainder is `-0` still indexes
  the first entry: -4, -8, ... for the character sets, and -3, -7, ... for the scene table. The
  index `-0` is the property name `"0"`. (`CharacterSet`, `GenerateScene.NonPositiveScenes`.)
- In the story parser, a `CHARACTERS:` line is always taken by the top-level branch. A scene's
  character list is therefore never filled.
- In the export route, a format other than `video` or `gif` is served as `video/mp4` under a `.gif`
  name.

## Model

| member | source | states |
|---|---|---|
| StoryParser.DigitRun | lib/storyParser.ts:82 | the digits a greedy `\d+` consumes: all leading ASCII digits and no more |
| StoryParser.LineHead | lib/storyParser.ts:89 | what `(.*)` captures: the longest prefix without a line terminator, stopping at the first one |
| StoryParser.SceneHeader | lib/storyParser.ts:82-99 | a recognised scene header always starts with `SCENE` |
| StoryParser.SceneHeaderMatch | lib/storyParser.ts:82-99 | every line `SCENE <digits>:<rest>` is a header, whatever its leading zeros or spaces after the colon; its number is the value of the digits and its title the first line of `<rest>` without leading whitespace |
| StoryParser.SceneHeaderWitness | lib/storyParser.ts:82-99 | only such lines are headers: a recognised header has a non-empty digit run after `SCENE ` followed by `:`, and its number and title are read from them as above |
| StoryParser.LookAheadEnd | lib/storyParser.ts:56-64 | a look-ahead loop stops at the first line its `while` test refuses, or at the end; every line it passes is accepted by the test |
| StoryParser.FieldValueReplaces | lib/storyParser.ts:47-54 | `line.replace(prefix, '').trim()` on a line that starts with the prefix is the trimmed text after the prefix, because `replace` removes that leading occurrence |
| StoryParser.Continuation | lib/storyParser.ts:59-61 | the look-ahead appends nothing exactly when every passed line is blank, and otherwise text starting with a space |
| StoryParser.ContinuedLine | lib/storyParser.ts:59-61 | one line adds nothing exactly when it is blank, and otherwise a space followed by its trimmed text |
| StoryParser.ContinuationOne | lib/storyParser.ts:59-61 | a single line continues the field with a space and its trimmed text, or not at all when blank |
| StoryParser.ContinuationAppend | lib/storyParser.ts:56-63 | the continuation of consecutive runs of lines is the concatenation of their continuations |
| StoryParser.Bullet | lib/storyParser.ts:69-77 | a character line yields an entry exactly when, trimmed, it starts with `•` and a `-` follows; at most one entry, and neither its name nor its description contains `-` |
| StoryParser.TrimmedBullet | lib/storyParser.ts:70-77 | the same for an already trimmed line: an entry exactly when it starts with `•` and a `-` follows |
| StoryParser.Bullets | lib/storyParser.ts:67-81 | no character entry collected by the `CHARACTERS:` look-ahead has a `-` in its name or description |
| StoryParser.Classify | lib/storyParser.ts:43-145 | the branch a line takes, tested in the source's order: a header exactly when the header pattern matches; scene-only branches only while a scene is open; moral and ending only while none is |
| StoryParser.MarkersNotScene | lib/storyParser.ts:43-45 | the two story markers are never scene headers |
| StoryParser.TopKind | lib/storyParser.ts:43-81 | the branches tested before the header never take a `SCENE` line, a scene-only line, a moral or an ending |
| StoryParser.SceneKind | lib/storyParser.ts:100-140 | inside a scene, a line is a location, an action, a dialogue, a scene close or ignored |
| StoryParser.ClosingKind | lib/storyParser.ts:141-145 | outside a scene, a line is a moral, an ending or ignored, and it is ignored exactly when it starts with neither `MORAL:` nor `STORY ENDING:` |
| StoryParser.NextIndex | lib/storyParser.ts:64 | after `i = j - 1; i++` the loop always moves forward and stays within the lines |
| StoryParser.Flush | lib/storyParser.ts:148-151 | pushing the open scene changes only the scene list, keeps the earlier scenes as a prefix, and adds exactly the open scene, or nothing when none is open |
| StoryParser.Update | lib/storyParser.ts:47-145 | a branch changes only the text field it sets; a header or a scene close replaces the scene list by the flushed one; only `CHARACTERS:` adds characters, namely the bullets it consumed |
| StoryParser.Step | lib/storyParser.ts:40-146 | one turn of the loop always makes progress |
| StoryParser.Scan | lib/storyParser.ts:40-151 | the scan never drops a pushed scene or a collected character: both lists only grow |
| StoryParser.ParseStoryText | lib/storyParser.ts:22-154 | the scenes are exactly the scene-header lines, in order, with their numbers and titles; no scene gets a character list; no character entry holds a `-`; a text field no line starts with stays empty |
| StoryParser.SceneHeaderRoundTrip | lib/storyParser.ts:89-98 | the header the story prompt asks for, `SCENE <n>: <title>`, is read back as scene `n` with that title |
| StoryParser.BulletEntry | lib/storyParser.ts:70-77 | `• name - description - more` yields exactly one entry: the trimmed name and description; text after a second `-` is dropped |
| StoryParser.TrimmedBulletEntry | lib/storyParser.ts:70-77 | the same for an already trimmed bullet line |
| StoryParser.StepByKind | lib/storyParser.ts:40-146 | a turn applies its line's branch to the state and resumes after the lines that branch's look-ahead consumed |
| StoryParser.NoLookAhead | lib/storyParser.ts:40 | a branch without a look-ahead moves to the very next line |
| StoryParser.MarkerLine | lib/storyParser.ts:43-45 | a start or end marker leaves the state unchanged |
| StoryParser.TitleLine | lib/storyParser.ts:47-48 | a `TITLE:` line sets the title to the trimmed remainder, overwriting an earlier title, in or out of a scene |
| StoryParser.GenreLine | lib/storyParser.ts:49-50 | a `GENRE:` line sets the genre to the trimmed remainder, in or out of a scene |
| StoryParser.AgeGroupLine | lib/storyParser.ts:51-52 | an `AGE GROUP:` line sets the age group to the trimmed remainder, in or out of a scene |
| StoryParser.SummaryLine | lib/storyParser.ts:53-64 | a `SUMMARY:` line sets the summary to its remainder plus `' ' + line.trim()` for each non-blank line up to the first one starting with `CHARACTERS:` or `SCENE`, where the scan resumes |
| StoryParser.FieldOverwrite | lib/storyParser.ts:47-54 | title, genre, age group and summary are plain assignments: a later line of the same field replaces the earlier value |
| StoryParser.UnrecognisedLine | lib/storyParser.ts:40-146 | a non-blank line with no recognised prefix changes nothing and the scan moves to the next line |
| StoryParser.ClassifySetsField | lib/storyParser.ts:47-54 | only a line starting with a field's prefix sets that field |
| StoryParser.ScanKeepsField | lib/storyParser.ts:40-151 | a scan over lines none of which starts with a field's prefix leaves that field as it was |
| StoryParser.FieldWithoutLine | lib/storyParser.ts:25-34 | a field no line starts with keeps its initial empty value |
| StoryParser.HeaderLine | lib/storyParser.ts:82-99 | a header closes the open scene, if any, and opens a fresh one with the header's number and title |
| StoryParser.BlankLineClosesScene | lib/storyParser.ts:133-139 | a blank line closes a scene that has both a location and an action |
| StoryParser.BlankLineKeepsScene | lib/storyParser.ts:133-135 | a blank line leaves a scene open while its location or its action is empty |
| StoryParser.MoralLine | lib/storyParser.ts:141-142 | outside a scene, a `MORAL:` line sets the moral to the trimmed remainder and changes nothing else |
| StoryParser.EndingLine | lib/storyParser.ts:143-144 | outside a scene, a `STORY ENDING:` line sets the ending to the trimmed remainder and changes nothing else |
| StoryParser.MoralInsideSceneDropped | lib/storyParser.ts:100-145 | a `MORAL:` line inside a scene is dropped |
| StoryParser.LocationOutsideSceneDropped | lib/storyParser.ts:100-102 | a `LOCATION:` line outside a scene is dropped |
| StoryParser.LookAheadSkipsNoHeader | lib/storyParser.ts:57-58 | no look-ahead ever consumes a scene header, because each one stops at a line starting with `SCENE` |
| StoryParser.ScanHeads | lib/storyParser.ts:40-151 | the scan ends with the closed scenes, then the open one, then one scene per header still ahead, in order; no scene is pushed twice |
| StoryParser.ScanTidy | lib/storyParser.ts:65-105 | the scan never fills a scene's character list and never records a character with a `-` |
| SimpleStory.NonBlank | lib/storyParser.ts:158 | the kept lines are lines of the input that do not trim to nothing; none are kept exactly when every line is blank |
| SimpleStory.NonBlankOne | lib/storyParser.ts:158 | one line is kept exactly when it does not trim to nothing |
| SimpleStory.NonBlankAppend | lib/storyParser.ts:158 | filtering works line by line: the kept lines of two runs are the kept lines of each, in order |
| SimpleStory.NonBlankFirst | lib/storyParser.ts:158-161 | the first kept line is the first line that does not trim to nothing |
| SimpleStory.HeadingRecognised | lib/storyParser.ts:179-181 | `Scene`, `Chapter` or `Part` in any ASCII case, then a space, a number and a colon, starts a heading |
| SimpleStory.HeadingWithRecognised | lib/storyParser.ts:179 | the same for one heading word |
| SimpleStory.NoNumberNoHeading | lib/storyParser.ts:179-181 | `Scene: ...` without a number is no heading |
| SimpleStory.Excerpt | lib/storyParser.ts:189 | the action is the first 100 characters of the content (all of shorter content) followed by `...` |
| SimpleStory.Blocks | lib/storyParser.ts:178-210 | the content blocks the loop collects between headings are never empty |
| SimpleStory.ScenesOf | lib/storyParser.ts:183-209 | at most five scenes, the `k`-th made from the `k`-th block and numbered `k + 1` |
| SimpleStory.SummaryLines | lib/storyParser.ts:162 | `slice(1, 3)`: the second and third kept lines, as far as they exist |
| SimpleStory.SummaryOf | lib/storyParser.ts:162 | never empty: with fewer than two kept lines it is `A wonderful story`; otherwise the second kept line, then a space and the third when it exists |
| SimpleStory.ScenesOfSnoc | lib/storyParser.ts:183-194 | a new block adds a scene below the cap of five and nothing at or above it |
| SimpleStory.ScanBlocks | lib/storyParser.ts:175-210 | the loop, written as a recursion over the lines with its counter and content, yields the scenes of the first five blocks |
| SimpleStory.Scan | lib/storyParser.ts:175-210 | scenes already pushed are kept as a prefix, and none is added once five exist |
| SimpleStory.CloseBlock | lib/storyParser.ts:182-194 | saving the content at a heading or at the end adds the open block's scene exactly while fewer than five scenes exist |
| SimpleStory.ScanScenes | lib/storyParser.ts:175-210 | the loop with its counter and content buffer gives the scenes of the first five blocks |
| SimpleStory.ParseSimpleStory | lib/storyParser.ts:157-235 | title is the first kept line or `Untitled Story`; between 1 and 5 scenes; exactly the two default scenes when no block is found; fixed genre, age group, moral and ending |
| SimpleStory.NoHeadingsOneBlock | lib/storyParser.ts:195-210 | without headings, all remaining lines form one block, each followed by a space |
| SimpleStory.BlocksAtHeading | lib/storyParser.ts:179-194 | a heading closes the non-empty block collected so far and starts an empty one |
| RateLimit.Check | app/api/story/route.ts:34-49 | an unknown IP or an expired window gets `(1, now + 60000)` and is allowed; within the window, a count at 30 is refused and the entry is unchanged; otherwise the request is allowed; other IPs are never touched |
| RateLimit.CheckBounded | app/api/story/route.ts:26-48 | no count ever exceeds 30 |
| RateLimit.CheckCounts | app/api/story/route.ts:43-48 | within the window, an allowed request adds one to the count and a refused one adds nothing |
| RateLimit.WindowEndInclusive | app/api/story/route.ts:38-45 | a request at exactly `resetTime` is still inside the window, so it is refused at 30 |
| RateLimit.Replay | app/api/story/route.ts:34-49 | a run of requests gets one verdict per request |
| RateLimit.ReplayInWindow | app/api/story/route.ts:43-48 | inside one window, the `k`-th further request is allowed exactly when the count plus `k` is below 30 |
| RateLimit.ThirtyPerWindow | app/api/story/route.ts:26-48 | starting a fresh window, the first 30 requests in it are allowed and every later one is refused |
| RateLimit.ReplayIsolated | app/api/story/route.ts:36-39 | requests from one IP never change another IP's entry |
| StoryRoute.WrapMarkers | app/api/story/route.ts:240-245 | the result always has both markers; a story that already has both is returned unchanged |
| StoryRoute.WrappedHasMarkers | app/api/story/route.ts:242 | the wrapped text contains both markers |
| StoryRoute.WrapIdempotent | app/api/story/route.ts:391-396 | wrapping twice is wrapping once |
| StoryRoute.WrapKeepsStory | app/api/story/route.ts:242 | the story is contained in its wrapped form |
| StoryRoute.LengthConfigFor | app/api/story/route.ts:175-179 | the key is the body's `length` as a property name: `short` gives 800 tokens and 3 scenes, `medium` 1200 and 4, `long` 2000 and 5; `null`, booleans, numbers and objects find no row |
| StoryRoute.LengthRow | app/api/story/route.ts:305-309 | exactly the three property names `short`, `medium` and `long` have a row, with 3 to 5 scenes and 800 to 2000 tokens |
| StoryRoute.ArrayLengthKey | app/api/story/route.ts:175-179 | an array holding one length string indexes the table like the string itself |
| StoryRoute.LengthOrdered | app/api/story/route.ts:175-179 | short < medium < long, in both scene count and tokens |
| StoryRoute.BlockStartInBlocks | app/api/story/route.ts:196-203 | the joined scene blocks contain each block's opening text |
| StoryRoute.BlocksSplit | app/api/story/route.ts:196-203 | the scene section built by `Array.from(...).join` is the blocks up to any scene followed by the blocks after it |
| StoryRoute.SceneHeadersPresent | app/api/story/route.ts:196-203 | the prompt's scene section contains the header `SCENE i:` for every `i` from 1 to the scene count |
| StoryRoute.GroqCatch | app/api/story/route.ts:247-290 | a status decides first: 401 the invalid-key message, 429 the rate message, 503 the unavailable message, any other `API error: <status> - <message or Unknown error>`; without a status the first matching message rule decides, then a decommissioned error body, and otherwise the error is rethrown with its own message |
| StoryRoute.GroqModelWordMeansDecommissioned | app/api/story/route.ts:267-276 | any Groq message with the word `model`, and no earlier key, authentication, rate-limit or quota word, is reported as a decommissioned model |
| StoryRoute.Classify | app/api/story/route.ts:122-148 | the first message rule that fires decides the error and status; with none, 500 |
| StoryRoute.ClassifyStatuses | app/api/story/route.ts:122-148 | the status is always 400, 401, 429 or 500 |
| StoryRoute.ClassifyKeyFirst | app/api/story/route.ts:126-129 | a message naming `GROQ_API_KEY` is always 400, whatever else it says |
| StoryRoute.Classify401 | app/api/story/route.ts:126-143 | 401 exactly when the message says `Invalid API key` and none of the earlier words |
| StoryRoute.GroqStory | app/api/story/route.ts:164-245 | without a key the attempt throws the missing-key error; a story comes back exactly for a keyed, configured, non-empty reply, and it has both markers |
| StoryRoute.HfCatch | app/api/story/route.ts:398-410 | a token message becomes the invalid-token message; otherwise a message saying the model is currently loading becomes the loading message; every other message is rethrown unchanged |
| StoryRoute.HfTry | app/api/story/route.ts:367-396 | a story comes back exactly for a reply carrying one that does not trim to nothing; it has both markers and contains the reply; a thrown message passes through |
| StoryRoute.HfStory | app/api/story/route.ts:294-396 | without a token the attempt throws; a story comes back exactly for a configured reply that does not trim to nothing, and it has both markers |
| StoryRoute.PromptCheck | app/api/story/route.ts:58-63 | a missing, empty or blank prompt is refused with 400 |
| StoryRoute.Generate | app/api/story/route.ts:78-116 | a generated story always carries both markers and reports its UTF-16 length |
| StoryRoute.BothFail | app/api/story/route.ts:103-106 | when both services fail, the error combines both messages |
| StoryRoute.Combined | app/api/story/route.ts:105 | the combined message contains both the Groq and the Hugging Face message |
| StoryRoute.CombinedKeyIs400 | app/api/story/route.ts:105-129 | a Groq message naming `GROQ_API_KEY` makes the combined failure a 400 |
| StoryRoute.Post | app/api/story/route.ts:51-161 | an unreadable body changes no rate-limit entry; a prompt that is neither null nor a string (`false` and `0` included) gives the `trim` TypeError and uses no quota; an accepted prompt leaves the limiter as its check does, and when allowed the reply is the generation for the `length` field, `medium` when absent; a generated story carries both markers |
| StoryRoute.BlankPromptUsesNoQuota | app/api/story/route.ts:58-74 | a blank prompt gets 400 before the rate limiter runs, so the tracker is unchanged |
| StoryRoute.LimitedRequestIs429 | app/api/story/route.ts:65-74 | a valid prompt from an IP at its limit gets 429 `Rate limit exceeded` with the retry message, and leaves the tracker unchanged |
| StoryRoute.RetryMessageText | app/api/story/route.ts:70 | the 429 message names the limiter's budget of 30 requests per minute |
| StoryRoute.GroqWins | app/api/story/route.ts:82-116 | a Groq story is used as is, wrapped if needed, with the Groq model name |
| StoryRoute.MissingGroqKeyIs400 | app/api/story/route.ts:5-8 | without a Groq key, and with Hugging Face failing, the answer is 400, because the combined message names `GROQ_API_KEY` |
| StoryRoute.GroqUnauthorizedIs400 | app/api/story/route.ts:254-256 | a Groq 401, with Hugging Face failing, also ends as 400 and not 401: its message names `GROQ_API_KEY`, which the classifier tests first |
| SearchParams.Lookup | app/api/export/download/route.ts:24-26 | `get` finds a value exactly for a present name, and the pair is in the list |
| SearchParams.Set | app/api/ai/character/route.ts:88-91 | after `set`, the name has the new value and every other name keeps its value |
| SearchParams.SetSet | app/api/ai/character/route.ts:160-167 | a second `set` of the same name overrides the first |
| SearchParams.NamesSet | app/api/ai/character/route.ts:88-91 | on distinct names, `set` keeps the names in order and appends a new name at the end |
| SearchParams.SetUnique | app/api/ai/character/route.ts:88-91 | `set` keeps the names distinct |
| SearchParams.SetInPlace | app/api/ai/character/route.ts:88-91 | `set` of a present name replaces its value in place |
| SearchParams.ToObject | app/api/ai/character/route.ts:132-136 | the object has exactly the parameters' names as keys |
| SearchParams.ToObjectLookup | app/api/ai/character/route.ts:132-136 | with unique names, the object maps each name to the value `get` returns |
| SearchParams.FormRoundTrip | app/api/ai/character/route.ts:130 | form decoding undoes form encoding of any bytes |
| SearchParams.EncodeBytesChars | app/api/ai/character/route.ts:130 | encoded text uses only the form-safe characters |
| SearchParams.QueryRoundTrip | app/api/ai/character/route.ts:128-130 | the query string splits back into the pairs, each name and value decoding to its UTF-8 bytes |
| SearchParams.SplitJoin | app/api/ai/character/route.ts:130 | joining pieces that lack the separator and splitting again gives the pieces |
| Keywords.FirstIndex | app/api/ai/character/route.ts:34-75 | the first rule whose keyword occurs; no earlier rule fires |
| Keywords.LastIndex | app/api/ai/character/route.ts:160-167 | the last rule whose keyword occurs; no later rule fires |
| Keywords.FirstIndexAt | app/api/ai/character/route.ts:34-75 | a rule that fires with no earlier rule firing is the one chosen |
| Keywords.LastChoiceSnoc | app/api/ai/character/route.ts:160-167 | a later independent `if` that fires overrides everything before it |
| Keywords.FirstChoiceCons | app/api/ai/scene/route.ts:16-20 | an `if`/`else if` chain takes its first test when it fires and otherwise the rest of the chain |
| Keywords.FiresOne | app/api/ai/scene/route.ts:16 | a one-word rule fires exactly when the text includes the word |
| Keywords.FiresTwo | app/api/ai/character/route.ts:37 | a two-word rule fires exactly when the text includes either word |
| Avatar.Put | app/api/ai/character/route.ts:88-91 | `params.set` gives the key its value, keeps every other key, and keeps names unique |
| Avatar.SetFirst | app/api/ai/character/route.ts:151-157 | an `if`/`else if` chain of `set`s leaves the key at the first firing value, or unchanged |
| Avatar.SetEach | app/api/ai/character/route.ts:160-167 | a run of independent `if … set` touches only its key |
| Avatar.SetEachLastWins | app/api/ai/character/route.ts:160-167 | a run of independent `set`s equals one `set` of the last firing value |
| Avatar.Run | app/api/ai/character/route.ts:146-192 | one builder step changes only its own parameter |
| Avatar.Apply | app/api/ai/character/route.ts:146-192 | a builder never touches `seed`, `format` or `backgroundColor` |
| Avatar.ApplyOnly | app/api/ai/character/route.ts:146-192 | a parameter set by exactly one step ends with that step's effect |
| Avatar.ApplyUntouched | app/api/ai/character/route.ts:146-192 | a parameter no step sets keeps its value |
| Avatar.StyleNameIsKey | app/api/ai/character/route.ts:4-31 | every style the classifier returns is a key of the style table |
| Avatar.StyleFor | app/api/ai/character/route.ts:34-75 | on the lower-cased description, the first keyword pair that fires decides the style, in the order robot … monster; with none, `avataaars` |
| Avatar.IdenticonGivesIcons | app/api/ai/character/route.ts:43-46 | `identicon`, with no earlier keyword, yields `icons`, because it contains `icon` |
| Avatar.IdenticonNeedsGithub | app/api/ai/character/route.ts:43-46 | the `identicon` style is only ever reached through `github` |
| Avatar.IconInIdenticon | app/api/ai/character/route.ts:43-46 | a text containing `identicon` contains `icon` |
| Avatar.Background | app/api/ai/character/route.ts:332-357 | the first colour phrase that fires decides the colour; with none, `b6e3f4,c0aede,d1d4f9` |
| Avatar.Configure | app/api/ai/character/route.ts:93-126 | every style's builder sets `backgroundColor` from the description and leaves `seed` and `format` alone |
| Avatar.AvataaarsEyesChoice | app/api/ai/character/route.ts:176-180 | the eye rules end at wink, else closed, else sad, else happy |
| Avatar.AvataaarsEyesPriority | app/api/ai/character/route.ts:176-180 | in `avataaars` the eyes follow the priority wink > closed > sad > happy |
| Avatar.AvataaarsHairColorLastWins | app/api/ai/character/route.ts:159-167 | the last matching hair colour wins |
| Avatar.LoreleiGlassesOverFlower | app/api/ai/character/route.ts:258-264 | in `lorelei`, glasses overwrite flower |
| Avatar.BuildParams | app/api/ai/character/route.ts:85-126 | the parameters always hold `seed`, `format=svg` and `backgroundColor`, with unique names |
| Avatar.Generate | app/api/ai/character/route.ts:78-143 | the URL starts with `https://api.dicebear.com/9.x/<style>/svg?`; the returned object has the seed, `svg`, the background, and exactly the parameters' names |
| Avatar.GenerateFacts | app/api/ai/character/route.ts:132-136 | the returned object holds the same pairs as the parameters |
| Avatar.UrlCarriesParams | app/api/ai/character/route.ts:128-130 | the URL's query decodes back to exactly the parameters, in order |
| Avatar.GenerateDeterministic | app/api/ai/character/route.ts:88 | for a truthy name the result does not depend on the clock |
| Avatar.ReadBody | app/api/ai/character/route.ts:361-363 | a falsy name becomes `Character` and a falsy description becomes `''`; a truthy non-string description throws |
| Avatar.Post | app/api/ai/character/route.ts:359-407 | the reply echoes the defaulted name and description, with the style chosen from the description and the name as seed; a failing request gets the fallback reply |
| Avatar.Respond | app/api/ai/character/route.ts:368-383 | the reply reports a `dicebear_avatar` with the classifier's style, and the seed is the name as `set` turns it into a string |
| Avatar.AsStringTruthy | app/api/ai/character/route.ts:88 | a truthy name other than an array prints as a non-empty seed; the empty array prints as `""` and `[null, null]` as `,` |
| Avatar.SeedFor | app/api/ai/character/route.ts:88 | a non-empty string name is the seed itself, a non-zero number its decimal text; a falsy name gives `character-` followed by the clock reading |
| Avatar.ArrayNameSeed | app/api/ai/character/route.ts:88 | an array name is seeded as `String` prints it: `["a", "b"]` gives `a,b` and `[]` gives the empty seed |
| Json.AsString | app/api/ai/character/route.ts:88 | `String(v)`, the text `set` stores: every truthy value other than an array prints as non-empty text, while the empty array prints as the empty string |
| Avatar.PostIgnoresClock | app/api/ai/character/route.ts:362 | the POST reply does not depend on the clock |
| Avatar.RespondIgnoresClock | app/api/ai/character/route.ts:368-383 | the same for the successful reply |
| Avatar.PostDefaultName | app/api/ai/character/route.ts:362 | without a name, the reply is named `Character` and seeded with it |
| VideoPlan.Ceil | utils/videoGenerator.ts:186 | `Math.ceil`: the least integer not below its argument |
| VideoPlan.BaseDuration | utils/videoGenerator.ts:171 | `duration \|\| 5`: never 0, and a non-zero duration is kept |
| VideoPlan.ProcessScene | utils/videoGenerator.ts:170-200 | audio counts exactly when the scene has a URL and extraction gave data; the duration is at least 1, at least the base, at least the audio length when heard, and is the base, the rounded-up audio length, or 1 |
| VideoPlan.KeepsSceneDuration | utils/videoGenerator.ts:183-198 | a scene of at least one second with no longer audio keeps its own duration |
| VideoPlan.LongerAudioRoundsUp | utils/videoGenerator.ts:185-186 | longer audio sets the duration to its length rounded up, less than one second more |
| VideoPlan.ProcessScenes | utils/videoGenerator.ts:162-204 | one entry per scene, in order, each from its own scene and audio |
| VideoPlan.FrameDigitsValue | utils/videoGenerator.ts:46 | the padded index reads back as the index, with at least four digits and exactly four below 10000 |
| VideoPlan.FrameNameInjective | utils/videoGenerator.ts:46 | distinct indices give distinct frame names |
| VideoPlan.AudioNameInjective | utils/videoGenerator.ts:73 | distinct indices give distinct audio names |
| VideoPlan.FrameNameLength | utils/videoGenerator.ts:46 | below 10000 every frame name has 13 characters |
| VideoPlan.NamesDisjoint | utils/videoGenerator.ts:46-117 | frame names, audio names and the fixed file names never collide |
| VideoPlan.UnlinesSplit | utils/videoGenerator.ts:51-59 | text built of newline-terminated lines splits back into those lines and a final empty piece |
| VideoPlan.FramesLines | utils/videoGenerator.ts:54-59 | two lines per frame |
| VideoPlan.AudioLines | utils/videoGenerator.ts:82-97 | three lines per scene |
| VideoPlan.FramesLinesAt | utils/videoGenerator.ts:54-59 | frame `i` contributes `file 'frameNNNN.png'` then `duration d_i` |
| VideoPlan.AudioLinesAt | utils/videoGenerator.ts:82-97 | scene `i` contributes its source (its audio file, or the silent source), then `inpoint 0`, then `outpoint d_i` |
| VideoPlan.WriteFramesScript | utils/videoGenerator.ts:51-59 | the loop builds exactly the frames script's lines, each ended by a newline |
| VideoPlan.WriteAudioScript | utils/videoGenerator.ts:79-97 | the loop builds exactly the audio script's lines, each ended by a newline |
| VideoPlan.FramesScriptReadsBack | utils/videoGenerator.ts:54-61 | `frames.txt` reads back line by line as the two lines per frame |
| VideoPlan.AudioScriptReadsBack | utils/videoGenerator.ts:82-99 | `audio_concat.txt` reads back as the three lines per scene |
| VideoPlan.CommandChoice | utils/videoGenerator.ts:63-134 | `-shortest` and the audio concat input appear exactly when some scene has audio, `-an` exactly when none has; both read `frames.txt` and write `output.mp4` last |
| VideoPlan.RenderFrames | utils/videoGenerator.ts:280-360 | at most one frame per scene; exactly one per scene unless a scene gets no 2D context; none at all exactly when no scene gets one; a throwing placeholder aborts the whole call |
| VideoPlan.FramesFromScenes | utils/videoGenerator.ts:283-356 | frames follow the scenes in order, each carrying a scene's number |
| VideoPlan.Cleanup | utils/videoGenerator.ts:479-500 | cleanup deletes every frame name and every audio name up to its counts |
| VideoPlan.WrittenAreDeleted | utils/videoGenerator.ts:147 | every file the main path writes is deleted by the cleanup |
| VideoPlan.PlanFor | utils/videoGenerator.ts:39-147 | the plan deletes all it writes, writes the audio script exactly when some scene has audio, and picks the matching command |
| VideoPlan.Assemble | utils/videoGenerator.ts:27-41 | a plan exists exactly when no render throws and at least one frame is produced, with one data entry per scene |
| VideoPlan.ListedFramesWritten | utils/videoGenerator.ts:44-59 | each frame listed in `frames.txt` is a file that was written |
| VideoPlan.ListedAudioWritten | utils/videoGenerator.ts:70-90 | each audio file listed in `audio_concat.txt` is a file that was written |
| VideoPlan.AudioSceneCount | utils/videoGenerator.ts:529 | the number of scenes with audio is 0 exactly when no scene has an audio URL |
| VideoPlan.TitleCardFor | utils/videoGenerator.ts:502-608 | the title card deletes all it writes, and uses `-shortest` exactly when a scene has audio and the first audio extraction gave data |
| VideoPlan.TitleCardLines | utils/videoGenerator.ts:520-533 | the card shows the title, then the scene count, then the audio-scene count only when some scene has audio |
| VideoPlan.FallbackClip | utils/videoGenerator.ts:610-641 | the text clip is used exactly when the canvas gives no blob |
| VideoPlan.FallbackTextReadsBack | utils/videoGenerator.ts:636 | the text clip's lines are `Video for: <title>` and `Scenes: <n>` |
| VideoPlan.SimpleVideo | utils/videoGenerator.ts:502-617 | the second level never gives the full video; the title card exactly when it encodes; otherwise a rejection exactly when the fallback canvas gives no 2D context, and else the static clip of the title and scene count |
| VideoPlan.Export | utils/videoGenerator.ts:27-160 | a failing FFmpeg load rejects the export, and so does a fallback canvas without a 2D context once the full video and the title card have failed; nothing else rejects; a full video deletes all it writes |
| VideoPlan.FallbackChain | utils/videoGenerator.ts:154-158 | the full video exactly when the main path succeeds; otherwise the title card exactly when it encodes; otherwise the static fallback when its canvas gives a 2D context, and a rejection when it does not |
| VideoPlan.NoScenesFallsBack | utils/videoGenerator.ts:39-41 | no scenes means no frames, so the full video is never produced |
| SpeechRoute.VoiceOf | app/api/audio/speech/route.ts:14 | the destructuring default applies only to an absent voice |
| SpeechRoute.FormatOf | app/api/audio/speech/route.ts:14 | the format defaults to `wav` only when absent |
| SpeechRoute.Check | app/api/audio/speech/route.ts:16-44 | a request passes exactly when its text is a string that does not trim to nothing, is at most 5000 UTF-16 units, its voice is listed, and the key is set; refusals are 400 or 500 |
| SpeechRoute.CheckAfterText | app/api/audio/speech/route.ts:23-44 | once the text is a non-blank string, the remaining checks apply in order: length, then voice, then key |
| SpeechRoute.ListedIsDefault | app/api/audio/speech/route.ts:6-10 | the only listed voice is the default one |
| SpeechRoute.PostAccepted | app/api/audio/speech/route.ts:46-96 | a request that passes the checks is answered from the speech service's outcome, with the untrimmed text and the default voice |
| SpeechRoute.StatusMessage | app/api/audio/speech/route.ts:67-74 | statuses other than 401, 429 and 400 get the generic message |
| SpeechRoute.Respond | app/api/audio/speech/route.ts:63-96 | a non-OK status is returned as is with the service's text as details; an OK answer returns the audio, its size and the untrimmed text length |
| SpeechRoute.Post | app/api/audio/speech/route.ts:12-111 | the service is called exactly for valid requests, with the trimmed text; an object body the checks refuse gets exactly the refusal of the checks (its 400 or 500); an unreadable body is a 500 |
| SpeechRoute.BlankTextIs400 | app/api/audio/speech/route.ts:16-21 | missing or blank text is a 400, whatever the voice or the key |
| SpeechRoute.LengthLimit | app/api/audio/speech/route.ts:23-28 | more than 5000 is a 400; exactly 5000 passes the length check |
| SpeechRoute.PaddingCounts | app/api/audio/speech/route.ts:23 | the length is measured before trimming, so whitespace padding past 5000 is refused |
| SpeechRoute.TrimPadded | app/api/audio/speech/route.ts:16 | trailing whitespace does not make text blank |
| SpeechRoute.VoiceCheck | app/api/audio/speech/route.ts:30-36 | the default voice always passes; any other voice is a 400 |
| SpeechRoute.InvalidVoice | app/api/audio/speech/route.ts:33 | the invalid-voice message lists the one available voice, the default |
| SpeechRoute.MissingKeyOnlyForValidInput | app/api/audio/speech/route.ts:38-44 | a missing key gives 500 exactly for requests that pass every earlier check |
| SpeechRoute.UpstreamStatusPassedOn | app/api/audio/speech/route.ts:63-79 | the service's non-OK status is passed on, with the message for 401, 429 and 400 |
| SpeechRoute.TrimmedSentUntrimmedCounted | app/api/audio/speech/route.ts:57-93 | the service gets the trimmed text while the reply reports the untrimmed length |
| AiScene.SceneKeywords | app/api/ai/scene/route.ts:16-20 | the keywords are one of the five fixed phrases |
| AiScene.KeywordPriority | app/api/ai/scene/route.ts:16-20 | first match on the lower-cased prompt: forest, city, beach, house, otherwise `cartoon landscape` |
| AiScene.NoKeywordLetters | app/api/ai/scene/route.ts:16-20 | a lower-case prompt lacking letters of all four keywords searches for `cartoon landscape` |
| AiScene.DefaultPromptKeywords | app/api/ai/scene/route.ts:12-20 | the default prompt searches for `cartoon landscape` |
| AiScene.Head | app/api/ai/scene/route.ts:22 | `substring(0, 100)`: a prefix of the prompt, 100 long or the whole of a shorter one |
| AiScene.DescriptionParts | app/api/ai/scene/route.ts:22 | the description is `Scene <n>: `, then a prefix of the prompt of at most 100 characters, then `...` |
| AiScene.CharacterSet | app/api/ai/scene/route.ts:55-62 | a set exactly for a non-negative number or a multiple of 4, and always one of the four sets |
| AiScene.CharacterSetPeriodic | app/api/ai/scene/route.ts:62 | for non-negative numbers the set is `n % 4` and repeats every four scenes |
| AiScene.Background | app/api/ai/scene/route.ts:25-52 | a non-empty Unsplash URL is used; otherwise the Picsum image seeded with the time plus the scene number |
| AiScene.SceneNumberOf | app/api/ai/scene/route.ts:13 | `sceneNumber \|\| 1`: never 0, and a non-zero number is kept |
| AiScene.Post | app/api/ai/scene/route.ts:6-79 | an unreadable body replies for scene 1; a non-string prompt replies on the error path with the number already read; a falsy prompt uses `cartoon scene`; a string prompt uses its own text; on both of these paths the background is the Unsplash URL or the Picsum image seeded with the time plus the number, and the character set follows the number |
| AiScene.DefaultsApply | app/api/ai/scene/route.ts:12-13 | an empty prompt and scene number 0 give scene 1 with the default prompt and the second character set |
| GenerateScene.SceneIndex | app/api/generate/scene/route.ts:28 | the index lies in (-4, 4), and in [0, 4) equal to `(n - 1) mod 4` from scene 1 up |
| GenerateScene.Lookup | app/api/generate/scene/route.ts:28-30 | an entry exactly when the number is present and the index is not negative, always from the table |
| GenerateScene.Post | app/api/generate/scene/route.ts:3-36 | the reply is a 500 exactly when the body is unreadable (with the parser's message) or the lookup finds no entry (with the message of the `TypeError` that serialising `undefined` throws); otherwise it is the entry the lookup finds |
| GenerateScene.ScenesCycle | app/api/generate/scene/route.ts:28-30 | from scene 1 up, entry `(n - 1) mod 4`, and `n` and `n + 4` give the same entry |
| GenerateScene.FirstScene | app/api/generate/scene/route.ts:10-13 | scene 1 is the village square |
| GenerateScene.NonPositiveScenes | app/api/generate/scene/route.ts:28-35 | below 1, an entry only when `n - 1` is a multiple of 4, and a 500 with the serialisation message otherwise; an absent number gets that 500 too |
| ExportDownload.ParamOr | app/api/export/download/route.ts:25-26 | an absent or empty parameter takes the default |
| ExportDownload.LowerAscii | app/api/export/download/route.ts:94 | lower-casing turns an ASCII letter or digit into a lower-case letter or digit and leaves others alone |
| ExportDownload.StemOf | app/api/export/download/route.ts:94 | one character gives one stem character per UTF-16 unit, each a lower-case letter, a digit or `_` |
| ExportDownload.Stem | app/api/export/download/route.ts:94 | the stem has the title's UTF-16 length and only `[a-z0-9_]` |
| ExportDownload.StemAppend | app/api/export/download/route.ts:94 | the replacement works character by character |
| ExportDownload.StemIdempotent | app/api/export/download/route.ts:94 | sanitising a stem again changes nothing |
| ExportDownload.StemCharsFixed | app/api/export/download/route.ts:94 | text of `[a-z0-9_]` is its own stem |
| ExportDownload.StemAt | app/api/export/download/route.ts:94 | for a title inside the Basic Multilingual Plane, each position holds the lower-cased letter or digit, or `_` |
| ExportDownload.ContentType | app/api/export/download/route.ts:93 | `image/gif` exactly for `gif`, otherwise `video/mp4` |
| ExportDownload.Extension | app/api/export/download/route.ts:94 | `mp4` exactly for `video`, otherwise `gif` |
| ExportDownload.FileName | app/api/export/download/route.ts:94 | the file name holds no quote and ends with `.` and the extension |
| ExportDownload.DispositionNamesFile | app/api/export/download/route.ts:94 | the `Content-Disposition` header reads back: the text between its first two quotes is the file name |
| ExportDownload.FormatMismatch | app/api/export/download/route.ts:93-94 | `video` and `gif` agree in type and extension; any other format is `video/mp4` named `.gif` |
| ExportDownload.ContentLines | app/api/export/download/route.ts:68-83 | the placeholder text has sixteen lines |
| ExportDownload.SceneCount | app/api/export/download/route.ts:74 | a failed scene query reports 0 scenes |
| ExportDownload.Get | app/api/export/download/route.ts:21-106 | 400 exactly without a project id; 404 exactly for a missing project or a lookup error; a found project whose title is not a string gives 500 `Internal server error`, since `replace` throws; a download exactly for a found project with a string title, whose body is the UTF-8 placeholder text and whose `Content-Length` reads back as the body's length |
| ExportDownload.DefaultsGiveMp4 | app/api/export/download/route.ts:25-26 | without `format` the file is served as `video/mp4` under an `.mp4` name |
| JsText.Trim | app/api/audio/speech/route.ts:16 | the result is no longer than the text and has no whitespace at either end |
| JsText.TrimSpec | app/api/audio/speech/route.ts:16 | trimming yields nothing exactly for blank text, and adds no characters |
| JsText.TrimSlice | app/api/audio/speech/route.ts:16 | the trimmed text is the part of the text after its leading whitespace, with only whitespace after it |
| JsText.TrimUnique | app/api/audio/speech/route.ts:16 | any part of the text with only whitespace around it, empty or with non-whitespace at both ends, is the trimmed text |
| JsText.IndexOf | lib/storyParser.ts:48 | `indexOf`: the first occurrence from the start position, or -1 exactly when there is none |
| JsText.RemoveLeading | lib/storyParser.ts:48 | `replace` with a string removes the leading occurrence of a prefix the text starts with |
| JsText.RemoveAbsent | lib/storyParser.ts:48 | `replace` leaves text without the pattern unchanged |
| JsText.Split | lib/storyParser.ts:23 | the pieces are never empty in number and never contain the separator |
| JsText.JoinSplit | lib/storyParser.ts:23 | joining the pieces of a split gives the text back |
| JsText.SplitManyIffContains | lib/storyParser.ts:71-72 | a split has two or more pieces exactly when the separator occurs |
| JsText.ContainsOccurs | app/api/ai/character/route.ts:37 | `includes` holds exactly when the text occurs at some index |
| JsText.MissingChar | app/api/ai/scene/route.ts:16-19 | text lacking some character of a word does not include the word |
| JsText.ToLower | app/api/ai/character/route.ts:35 | no upper-case ASCII letter is left |
| JsText.NatToString | utils/videoGenerator.ts:46 | decimal digits, with no leading zero |
| JsText.IntToString | app/api/ai/scene/route.ts:22 | a leading `-` exactly for negative numbers, then decimal digits |
| JsText.DecimalRoundTrip | utils/videoGenerator.ts:46 | the printed number reads back as the number |
| JsText.LeadingZeros | utils/videoGenerator.ts:46 | zero padding does not change the value |
| JsText.PadZeros | utils/videoGenerator.ts:46 | padding digits with zeros keeps them digits with the same value |
| JsText.PadStart | utils/videoGenerator.ts:46 | `padStart`: the text right-aligned in the width, filled on the left |
| JsText.TruncRem | app/api/ai/scene/route.ts:62 | the remainder lies strictly between `-b` and `b`, agrees with the modulus for non-negative dividends and is never positive for negative ones |
| JsText.TruncRemOdd | app/api/generate/scene/route.ts:28 | negating the dividend negates the remainder |
| JsText.TruncRemPeriodic | app/api/ai/scene/route.ts:62 | for non-negative dividends the remainder by 4 repeats every 4 |
| JsText.TruncRemNegative | app/api/ai/scene/route.ts:62 | a negative dividend has remainder `-0` exactly when it is a multiple of 4 |
| JsText.Utf16Length | app/api/audio/speech/route.ts:23 | `length` counts UTF-16 units: between one and two per character |
| JsText.Utf16LengthAppend | app/api/audio/speech/route.ts:23 | lengths add under concatenation |
| JsText.Utf8 | app/api/export/download/route.ts:86-87 | each character takes between one and four bytes |

## Left out

- Network and storage: the Groq, Hugging Face, Unsplash and speech calls and the Supabase queries are not modelled. Their outcomes are inputs.
- FFmpeg and the browser: loading FFmpeg, `exec`, reading and writing files, the canvas, `Image` and `Audio` are not modelled. Only the scripts, file names and commands handed to FFmpeg are, and rendering and encoding outcomes are inputs.
- Pixel geometry: drawing backgrounds and characters, placeholder frames and the hue loop of the static fallback are floating-point canvas work.
- Clock and randomness: `Date.now()` and `new Date().toISOString()` are parameters.
- Number printing: durations are printed by a `show` parameter, since JavaScript's shortest round-trip printing of floating-point numbers is not modelled. Audio durations are `real`s, not IEEE doubles.
- Base64: the title-card audio extraction is a boolean input, and the base64 decoding of data URLs and encoding of speech audio are not modelled. The speech reply carries the raw bytes.
- Logging: `console.log` and `console.warn` calls are left out.
- Health checks: the `GET` health endpoints of the story and speech routes return constants.
- `utils/simpleVideoGenerator.ts`, `app/api/ai/story/route.ts`, `app/api/generate/story/route.ts` and the React pages are not part of this model.
- The mock `createMockVideo` of the export route is never called, and the scene rows of the export query are used only for their count.
- Instructions and timestamps: the story route's `instructions` texts and `success`/`timestamp` fields of error replies are not modelled. Each reply keeps its status, error and details.
- AiScene.Post: `sceneNumber` is a JSON number, with 0 standing for absent, `null` and `false`. A string scene number would be coerced by `%` and `+`, and that is not modelled.
- GenerateScene.Post: `sceneNumber` is a JSON number or absent. JavaScript's `-` would coerce other values (`null` finds no entry, `true` finds the first, `"3"` the third), and that is not modelled. The message of the `TypeError` thrown by `Response.json(undefined)` belongs to the runtime and is a parameter.
- AiScene.Head: `substring` counts UTF-16 units and the model counts characters. The two differ only for prompts with characters outside the Basic Multilingual Plane among their first 100.
- AiScene.Background: the Unsplash result is an input; the query URL sent to Unsplash is not modelled.
- SimpleStory.Excerpt: counts characters rather than UTF-16 units, like `AiScene.Head`.
- JsText.ToLower: maps only the ASCII capitals, KELVIN SIGN and LATIN CAPITAL LETTER I WITH DOT ABOVE, the characters whose lower-case forms contain ASCII letters. No other Unicode case mapping can create or destroy an occurrence of the ASCII keywords searched for.
- Json: a body that is not JSON, or is JSON `null`, is unreadable, because reading a field of `null` throws. Any other JSON value that is not an object (a number, string, boolean or array) is read as an object with no fields, since its property lookups give `undefined`. The `length` property an array or string body carries is not modelled; the story route refuses such a body for its missing prompt before it reads `length`.
- Object prototype names such as `constructor` are not modelled as present fields of request bodies.
- VideoPlan.RenderFrames: a failure inside a scene's rendering is an input per scene, not derived from the drawing code.
- StoryParser.SceneHeader: the scene number is the exact value of its digits. `parseInt` returns a double, so a digit run above 2^53 is rounded there (`SCENE 9007199254740993: x` gives 9007199254740992) and not here.
- StoryParser.ParseStoryText: the values of the text fields are stated line by line (`TitleLine`, `GenreLine`, `AgeGroupLine`, `SummaryLine`, `FieldOverwrite`, `UnrecognisedLine`) and by "no line, empty field"; there is no closed form for the whole text.
- Json: numbers are integers. Non-integer numbers such as a scene number of `2.5` are not modelled, and `String` of a number prints plain decimal digits where JavaScript switches to exponent form from 1e21 (`"1e+21"`).
- StoryRoute.LengthConfigFor: names inherited from `Object.prototype` (`constructor`, `toString` and the like) find a value in the JavaScript table, so the source goes on with an undefined scene count and token budget. Here they find no row and the no-configuration error is raised.

=== FILE: ai_scene.dfy ===
/**
 The scene-suggestion route of `app/api/ai/scene/route.ts`: the defaults for the prompt and the
 scene number, the first-match keyword for the image search, the description template, the
 character set picked by JavaScript's remainder, the Picsum fallback image, and the reply of the
 error path. The image service and the clock are parameters.
 */
module AiScene {
  import opened Wrappers
  import opened Json
  import opened JsText
  import opened Keywords

  const DefaultPrompt := "cartoon scene"
  const DefaultKeywords := "cartoon landscape"

  /**
   A request body: unreadable, or its `prompt` and `sceneNumber`. The scene number is a JSON
   number; 0 also stands for an absent or `null` field, since all three are falsy.
   */
  datatype SceneBody = Unreadable | Request(prompt: JsonValue, sceneNumber: int)

  /** The JSON reply; an absent `suggestedCharacters` is a set index outside the table. */
  datatype Reply = Reply(description: string, backgroundUrl: string, suggestedCharacters: Option<seq<string>>)

  // ---------------------------------------------------------------------------
  // Keywords
  // ---------------------------------------------------------------------------

  /** The ternary chain over the lower-cased prompt, in the source's order. */
  const KeywordRules: seq<Rule<string>> := [
    Rule(["forest"], "cartoon forest"),
    Rule(["city"], "cartoon city"),
    Rule(["beach"], "cartoon beach"),
    Rule(["house"], "cartoon house interior")]

  /** The search keywords for a prompt: the first rule that fires, else `cartoon landscape`. */
  function SceneKeywords(prompt: string): (k: string)
    ensures k in {"cartoon forest", "cartoon city", "cartoon beach", "cartoon house interior", DefaultKeywords}
  {
    FirstChoice(KeywordRules, ToLower(prompt)).GetOr(DefaultKeywords)
  }

  /** The keywords are chosen by the first word the lower-cased prompt contains, in the order forest, city, beach, house. */
  lemma KeywordPriority(prompt: string)
    ensures var t := ToLower(prompt);
      SceneKeywords(prompt) ==
        if Contains(t, "forest") then "cartoon forest"
        else if Contains(t, "city") then "cartoon city"
        else if Contains(t, "beach") then "cartoon beach"
        else if Contains(t, "house") then "cartoon house interior"
        else DefaultKeywords
  {
    var t := ToLower(prompt);
    var r0, r1, r2, r3 := KeywordRules[0], KeywordRules[1], KeywordRules[2], KeywordRules[3];
    assert KeywordRules == [r0] + ([r1] + ([r2] + ([r3] + [])));
    FirstChoiceCons(r0, [r1] + ([r2] + ([r3] + [])), t);
    FirstChoiceCons(r1, [r2] + ([r3] + []), t);
    FirstChoiceCons(r2, [r3] + [], t);
    FirstChoiceCons(r3, [], t);
    FiresOne("forest", "cartoon forest", t);
    FiresOne("city", "cartoon city", t);
    FiresOne("beach", "cartoon beach", t);
    FiresOne("house", "cartoon house interior", t);
  }

  // ---------------------------------------------------------------------------
  // Description
  // ---------------------------------------------------------------------------

  /** `s.substring(0, n)`: the first `n` characters, or all of a shorter string. */
  function Head(s: string, n: nat): (r: string)
    ensures r <= s
    ensures |r| == if |s| < n then |s| else n
  {
    if |s| < n then s else s[..n]
  }

  /** The description template `Scene <n>: <first 100 characters of the prompt>...`. */
  function Description(n: int, prompt: string): string {
    "Scene " + IntToString(n) + ": " + Head(prompt, 100) + "..."
  }

  /**
   A description reads back as its parts: the `Scene <n>: ` lead, then a prefix of the prompt of
   at most 100 characters (all of it when it is shorter), then `...`.
   */
  lemma DescriptionParts(n: int, prompt: string)
    ensures var lead := "Scene " + IntToString(n) + ": ";
      var d := Description(n, prompt);
      && |d| == |lead| + (if |prompt| < 100 then |prompt| else 100) + 3
      && d[..|lead|] == lead
      && d[|lead|..|d| - 3] <= prompt
      && d[|d| - 3..] == "..."
  {
    var lead := "Scene " + IntToString(n) + ": ";
    var h := Head(prompt, 100);
    var d := Description(n, prompt);
    assert d == lead + h + "...";
    assert d[..|lead|] == lead;
    assert d[|lead|..|d| - 3] == h;
    assert d[|d| - 3..] == "...";
  }

  // ---------------------------------------------------------------------------
  // Character sets and background
  // ---------------------------------------------------------------------------

  const CharacterSets: seq<seq<string>> := [
    ["Benny the Bear", "Rosie the Rabbit", "Oliver the Owl"],
    ["Max the Monkey", "Lily the Lion", "Toby the Turtle"],
    ["Chloe the Cat", "Danny the Dog", "Polly the Parrot"],
    ["Gary the Goat", "Fiona the Fox", "Henry the Hippo"]]

  /**
   `characterSets[sceneNumber % 4]` with JavaScript's remainder: a negative remainder indexes
   nothing. (A negative multiple of 4 gives `-0`, which indexes the first set.)
   */
  function CharacterSet(n: int): (r: Option<seq<string>>)
    ensures r.Some? <==> n >= 0 || n % 4 == 0
    ensures r.Some? ==> r.value in CharacterSets
  {
    var i := TruncRem(n, |CharacterSets|);
    if i >= 0 then Some(CharacterSets[i]) else None
  }

  /** For a non-negative scene number the set repeats every four scenes. */
  lemma CharacterSetPeriodic(n: int)
    requires n >= 0
    ensures CharacterSet(n + 4) == CharacterSet(n)
    ensures CharacterSet(n) == Some(CharacterSets[n % 4])
  {
    TruncRemPeriodic(n);
  }

  /** The Picsum image for a seed. */
  function Picsum(seed: int): string {
    "https://picsum.photos/seed/" + IntToString(seed) + "/800/600"
  }

  /**
   The background image: the Unsplash URL when the search gave a non-empty one (`unsplash` is
   `None` when no key is configured or the search failed), otherwise Picsum seeded with the time
   plus the scene number.
   */
  function Background(unsplash: Option<string>, now: int, n: int): (url: string)
    ensures unsplash.Some? && unsplash.value != "" ==> url == unsplash.value
    ensures unsplash.None? || unsplash.value == "" ==> url == Picsum(now + n)
  {
    var found := unsplash.GetOr("");
    if found == "" then Picsum(now + n) else found
  }

  // ---------------------------------------------------------------------------
  // POST
  // ---------------------------------------------------------------------------

  /** The reply of the `catch` block, which keeps the scene number read so far. */
  function ErrorReply(n: int, now: int): Reply {
    Reply("Scene " + IntToString(n) + ": A beautiful cartoon scene",
          "https://picsum.photos/800/600?random=" + IntToString(now),
          Some(["Hero", "Sidekick", "Villain"]))
  }

  /** `body.sceneNumber || 1` */
  function SceneNumberOf(sceneNumber: int): (n: int)
    ensures n != 0
    ensures sceneNumber != 0 ==> n == sceneNumber
  {
    if sceneNumber == 0 then 1 else sceneNumber
  }

  /**
   The route. An unreadable body fails before the scene number is read; a truthy prompt that is not
   a string makes `toLowerCase` throw after it is read.
   */
  function Post(body: SceneBody, unsplash: Option<string>, now: int): (r: Reply)
    ensures body.Unreadable? ==> r == ErrorReply(1, now)
    ensures body.Request? && Truthy(body.prompt) && !body.prompt.JString? ==>
      r == ErrorReply(SceneNumberOf(body.sceneNumber), now)
    ensures body.Request? && !Truthy(body.prompt) ==>
      r.description == Description(SceneNumberOf(body.sceneNumber), DefaultPrompt)
    ensures body.Request? && body.prompt.JString? && body.prompt.s != "" ==>
      r.description == Description(SceneNumberOf(body.sceneNumber), body.prompt.s)
    ensures body.Request? && (!Truthy(body.prompt) || body.prompt.JString?) ==>
      && r.backgroundUrl == Background(unsplash, now, SceneNumberOf(body.sceneNumber))
      && r.suggestedCharacters == CharacterSet(SceneNumberOf(body.sceneNumber))
  {
    match body
    case Unreadable => ErrorReply(1, now)
    case Request(prompt, number) =>
      var n := SceneNumberOf(number);
      var p := if Truthy(prompt) then prompt else JString(DefaultPrompt);
      if !p.JString? then ErrorReply(n, now)
      else Reply(Description(n, p.s), Background(unsplash, now, n), CharacterSet(n))
  }

  /** Scene number 0 (or none) and an empty prompt give the first scene with the default prompt. */
  lemma DefaultsApply(unsplash: Option<string>, now: int)
    ensures var r := Post(Request(JString(""), 0), unsplash, now);
      && r.description == Description(1, DefaultPrompt)
      && r.suggestedCharacters == Some(CharacterSets[1])
  {
  }

  /** A lower-case prompt without an `f`, `y`, `b` or `h` names none of the keywords, so it searches for `cartoon landscape`. */
  lemma NoKeywordLetters(p: string)
    requires forall k :: 0 <= k < |p| ==> 'a' <= p[k] <= 'z' || p[k] == ' '
    requires 'f' !in p && 'y' !in p && 'b' !in p && 'h' !in p
    ensures SceneKeywords(p) == DefaultKeywords
  {
    KeywordPriority(p);
    ToLowerAsciiIdentity(p);
    MissingChar(p, "forest", 0);
    MissingChar(p, "city", 3);
    MissingChar(p, "beach", 0);
    MissingChar(p, "house", 0);
  }

  /** The characters of the default prompt: lower-case letters and a space, none of them an `f`, `y`, `b` or `h`. */
  lemma DefaultPromptLetters()
    ensures forall k :: 0 <= k < |DefaultPrompt| ==> 'a' <= DefaultPrompt[k] <= 'z' || DefaultPrompt[k] == ' '
    ensures 'f' !in DefaultPrompt && 'y' !in DefaultPrompt && 'b' !in DefaultPrompt && 'h' !in DefaultPrompt
  {
  }

  /** An empty or missing prompt falls back to `cartoon scene`, which searches for `cartoon landscape`. */
  lemma DefaultPromptKeywords()
    ensures SceneKeywords(DefaultPrompt) == DefaultKeywords
  {
    DefaultPromptLetters();
    NoKeywordLetters(DefaultPrompt);
  }
}

=== FILE: avatar.dfy ===
/**
 The character route of `app/api/ai/character/route.ts`: a DiceBear avatar chosen by keywords of
 the lower-cased description, parameters added by one builder per style (later `set`s overwrite
 earlier ones), and the image URL formed from the style and the serialized parameters.
 */
module Avatar {
  import opened Wrappers
  import opened Json
  import opened JsText
  import opened SearchParams
  import opened Keywords

  // ---------------------------------------------------------------------------
  // Parameters
  // ---------------------------------------------------------------------------

  /** The parameters every character gets. */
  datatype Key = Seed | Format | BackgroundColor | Param(p: StyleParam)
  {
    /** The parameter's name in the query string. */
    function Name(): string {
      match this
      case Seed => "seed"
      case Format => "format"
      case BackgroundColor => "backgroundColor"
      case Param(p) => p.Name()
    }
  }

  /** The parameters the per-style builders add. */
  datatype StyleParam =
    | Top | HairColor | Mouth | Eyes | Accessories | AccessoriesProbability | FacialHair
    | RobotStyle | Color | LightColor | Face | Hair | Clothing | ClothingColor | Body | Hat
  {
    function Name(): string {
      match this
      case Top => "top"
      case HairColor => "hairColor"
      case Mouth => "mouth"
      case Eyes => "eyes"
      case Accessories => "accessories"
      case AccessoriesProbability => "accessoriesProbability"
      case FacialHair => "facialHair"
      case RobotStyle => "style"
      case Color => "color"
      case LightColor => "lightColor"
      case Face => "face"
      case Hair => "hair"
      case Clothing => "clothing"
      case ClothingColor => "clothingColor"
      case Body => "body"
      case Hat => "hat"
    }
  }

  /** The key with a given name, if there is one. */
  function KeyNamed(name: string): Option<Key> {
    if name == "seed" then Some(Seed)
    else if name == "format" then Some(Format)
    else if name == "backgroundColor" then Some(BackgroundColor)
    else if name == "top" then Some(Param(Top))
    else if name == "hairColor" then Some(Param(HairColor))
    else if name == "mouth" then Some(Param(Mouth))
    else if name == "eyes" then Some(Param(Eyes))
    else if name == "accessories" then Some(Param(Accessories))
    else if name == "accessoriesProbability" then Some(Param(AccessoriesProbability))
    else if name == "facialHair" then Some(Param(FacialHair))
    else if name == "style" then Some(Param(RobotStyle))
    else if name == "color" then Some(Param(Color))
    else if name == "lightColor" then Some(Param(LightColor))
    else if name == "face" then Some(Param(Face))
    else if name == "hair" then Some(Param(Hair))
    else if name == "clothing" then Some(Param(Clothing))
    else if name == "clothingColor" then Some(Param(ClothingColor))
    else if name == "body" then Some(Param(Body))
    else if name == "hat" then Some(Param(Hat))
    else None
  }

  /** Reading a key's name back gives the key. */
  lemma KeyNameRoundTrip(k: Key)
    ensures KeyNamed(k.Name()) == Some(k)
  {
  }

  /** Distinct keys have distinct names. */
  lemma KeyNamesDistinct()
    ensures forall a: Key, b: Key :: a.Name() == b.Name() ==> a == b
  {
    forall a: Key, b: Key | a.Name() == b.Name() ensures a == b {
      KeyNameRoundTrip(a);
      KeyNameRoundTrip(b);
    }
  }

  /** An unconditional `params.set(key, value)`. */
  function Put(ps: Params<Key>, key: Key, value: string): (r: Params<Key>)
    ensures Lookup(r, key) == Some(value)
    ensures forall n :: n != key ==> Lookup(r, n) == Lookup(ps, n)
    ensures UniqueNames(ps) ==> UniqueNames(r)
  {
    SetKeepsUnique(ps, key, value);
    Set(ps, key, value)
  }

  lemma SetKeepsUnique(ps: Params<Key>, key: Key, value: string)
    ensures UniqueNames(ps) ==> UniqueNames(Set(ps, key, value))
  {
    if UniqueNames(ps) {
      SetUnique(ps, key, value);
    }
  }

  /** `if (c1) params.set(key, v1) else if (c2) params.set(key, v2) ...`. */
  function SetFirst(ps: Params<Key>, key: Key, rules: seq<Rule<string>>, text: string): (r: Params<Key>)
    ensures Lookup(r, key) == FirstChoice(rules, text).OrElse(Lookup(ps, key))
    ensures forall n :: n != key ==> Lookup(r, n) == Lookup(ps, n)
    ensures UniqueNames(ps) ==> UniqueNames(r)
  {
    match FirstChoice(rules, text)
    case None => ps
    case Some(v) => Put(ps, key, v)
  }

  /** `if (c1) params.set(key, v1); if (c2) params.set(key, v2); ...`, the `if`s in order. */
  function SetEach(ps: Params<Key>, key: Key, rules: seq<Rule<string>>, text: string): (r: Params<Key>)
    ensures forall n :: n != key ==> Lookup(r, n) == Lookup(ps, n)
    ensures UniqueNames(ps) ==> UniqueNames(r)
  {
    if |rules| == 0 then ps
    else
      var p := SetEach(ps, key, rules[..|rules| - 1], text);
      var last := rules[|rules| - 1];
      if Fires(last, text) then Put(p, key, last.value) else p
  }

  /** In a run of `if`s that all set one key, the last one that fires decides the value. */
  lemma {:induction false} SetEachLastWins(ps: Params<Key>, key: Key, rules: seq<Rule<string>>, text: string)
    ensures SetEach(ps, key, rules, text)
      == match LastChoice(rules, text) case None => ps case Some(v) => Set(ps, key, v)
  {
    if |rules| > 0 {
      var init := rules[..|rules| - 1];
      SetEachLastWins(ps, key, init, text);
      var last := rules[|rules| - 1];
      if Fires(last, text) {
        match LastChoice(init, text)
        case None =>
        case Some(v) => SetSet(ps, key, v, last.value);
      }
    }
  }

  /** One group of `set`s on a single key, as a builder writes it. */
  datatype Step =
    | First(key: StyleParam, rules: seq<Rule<string>>)   // an `if / else if` chain
    | Each(key: StyleParam, rules: seq<Rule<string>>)    // independent `if`s, in order

  /** The value a step leaves under its key, if it writes one. */
  function Effect(s: Step, text: string): Option<string> {
    match s
    case First(_, rules) => FirstChoice(rules, text)
    case Each(_, rules) => LastChoice(rules, text)
  }

  /** Running one step: its key ends with the step's value, if any, and nothing else changes. */
  function Run(ps: Params<Key>, s: Step, text: string): (r: Params<Key>)
    ensures Lookup(r, Param(s.key)) == Effect(s, text).OrElse(Lookup(ps, Param(s.key)))
    ensures forall n :: n != Param(s.key) ==> Lookup(r, n) == Lookup(ps, n)
    ensures UniqueNames(ps) ==> UniqueNames(r)
  {
    match s
    case First(key, rules) => SetFirst(ps, Param(key), rules, text)
    case Each(key, rules) => SetEachLastWins(ps, Param(key), rules, text); SetEach(ps, Param(key), rules, text)
  }

  /** Running the steps in order; the parameters every character gets are never touched. */
  function Apply(ps: Params<Key>, steps: seq<Step>, text: string): (r: Params<Key>)
    ensures forall n: Key :: !n.Param? ==> Lookup(r, n) == Lookup(ps, n)
    ensures UniqueNames(ps) ==> UniqueNames(r)
    decreases |steps|
  {
    if |steps| == 0 then ps else Apply(Run(ps, steps[0], text), steps[1..], text)
  }

  /** A key that exactly one step writes ends with that step's value, if it writes one. */
  lemma {:induction false} ApplyOnly(ps: Params<Key>, steps: seq<Step>, i: nat, text: string)
    requires i < |steps|
    requires forall j :: 0 <= j < |steps| && j != i ==> steps[j].key != steps[i].key
    ensures Lookup(Apply(ps, steps, text), Param(steps[i].key))
      == Effect(steps[i], text).OrElse(Lookup(ps, Param(steps[i].key)))
    decreases i
  {
    var p := Run(ps, steps[0], text);
    if i == 0 {
      ApplyUntouched(p, steps[1..], steps[0].key, text);
    } else {
      ApplyOnly(p, steps[1..], i - 1, text);
    }
  }

  /** `ApplyOnly` for a builder run after the background colour is set. */
  lemma ConfigureOnly(steps: seq<Step>, ps: Params<Key>, i: nat, d: string)
    requires i < |steps|
    requires forall j :: 0 <= j < |steps| && j != i ==> steps[j].key != steps[i].key
    ensures Lookup(Configure(steps, ps, d), Param(steps[i].key))
      == Effect(steps[i], d).OrElse(Lookup(ps, Param(steps[i].key)))
  {
    ApplyOnly(Put(ps, BackgroundColor, Background(d)), steps, i, d);
  }

  /** A key no step writes keeps its value. */
  lemma {:induction false} ApplyUntouched(ps: Params<Key>, steps: seq<Step>, key: StyleParam, text: string)
    requires forall j :: 0 <= j < |steps| ==> steps[j].key != key
    ensures Lookup(Apply(ps, steps, text), Param(key)) == Lookup(ps, Param(key))
    decreases |steps|
  {
    if |steps| > 0 {
      ApplyUntouched(Run(ps, steps[0], text), steps[1..], key, text);
    }
  }

  // ---------------------------------------------------------------------------
  // Styles
  // ---------------------------------------------------------------------------

  /** The DiceBear 9.x styles the route knows about. */
  datatype Style =
    | Adventurer | AdventurerNeutral | Avataaars | AvataaarsNeutral | BigEars | BigEarsNeutral
    | BigSmile | Bottts | BotttsNeutral | Croodles | CroodlesNeutral | FunEmoji | Icons | Identicon
    | Lorelei | LoreleiNeutral | Micah | Miniavs | OpenPeeps | Personas | PixelArt | PixelArtNeutral
    | Shapes | Thumbs
  {
    /** The style's name in DiceBear URLs. */
    function Name(): string {
      match this
      case Adventurer => "adventurer"
      case AdventurerNeutral => "adventurer-neutral"
      case Avataaars => "avataaars"
      case AvataaarsNeutral => "avataaars-neutral"
      case BigEars => "big-ears"
      case BigEarsNeutral => "big-ears-neutral"
      case BigSmile => "big-smile"
      case Bottts => "bottts"
      case BotttsNeutral => "bottts-neutral"
      case Croodles => "croodles"
      case CroodlesNeutral => "croodles-neutral"
      case FunEmoji => "fun-emoji"
      case Icons => "icons"
      case Identicon => "identicon"
      case Lorelei => "lorelei"
      case LoreleiNeutral => "lorelei-neutral"
      case Micah => "micah"
      case Miniavs => "miniavs"
      case OpenPeeps => "open-peeps"
      case Personas => "personas"
      case PixelArt => "pixel-art"
      case PixelArtNeutral => "pixel-art-neutral"
      case Shapes => "shapes"
      case Thumbs => "thumbs"
    }
  }

  /** The keys of the style table, in the order they are declared. */
  const StyleKeys: seq<string> := [
    "adventurer", "adventurer-neutral", "avataaars", "avataaars-neutral", "big-ears",
    "big-ears-neutral", "big-smile", "bottts", "bottts-neutral", "croodles", "croodles-neutral",
    "fun-emoji", "icons", "identicon", "lorelei", "lorelei-neutral", "micah", "miniavs",
    "open-peeps", "personas", "pixel-art", "pixel-art-neutral", "shapes", "thumbs"
  ]

  /** Every style's name is a key of the style table. */
  lemma StyleNameIsKey(st: Style)
    ensures st.Name() in StyleKeys
  {
  }

  /** The keyword table of `getDiceBearStyle`, tested in this order. */
  const StyleRules: seq<Rule<Style>> := [
    Rule(["robot", "cyborg"], Bottts),
    Rule(["pixel", "8bit"], PixelArt),
    Rule(["emoji", "smiley"], FunEmoji),
    Rule(["icon", "symbol"], Icons),
    Rule(["identicon", "github"], Identicon),
    Rule(["minimal", "simple"], Miniavs),
    Rule(["shapes", "geometric"], Shapes),
    Rule(["thumbs", "thumb"], Thumbs),
    Rule(["neutral", "professional"], AvataaarsNeutral),
    Rule(["colorful", "vibrant"], Lorelei),
    Rule(["cartoon", "funny"], Micah),
    Rule(["sketch", "doodle"], OpenPeeps),
    Rule(["person", "detailed"], Personas),
    Rule(["adventure", "explorer"], Adventurer),
    Rule(["cute", "sweet"], BigEars),
    Rule(["smile", "happy"], BigSmile),
    Rule(["croodle", "monster"], Croodles)
  ]

  /**
   `getDiceBearStyle`: the style of the first rule whose keyword occurs in the lower-cased
   description; `avataaars` when none does.
   */
  function StyleFor(description: string): (st: Style)
    ensures var d := ToLower(description); var i := FirstIndex(StyleRules, d);
      && (i < |StyleRules| ==> st == StyleRules[i].value)
      && (i == |StyleRules| ==> st == Avataaars)
  {
    FirstChoice(StyleRules, ToLower(description)).GetOr(Avataaars)
  }

  /**
   The `icon` keyword is tested before `identicon`, so a description mentioning `identicon`
   (and nothing of the three rules before) gets the `icons` style.
   */
  lemma IdenticonGivesIcons(description: string)
    requires var d := ToLower(description);
      Contains(d, "identicon") && forall j :: 0 <= j < 3 ==> !Fires(StyleRules[j], d)
    ensures StyleFor(description) == Icons
  {
    var d := ToLower(description);
    IconInIdenticon(d);
    FiresTwo("icon", "symbol", Icons, d);
    FirstIndexAt(StyleRules, d, 3);
  }

  /** Hence the `identicon` style is only reached through the word `github`. */
  lemma IdenticonNeedsGithub(description: string)
    requires StyleFor(description) == Identicon
    ensures Contains(ToLower(description), "github")
  {
    var d := ToLower(description);
    var i := FirstIndex(StyleRules, d);
    assert StyleRules[i].value == Identicon;
    assert i == 4;
    assert StyleRules[3] == Rule(["icon", "symbol"], Icons) && !Fires(StyleRules[3], d);
    assert StyleRules[4] == Rule(["identicon", "github"], Identicon) && Fires(StyleRules[4], d);
    IconInIdenticon(d);
    FiresTwo("icon", "symbol", Icons, d);
    FiresTwo("identicon", "github", Identicon, d);
  }

  /** Every text containing `identicon` contains `icon`. */
  lemma IconInIdenticon(d: string)
    ensures Contains(d, "identicon") ==> Contains(d, "icon")
  {
    if Contains(d, "identicon") {
      ContainsOccurs("identicon", "icon");
      assert OccursAt("identicon", "icon", 5);
      ContainsTransitive(d, "identicon", "icon");
    }
  }

  // ---------------------------------------------------------------------------
  // Background colour
  // ---------------------------------------------------------------------------

  /** The colour phrases of `getBackgroundColor`, tested in this order. */
  const BackgroundRules: seq<Rule<string>> := [
    Rule(["blue background", "sky"], "93c5fd"),
    Rule(["green background", "grass"], "86efac"),
    Rule(["red background"], "fca5a5"),
    Rule(["yellow background", "sun"], "fde047"),
    Rule(["purple background"], "d8b4fe"),
    Rule(["pink background"], "f9a8d4"),
    Rule(["orange background"], "fdba74"),
    Rule(["gray background", "grey background"], "d1d5db"),
    Rule(["black background"], "000000"),
    Rule(["white background"], "ffffff")
  ]

  /** The gradient used when no colour phrase occurs. */
  const DefaultBackground := "b6e3f4,c0aede,d1d4f9"

  /** `getBackgroundColor`: the colour of the first phrase found, else the default gradient. */
  function Background(d: string): (c: string)
    ensures var i := FirstIndex(BackgroundRules, d);
      && (i < |BackgroundRules| ==> c == BackgroundRules[i].value)
      && (i == |BackgroundRules| ==> c == DefaultBackground)
  {
    FirstChoice(BackgroundRules, d).GetOr(DefaultBackground)
  }

  // ---------------------------------------------------------------------------
  // Per-style builders
  // ---------------------------------------------------------------------------

  const AvataaarsHairColors: seq<Rule<string>> := [
    Rule(["blonde"], "f8d25c"), Rule(["brown hair"], "a78c5b"), Rule(["black hair"], "2c2c2c"),
    Rule(["red hair"], "c2560a"), Rule(["blue hair"], "1e40af"), Rule(["green hair"], "15803d"),
    Rule(["purple hair"], "7c3aed"), Rule(["pink hair"], "db2777")
  ]

  const AvataaarsEyes: seq<Rule<string>> := [
    Rule(["happy"], "happy"), Rule(["sad"], "sad"), Rule(["closed"], "closed"), Rule(["wink"], "wink")
  ]

  const LoreleiAccessories: seq<Rule<string>> := [
    Rule(["flower", "flowers"], "flower"), Rule(["glasses"], "glasses")
  ]

  /** `configureAvataaars` after the background. */
  const AvataaarsSteps: seq<Step> := [
    First(Top, [Rule(["long hair"], "longHair"), Rule(["short hair"], "shortHair"), Rule(["bald"], "noHair")]),
    Each(HairColor, AvataaarsHairColors),
    First(Mouth, [Rule(["smile", "happy"], "smile"), Rule(["sad"], "sad")]),
    Each(Eyes, AvataaarsEyes),
    Each(Accessories, [Rule(["glasses"], "round")]),
    Each(AccessoriesProbability, [Rule(["glasses"], "100")]),
    First(FacialHair, [Rule(["beard", "mustache"], "beard")])
  ]

  /** `configureBottts` after the background. */
  const BotttsSteps: seq<Step> := [
    Each(RobotStyle, [Rule(["detailed"], "detailed"), Rule(["simple"], "circles")]),
    First(Color, [
      Rule(["silver", "metal"], "d1d5db"), Rule(["gold"], "fbbf24"), Rule(["blue"], "1d4ed8"),
      Rule(["red"], "dc2626"), Rule(["green"], "16a34a")]),
    First(LightColor, [
      Rule(["blue light", "blue eye"], "3b82f6"), Rule(["red light", "red eye"], "ef4444"),
      Rule(["green light", "green eye"], "10b981")])
  ]

  /** `configureMicah` after the background. */
  const MicahSteps: seq<Step> := [
    Each(Face, [Rule(["happy"], "happy"), Rule(["sad"], "sad"), Rule(["surprised"], "surprised"), Rule(["angry"], "angry")]),
    Each(Hair, [Rule(["short hair"], "short"), Rule(["long hair"], "long"), Rule(["bald"], "none")]),
    Each(HairColor, [Rule(["pink hair"], "f472b6"), Rule(["blue hair"], "60a5fa"), Rule(["green hair"], "34d399")])
  ]

  /** `configureLorelei` after the background. */
  const LoreleiSteps: seq<Step> := [
    Each(Hair, [Rule(["long"], "long"), Rule(["short"], "short"), Rule(["bald"], "none")]),
    Each(HairColor, [Rule(["pink"], "pink"), Rule(["blue"], "blue"), Rule(["green"], "green"), Rule(["purple"], "purple")]),
    Each(Accessories, LoreleiAccessories)
  ]

  /** `configurePersonas` after the background. */
  const PersonasSteps: seq<Step> := [
    Each(Clothing, [Rule(["shirt"], "shirt"), Rule(["hoodie"], "hoodie"), Rule(["formal"], "formal")]),
    Each(ClothingColor, [Rule(["red clothing"], "red"), Rule(["blue clothing"], "blue"), Rule(["green clothing"], "green")]),
    Each(Accessories, [Rule(["glasses"], "glasses")])
  ]

  /** `configurePixelArt` after the background. */
  const PixelArtSteps: seq<Step> := [
    Each(Hair, [Rule(["short"], "short01,short02,short03"), Rule(["long"], "long01,long02,long03")]),
    Each(Accessories, [Rule(["glasses"], "glasses01,glasses02,glasses03")])
  ]

  /** `configureAdventurer` after the background. */
  const AdventurerSteps: seq<Step> := [
    Each(Hair, [Rule(["short"], "short01,short02"), Rule(["long"], "long01,long02")]),
    Each(Accessories, [Rule(["glasses"], "glasses")]),
    Each(Hat, [Rule(["hat"], "hat01,hat02")])
  ]

  /** `configureBigEars` after the background. */
  const BigEarsSteps: seq<Step> := [
    Each(Face, [Rule(["happy"], "smile"), Rule(["sad"], "sad")]),
    Each(Hair, [Rule(["short"], "short"), Rule(["long"], "long")])
  ]

  /** `configureOpenPeeps` after the background. */
  const OpenPeepsSteps: seq<Step> := [
    Each(Body, [Rule(["sitting"], "sitting"), Rule(["standing"], "standing")]),
    Each(Face, [Rule(["smile"], "smile"), Rule(["sad"], "sad")])
  ]

  /** The builder each style uses after the background; the other styles get the background only. */
  function Recipe(style: Style): seq<Step> {
    match style
    case Avataaars => AvataaarsSteps
    case Bottts => BotttsSteps
    case Micah => MicahSteps
    case Lorelei => LoreleiSteps
    case Personas => PersonasSteps
    case PixelArt => PixelArtSteps
    case Adventurer => AdventurerSteps
    case BigEars => BigEarsSteps
    case OpenPeeps => OpenPeepsSteps
    case _ => []
  }

  /**
   One branch of the `switch (style)` of `generateDiceBearCharacter`: every branch sets
   `backgroundColor` first and then runs its builder's steps on the lower-cased description.
   */
  function Configure(steps: seq<Step>, ps: Params<Key>, d: string): (r: Params<Key>)
    ensures Lookup(r, BackgroundColor) == Some(Background(d))
    ensures Lookup(r, Seed) == Lookup(ps, Seed) && Lookup(r, Format) == Lookup(ps, Format)
    ensures UniqueNames(ps) ==> UniqueNames(r)
  {
    Apply(Put(ps, BackgroundColor, Background(d)), steps, d)
  }

  // ---------------------------------------------------------------------------
  // Later `set`s win
  // ---------------------------------------------------------------------------

  /** The eyes rules of the Avataaars builder: the last word that occurs wins. */
  lemma AvataaarsEyesChoice(d: string)
    ensures LastChoice(AvataaarsEyes, d)
      == if Contains(d, "wink") then Some("wink")
         else if Contains(d, "closed") then Some("closed")
         else if Contains(d, "sad") then Some("sad")
         else if Contains(d, "happy") then Some("happy")
         else None
  {
    FiresOne("happy", "happy", d);
    FiresOne("sad", "sad", d);
    FiresOne("closed", "closed", d);
    FiresOne("wink", "wink", d);
    LastChoiceSnoc(AvataaarsEyes[..3], AvataaarsEyes[3], d);
    LastChoiceSnoc(AvataaarsEyes[..2], AvataaarsEyes[2], d);
    LastChoiceSnoc(AvataaarsEyes[..1], AvataaarsEyes[1], d);
    LastChoiceSnoc([], AvataaarsEyes[0], d);
  }

  /** Avataaars eyes: `wink` over `closed` over `sad` over `happy`, as the later `set`s overwrite. */
  lemma AvataaarsEyesPriority(ps: Params<Key>, d: string)
    ensures Lookup(Configure(AvataaarsSteps, ps, d), Param(Eyes))
      == if Contains(d, "wink") then Some("wink")
         else if Contains(d, "closed") then Some("closed")
         else if Contains(d, "sad") then Some("sad")
         else if Contains(d, "happy") then Some("happy")
         else Lookup(ps, Param(Eyes))
  {
    AvataaarsKeyOnce(3);
    ConfigureOnly(AvataaarsSteps, ps, 3, d);
    AvataaarsEyesStep(d);
    AvataaarsEyesChoice(d);
  }

  /** The fourth Avataaars step sets the eyes by the last matching rule. */
  lemma AvataaarsEyesStep(d: string)
    ensures AvataaarsSteps[3].key == Eyes && Effect(AvataaarsSteps[3], d) == LastChoice(AvataaarsEyes, d)
  {
  }

  /** Avataaars hair colour: the last colour phrase in the builder's order that occurs wins. */
  lemma AvataaarsHairColorLastWins(ps: Params<Key>, d: string)
    ensures Lookup(Configure(AvataaarsSteps, ps, d), Param(HairColor))
      == LastChoice(AvataaarsHairColors, d).OrElse(Lookup(ps, Param(HairColor)))
  {
    AvataaarsKeyOnce(1);
    ConfigureOnly(AvataaarsSteps, ps, 1, d);
  }

  /** Each step of the Avataaars builder writes a key no other step writes. */
  lemma AvataaarsKeyOnce(i: nat)
    requires i < |AvataaarsSteps|
    ensures forall j :: 0 <= j < |AvataaarsSteps| && j != i ==> AvataaarsSteps[j].key != AvataaarsSteps[i].key
  {
    var s := AvataaarsSteps;
    assert s[0].key == Top && s[1].key == HairColor && s[2].key == Mouth && s[3].key == Eyes;
    assert s[4].key == Accessories && s[5].key == AccessoriesProbability && s[6].key == FacialHair;
  }

  /** Lorelei accessories: glasses overwrite a flower. */
  lemma LoreleiGlassesOverFlower(ps: Params<Key>, d: string)
    ensures Lookup(Configure(LoreleiSteps, ps, d), Param(Accessories))
      == if Contains(d, "glasses") then Some("glasses")
         else if Contains(d, "flower") || Contains(d, "flowers") then Some("flower")
         else Lookup(ps, Param(Accessories))
  {
    ConfigureOnly(LoreleiSteps, ps, 2, d);
    FiresTwo("flower", "flowers", "flower", d);
    FiresOne("glasses", "glasses", d);
    LastChoiceSnoc(LoreleiAccessories[..1], LoreleiAccessories[1], d);
    LastChoiceSnoc([], LoreleiAccessories[0], d);
  }

  // ---------------------------------------------------------------------------
  // The generated character
  // ---------------------------------------------------------------------------

  /**
   `params.set('seed', characterName || \`character-${Date.now()}\`)`, with the clock reading passed
   in: a truthy name is kept and `set` turns it into its string, anything else gives the clock seed.
   */
  function SeedFor(name: JsonValue, now: int): (r: string)
    ensures name.JString? && name.s != "" ==> r == name.s
    ensures name.JNumber? && name.n != 0 ==> r == IntToString(name.n)
    ensures !Truthy(name) ==> StartsWith(r, "character-") && r[10..] == IntToString(now)
  {
    if Truthy(name) then AsString(name)
    else
      var r := "character-" + IntToString(now);
      StartsWithPrefix(r, "character-");
      assert r[..10] == "character-";
      r
  }

  /** The parameters in the order they were first set: seed, format, then the style's. */
  function BuildParams(seed: string, description: string): (ps: Params<Key>)
    ensures UniqueNames(ps)
    ensures Lookup(ps, Seed) == Some(seed)
    ensures Lookup(ps, Format) == Some("svg")
    ensures Lookup(ps, BackgroundColor) == Some(Background(ToLower(description)))
  {
    var p := Put(Put([], Seed, seed), Format, "svg");
    Configure(Recipe(StyleFor(description)), p, ToLower(description))
  }

  /** The parameters as the query string names them. */
  function Named(ps: Params<Key>): Params<string> {
    Rename(ps, (k: Key) => k.Name())
  }

  /** What `generateDiceBearCharacter` returns. */
  datatype Character = Character(imageUrl: string, style: Style, params: map<string, string>)

  const DiceBearBase := "https://api.dicebear.com/9.x/"

  /** The address of a style's SVG endpoint, up to and including the `?`. */
  function Endpoint(style: Style): string {
    DiceBearBase + style.Name() + "/svg?"
  }

  /**
   `generateDiceBearCharacter`: the style chosen from the description, the image URL of that style
   with the parameters serialized, and the parameters copied into a plain object.
   */
  function Generate(name: JsonValue, description: string, now: int): (c: Character)
    ensures c.style == StyleFor(description)
    ensures "seed" in c.params && c.params["seed"] == SeedFor(name, now)
    ensures "format" in c.params && c.params["format"] == "svg"
    ensures "backgroundColor" in c.params && c.params["backgroundColor"] == Background(ToLower(description))
    ensures forall k: Key :: k.Name() in c.params <==> Lookup(BuildParams(SeedFor(name, now), description), k).Some?
    ensures |Endpoint(c.style)| <= |c.imageUrl| && c.imageUrl[..|Endpoint(c.style)|] == Endpoint(c.style)
  {
    var ps := BuildParams(SeedFor(name, now), description);
    var style := StyleFor(description);
    var obj := ToObject(Named(ps));
    GenerateFacts(ps);
    Character(Endpoint(style) + Query(Named(ps)), style, obj)
  }

  /** The object built with `forEach` holds exactly the pairs `get` finds, under their names. */
  lemma GenerateFacts(ps: Params<Key>)
    requires UniqueNames(ps)
    ensures forall k: Key :: k.Name() in ToObject(Named(ps)) <==> Lookup(ps, k).Some?
    ensures forall k: Key :: k.Name() in ToObject(Named(ps)) ==> ToObject(Named(ps))[k.Name()] == Lookup(ps, k).value
  {
    KeyNamesDistinct();
    forall k: Key
      ensures k.Name() in ToObject(Named(ps)) <==> Lookup(ps, k).Some?
      ensures k.Name() in ToObject(Named(ps)) ==> ToObject(Named(ps))[k.Name()] == Lookup(ps, k).value
    {
      RenameLookup(ps, (k: Key) => k.Name(), k);
      ToObjectLookup(Named(ps), k.Name());
    }
  }

  /**
   The query part of the image URL carries the parameters: split at `&` it gives one
   `name=value` piece per parameter, in order, and each side decodes to the UTF-8 bytes of the
   parameter's name and value.
   */
  lemma UrlCarriesParams(name: JsonValue, description: string, now: int)
    ensures var c := Generate(name, description, now);
      var ps := Named(BuildParams(SeedFor(name, now), description));
      var pieces := Split(c.imageUrl[|Endpoint(c.style)|..], '&');
      && |pieces| == |ps|
      && forall k :: 0 <= k < |ps| ==>
        var halves := Split(pieces[k], '=');
        && |halves| == 2
        && FormDecode(halves[0]) == Some(Utf8(ps[k].0))
        && FormDecode(halves[1]) == Some(Utf8(ps[k].1))
  {
    var c := Generate(name, description, now);
    var ps := Named(BuildParams(SeedFor(name, now), description));
    assert c.imageUrl[|Endpoint(c.style)|..] == Query(ps);
    QueryRoundTrip(ps);
  }

  /** With a truthy name the clock plays no part: equal inputs give the same character. */
  lemma GenerateDeterministic(name: JsonValue, description: string, t1: int, t2: int)
    requires Truthy(name)
    ensures Generate(name, description, t1) == Generate(name, description, t2)
  {
  }

  // ---------------------------------------------------------------------------
  // The POST handler
  // ---------------------------------------------------------------------------

  /** The JSON reply of the route. */
  datatype Reply = Reply(
    name: JsonValue, description: string, imageUrl: string, characterType: string,
    style: string, parameters: Option<map<string, string>>, note: string)

  /**
   The reply of the `catch` branch. It reads the request body a second time, which always fails
   because the body has been consumed, so the name is always `Character` and the description empty.
   */
  const Fallback := Reply(
    JString("Character"), "",
    DiceBearBase + "avataaars/svg?seed=Character&backgroundColor=b6e3f4&mouth=smile&eyes=happy",
    "avatar", "avataaars", None, "Fallback avatar generated")

  /** What the handler reads from the request: the name to use and the description. */
  datatype Request = Request(name: JsonValue, description: string)

  /**
   The reading of the body: `body` is the parsed request object (`None` when it is not JSON or is
   `null`, which makes the handler throw). The name defaults to `Character`, the description to the
   empty string; a truthy description that is not a string makes `toLowerCase` throw. `None` here
   stands for a throw.
   */
  function ReadBody(body: Option<map<string, JsonValue>>): (q: Option<Request>)
    ensures q.Some? <==>
      && body.Some?
      && (Field(body.value, "description").JString? || !Truthy(Field(body.value, "description")))
    ensures q.Some? ==> Truthy(q.value.name)
    ensures q.Some? ==>
      var nameField := Field(body.value, "characterName");
      var descField := Field(body.value, "description");
      && q.value.name == (if Truthy(nameField) then nameField else JString("Character"))
      && q.value.description == (if Truthy(descField) then descField.s else "")
  {
    match body
    case None => None
    case Some(fields) =>
      var nameField := Field(fields, "characterName");
      var descField := Field(fields, "description");
      if Truthy(descField) && !descField.JString? then None
      else
        Some(Request(if Truthy(nameField) then nameField else JString("Character"),
          if Truthy(descField) then descField.s else ""))
  }

  /** `POST`: the reply for the request read from the body, or the fallback when reading throws. */
  function Post(body: Option<map<string, JsonValue>>, now: int): (r: Reply)
    ensures ReadBody(body).None? ==> r == Fallback
    ensures ReadBody(body).Some? ==>
      && r.name == ReadBody(body).value.name
      && r.description == ReadBody(body).value.description
      && r.characterType == "dicebear_avatar"
      && r.style == StyleFor(r.description).Name()
      && r.parameters.Some? && "seed" in r.parameters.value
      && r.parameters.value["seed"] == AsString(r.name)
  {
    match ReadBody(body)
    case None => Fallback
    case Some(q) => Respond(q.name, q.description, now)
  }

  /** The reply of the `try` branch for a (truthy) name and a description. */
  function Respond(name: JsonValue, description: string, now: int): (r: Reply)
    requires Truthy(name)
    ensures r.name == name && r.description == description
    ensures r.characterType == "dicebear_avatar"
    ensures r.style == StyleFor(description).Name()
    ensures r.parameters.Some? && "seed" in r.parameters.value
    ensures r.parameters.value["seed"] == AsString(name)
  {
    var c := Generate(name, description, now);
    Reply(name, description, c.imageUrl, "dicebear_avatar", c.style.Name(), Some(c.params),
      "Generated with DiceBear " + c.style.Name() + " style. Using v9.x API.")
  }

  /**
   A truthy value other than an array never prints as the empty string; an array is truthy even
   when it prints as nothing, as the empty array and an array of `null`s do.
   */
  lemma AsStringTruthy(v: JsonValue)
    requires Truthy(v)
    ensures !v.JArray? ==> AsString(v) != ""
    ensures AsString(JArray([])) == "" && AsString(JArray([JNull, JNull])) == ","
  {
    assert ItemStrings(JArray([JNull, JNull]), 0) == ["", ""];
  }

  /**
   An array name is kept by `||` and printed by `set`: `["a", "b"]` seeds `a,b`, and the empty array
   seeds the empty string rather than the clock seed.
   */
  lemma ArrayNameSeed(description: string, now: int)
    ensures var r := Respond(JArray([JString("a"), JString("b")]), description, now);
      r.parameters.Some? && "seed" in r.parameters.value && r.parameters.value["seed"] == "a,b"
    ensures var r := Respond(JArray([]), description, now);
      r.parameters.Some? && "seed" in r.parameters.value && r.parameters.value["seed"] == ""
  {
    ArrayStrings();
  }

  /** `String(["a", "b"])` is `a,b` and `String([])` is empty. */
  lemma ArrayStrings()
    ensures AsString(JArray([JString("a"), JString("b")])) == "a,b"
    ensures AsString(JArray([])) == ""
  {
    assert ItemStrings(JArray([JString("a"), JString("b")]), 0) == ["a", "b"];
    assert Join(["a", "b"], ",") == "a" + "," + "b";
  }

  /**
   The handler never depends on the clock: the name it passes on is never empty, so the
   `Date.now()` seed is unreachable from the route.
   */
  lemma PostIgnoresClock(body: Option<map<string, JsonValue>>, t1: int, t2: int)
    ensures Post(body, t1) == Post(body, t2)
  {
    if ReadBody(body).Some? {
      var q := ReadBody(body).value;
      RespondIgnoresClock(q.name, q.description, t1, t2);
    }
  }

  /** The reply for a given name and description is the same at every clock reading. */
  lemma RespondIgnoresClock(name: JsonValue, description: string, t1: int, t2: int)
    requires Truthy(name)
    ensures Respond(name, description, t1) == Respond(name, description, t2)
  {
    GenerateDeterministic(name, description, t1, t2);
  }

  /** A request without a name is answered as `Character`, and that is the seed. */
  lemma PostDefaultName(fields: map<string, JsonValue>, now: int)
    requires !Truthy(Field(fields, "characterName"))
    requires Field(fields, "description").JString? || !Truthy(Field(fields, "description"))
    ensures var r := Post(Some(fields), now);
      r.name == JString("Character") && r.parameters.Some? && "seed" in r.parameters.value
      && r.parameters.value["seed"] == "Character"
  {
    var q := ReadBody(Some(fields));
    assert q.Some? && q.value.name == JString("Character");
    assert AsString(JString("Character")) == "Character";
  }
}

=== FILE: export_download.dfy ===
/**
 The download route of `app/api/export/download/route.ts`: the query defaults, the 400 and 404
 checks, the placeholder file it serves, and the headers computed from the project title and the
 requested format. The database, the clock and the date string are parameters.
 */
module ExportDownload {
  import opened Wrappers
  import opened Json
  import opened JsText
  import opened SearchParams

  const DefaultFormat := "video"
  const DefaultResolution := "720p"

  /** What the project lookup gave: an error, no row, or a row with its `title` field. */
  datatype ProjectLookup = LookupFailed | NoProject | Found(title: JsonValue)

  /** The response: the file with its three headers, or a JSON error with its status. */
  datatype Response =
    | Download(body: seq<byte>, contentType: string, disposition: string, contentLength: string)
    | Failure(status: int, error: string)

  /** `searchParams.get(name) || fallback`: an absent or empty parameter takes the fallback. */
  function ParamOr(params: Params<string>, name: string, fallback: string): (v: string)
    ensures Lookup(params, name).Some? && Lookup(params, name).value != "" ==> v == Lookup(params, name).value
    ensures Lookup(params, name).None? || Lookup(params, name).value == "" ==> v == fallback
  {
    var given := Lookup(params, name).GetOr("");
    if given == "" then fallback else given
  }

  // ---------------------------------------------------------------------------
  // File name
  // ---------------------------------------------------------------------------

  /** The characters a file-name stem is made of: lower-case ASCII letters, digits and `_`. */
  predicate StemChar(c: char) {
    IsAsciiLower(c) || IsAsciiDigit(c) || c == '_'
  }

  /** ASCII lower-casing of one letter; every other character is unchanged. */
  function LowerAscii(c: char): (d: char)
    ensures IsAsciiAlnum(c) ==> IsAsciiLower(d) || IsAsciiDigit(d)
    ensures !IsAsciiUpper(c) ==> d == c
  {
    if IsAsciiUpper(c) then (c as int + 32) as char else c
  }

  /**
   The stem for one character: the regular expression `/[^a-z0-9]/gi` replaces each UTF-16 code
   unit outside the ASCII letters and digits by `_` (so a character outside the Basic Multilingual
   Plane becomes two), and `toLowerCase` then lowers the ASCII letters that are left.
   */
  function StemOf(c: char): (r: string)
    ensures |r| == Utf16Units(c)
    ensures forall k :: 0 <= k < |r| ==> StemChar(r[k])
  {
    if IsAsciiAlnum(c) then [LowerAscii(c)] else Repeat('_', Utf16Units(c))
  }

  /** `title.replace(/[^a-z0-9]/gi, '_').toLowerCase()` */
  function Stem(title: string): (r: string)
    ensures |r| == Utf16Length(title)
    ensures forall k :: 0 <= k < |r| ==> StemChar(r[k])
  {
    if |title| == 0 then "" else StemOf(title[0]) + Stem(title[1..])
  }

  /** The stem of a concatenation is the concatenation of the stems. */
  lemma {:induction false} StemAppend(a: string, b: string)
    ensures Stem(a + b) == Stem(a) + Stem(b)
  {
    if |a| == 0 {
      assert a + b == b;
    } else {
      assert (a + b)[0] == a[0];
      assert (a + b)[1..] == a[1..] + b;
      StemAppend(a[1..], b);
    }
  }

  /** A stem is its own stem: sanitising a second time changes nothing. */
  lemma {:induction false} StemIdempotent(title: string)
    ensures Stem(Stem(title)) == Stem(title)
  {
    if |title| > 0 {
      var head := StemOf(title[0]);
      StemAppend(head, Stem(title[1..]));
      StemIdempotent(title[1..]);
      StemCharsFixed(head);
    }
  }

  /** A string made only of stem characters is its own stem. */
  lemma {:induction false} StemCharsFixed(s: string)
    requires forall k :: 0 <= k < |s| ==> StemChar(s[k])
    ensures Stem(s) == s
  {
    if |s| > 0 {
      assert StemChar(s[0]);
      StemCharsFixed(s[1..]);
    }
  }

  /**
   For a title without characters outside the Basic Multilingual Plane, the stem has the title's
   length, and each position holds the lower-cased letter or digit, or `_` for anything else.
   */
  lemma {:induction false} StemAt(title: string, k: int)
    requires forall j :: 0 <= j < |title| ==> title[j] as int <= 0xFFFF
    requires 0 <= k < |title|
    ensures |Stem(title)| == |title|
    ensures Stem(title)[k] == if IsAsciiAlnum(title[k]) then LowerAscii(title[k]) else '_'
  {
    var rest := title[1..];
    assert forall j :: 0 <= j < |rest| ==> rest[j] == title[j + 1];
    if k == 0 {
      if |rest| > 0 {
        StemAt(rest, 0);
      }
    } else {
      StemAt(rest, k - 1);
    }
  }

  /** `format === 'gif' ? 'image/gif' : 'video/mp4'` */
  function ContentType(format: string): (t: string)
    ensures t == "image/gif" <==> format == "gif"
    ensures t != "image/gif" ==> t == "video/mp4"
  {
    if format == "gif" then "image/gif" else "video/mp4"
  }

  /** `format === 'video' ? 'mp4' : 'gif'` */
  function Extension(format: string): (e: string)
    ensures e == "mp4" <==> format == "video"
    ensures e != "mp4" ==> e == "gif"
  {
    if format == "video" then "mp4" else "gif"
  }

  /** The downloaded file's name: the stem, a dash, the time in milliseconds, and the extension. */
  function FileName(title: string, now: int, format: string): (r: string)
    ensures '"' !in r
    ensures |r| >= 4 && r[|r| - 4..] == "." + Extension(format)
  {
    Stem(title) + "-" + IntToString(now) + "." + Extension(format)
  }

  /** The `Content-Disposition` header. */
  function Disposition(title: string, now: int, format: string): string {
    "attachment; filename=\"" + FileName(title, now, format) + "\""
  }

  /**
   The `Content-Disposition` header reads back: the text between its first two quotes is the file
   name, since the name holds no quote.
   */
  lemma DispositionNamesFile(title: string, now: int, format: string)
    ensures var parts := Split(Disposition(title, now, format), '"');
      |parts| >= 2 && parts[0] == "attachment; filename=" && parts[1] == FileName(title, now, format)
  {
    var name := FileName(title, now, format);
    assert Disposition(title, now, format) == "attachment; filename=" + ['"'] + name + "\"";
    SplitTwo("attachment; filename=", name, "\"", '"');
  }

  /**
   The type and the extension agree for the two formats the route names, and disagree for every
   other: those are served as `video/mp4` under a `.gif` name.
   */
  lemma FormatMismatch(format: string)
    ensures format == "video" ==> ContentType(format) == "video/mp4" && Extension(format) == "mp4"
    ensures format == "gif" ==> ContentType(format) == "image/gif" && Extension(format) == "gif"
    ensures format != "video" && format != "gif" ==> ContentType(format) == "video/mp4" && Extension(format) == "gif"
  {
  }

  // ---------------------------------------------------------------------------
  // Placeholder file
  // ---------------------------------------------------------------------------

  /** The lines of the placeholder text, the metadata first. */
  function ContentLines(title: string, id: string, format: string, resolution: string, scenes: nat, created: string): (ls: seq<string>)
    ensures |ls| == 16
  {
    ["",
     "      Video Metadata:",
     "      Title: " + title,
     "      Project ID: " + id,
     "      Format: " + format,
     "      Resolution: " + resolution,
     "      Number of Scenes: " + NatToString(scenes),
     "      Created: " + created,
     "      ",
     "      This is a placeholder video file. ",
     "      In production, you would generate an actual video using:",
     "      1. Canvas API to render scenes",
     "      2. WebGL for animations",
     "      3. ffmpeg.wasm to encode to video",
     "      4. Or a backend service like FFmpeg, Remotion, or a video processing API",
     "    "]
  }

  /** The placeholder text, its lines joined by newlines. */
  function Content(title: string, id: string, format: string, resolution: string, scenes: nat, created: string): string {
    Join(ContentLines(title, id, format, resolution, scenes, created), "\n")
  }

  /** `scenes?.length || 0`: a failed scene query reports no scenes. */
  function SceneCount(scenes: Option<nat>): (n: nat)
    ensures scenes.Some? ==> n == scenes.value
    ensures scenes.None? ==> n == 0
  {
    scenes.GetOr(0)
  }

  // ---------------------------------------------------------------------------
  // GET
  // ---------------------------------------------------------------------------

  /**
   The route. A title that is not a string makes `replace` throw, which the outer handler turns
   into a 500.
   */
  function Get(params: Params<string>, project: ProjectLookup, scenes: Option<nat>, now: int, created: string): (r: Response)
    ensures r == Failure(400, "Project ID is required") <==> Lookup(params, "projectId").GetOr("") == ""
    ensures r == Failure(404, "Project not found") <==>
      Lookup(params, "projectId").GetOr("") != "" && !project.Found?
    ensures r.Download? <==>
      Lookup(params, "projectId").GetOr("") != "" && project.Found? && project.title.JString?
    ensures Lookup(params, "projectId").GetOr("") != "" && project.Found? && !project.title.JString? ==>
      r == Failure(500, "Internal server error")
    ensures r.Download? ==>
      && r.contentType == ContentType(ParamOr(params, "format", DefaultFormat))
      && r.disposition == Disposition(project.title.s, now, ParamOr(params, "format", DefaultFormat))
      && r.body == Utf8(Content(project.title.s, Lookup(params, "projectId").GetOr(""),
                                ParamOr(params, "format", DefaultFormat),
                                ParamOr(params, "resolution", DefaultResolution),
                                SceneCount(scenes), created))
      && AllDigits(r.contentLength) && DecimalValue(r.contentLength) == |r.body|
  {
    var id := Lookup(params, "projectId").GetOr("");
    var format := ParamOr(params, "format", DefaultFormat);
    var resolution := ParamOr(params, "resolution", DefaultResolution);
    if id == "" then Failure(400, "Project ID is required")
    else if !project.Found? then Failure(404, "Project not found")
    else if !project.title.JString? then Failure(500, "Internal server error")
    else
      var body := Utf8(Content(project.title.s, id, format, resolution, SceneCount(scenes), created));
      DecimalRoundTrip(|body|);
      Download(body, ContentType(format), Disposition(project.title.s, now, format), NatToString(|body|))
  }

  /** Without `format` and `resolution` the file is an `.mp4` served as `video/mp4`. */
  lemma DefaultsGiveMp4(id: string, title: string, scenes: Option<nat>, now: int, created: string)
    requires id != ""
    ensures var r := Get([("projectId", id)], Found(JString(title)), scenes, now, created);
      && r.Download?
      && r.contentType == "video/mp4"
      && r.disposition == Disposition(title, now, DefaultFormat)
      && Extension(DefaultFormat) == "mp4"
  {
    DefaultParams(id);
  }

  /** A query holding only the project id leaves `format` at its default. */
  lemma DefaultParams(id: string)
    ensures Lookup([("projectId", id)], "projectId") == Some(id)
    ensures ParamOr([("projectId", id)], "format", DefaultFormat) == DefaultFormat
  {
    assert Lookup([("projectId", id)], "format") == None;
  }
}

=== FILE: generate_scene.dfy ===
/**
 The mock scene route of `app/api/generate/scene/route.ts`: a fixed table of four scenes, indexed
 by the scene number minus one with JavaScript's remainder.
 */
module GenerateScene {
  import opened Wrappers
  import opened JsText

  datatype Entry = Entry(description: string, backgroundUrl: string)

  const Scenes: seq<Entry> := [
    Entry("Benny and Rosie meet in the village square",
          "https://images.unsplash.com/photo-1578662996442-48f60103fc96?w=800&h=600&fit=crop"),
    Entry("Whispering Woods with magical trees",
          "https://images.unsplash.com/photo-1448375240586-882707db888b?w=800&h=600&fit=crop"),
    Entry("Rainbow flower garden",
          "https://images.unsplash.com/photo-1506905925346-21bda4d32df4?w=800&h=600&fit=crop"),
    Entry("Village celebration",
          "https://images.unsplash.com/photo-1533174072545-7a4b6ad7a6c3?w=800&h=600&fit=crop")]

  /**
   A request body: unreadable, or its `sceneNumber` as a JSON number (`None` when absent, which
   makes the index `NaN`).
   */
  datatype SceneBody = Unreadable(message: string) | Request(sceneNumber: Option<int>)

  /** The reply: a table entry, or an error with status 500 and its message. */
  datatype Reply = Found(entry: Entry) | Failed(status: int, error: string)

  /** `(sceneNumber - 1) % 4` with JavaScript's remainder, which keeps the sign of the dividend. */
  function SceneIndex(n: int): (i: int)
    ensures -4 < i < 4
    ensures n >= 1 ==> i == (n - 1) % 4
  {
    TruncRem(n - 1, |Scenes|)
  }

  /** `scenes[sceneIndex]`: an entry exactly when the index is not negative. */
  function Lookup(sceneNumber: Option<int>): (e: Option<Entry>)
    ensures e.Some? <==> sceneNumber.Some? && SceneIndex(sceneNumber.value) >= 0
    ensures e.Some? ==> e.value in Scenes
  {
    if sceneNumber.None? then None
    else
      var i := SceneIndex(sceneNumber.value);
      if i >= 0 then Some(Scenes[i]) else None
  }

  /**
   The route. A body that is not JSON is answered with 500 and the parser's message. An index
   outside the table makes `NextResponse.json(undefined)`, and `Response.json` throws a `TypeError`
   because `JSON.stringify(undefined)` gives no text; that throw is inside the `try` too, so it is
   answered with 500 and the runtime's message, `unserializable`.
   */
  function Post(body: SceneBody, unserializable: string): (r: Reply)
    ensures r.Failed? <==> body.Unreadable? || Lookup(body.sceneNumber).None?
    ensures r.Failed? ==> r.status == 500
    ensures body.Unreadable? ==> r.error == body.message
    ensures body.Request? && r.Failed? ==> r.error == unserializable
    ensures r.Found? ==> r.entry == Lookup(body.sceneNumber).value
  {
    match body
    case Unreadable(m) => Failed(500, m)
    case Request(n) =>
      match Lookup(n)
      case Some(e) => Found(e)
      case None => Failed(500, unserializable)
  }

  /** Scene numbers from 1 upwards cycle through the table in order, starting at the village square. */
  lemma ScenesCycle(n: int, m: string)
    requires n >= 1
    ensures Post(Request(Some(n)), m) == Found(Scenes[(n - 1) % 4])
    ensures Post(Request(Some(n + 4)), m) == Post(Request(Some(n)), m)
  {
    TruncRemPeriodic(n - 1);
  }

  /** Scene number 1 is the first entry, the village square. */
  lemma FirstScene(m: string)
    ensures Post(Request(Some(1)), m) == Found(Entry("Benny and Rosie meet in the village square",
      "https://images.unsplash.com/photo-1578662996442-48f60103fc96?w=800&h=600&fit=crop"))
  {
    ScenesCycle(1, m);
  }

  /**
   Scene numbers below 1 find an entry only when the scene number minus one is a multiple of 4
   (-3, -7, ...), whose remainder is `-0`; every other one, and an absent number, is answered with
   500 and the runtime's serialisation message.
   */
  lemma NonPositiveScenes(n: int, m: string)
    requires n < 1
    ensures Post(Request(Some(n)), m).Found? <==> (n - 1) % 4 == 0
    ensures (n - 1) % 4 != 0 ==> Post(Request(Some(n)), m) == Failed(500, m)
    ensures Post(Request(None), m) == Failed(500, m)
  {
  }
}

=== FILE: js_text.dfy ===
/**
 The JavaScript string primitives the application relies on, over `string` (a sequence of
 Unicode scalar values): `trim`, `startsWith`, `includes`, `split` on one character, `join`,
 ASCII-oriented `toLowerCase`, decimal printing and parsing of integers, `padStart`, and the
 UTF-16 and UTF-8 lengths of a string.
 */
module JsText {

  // ---------------------------------------------------------------------------
  // Whitespace (ECMAScript WhiteSpace and LineTerminator): what `trim` strips and `\s` matches
  // ---------------------------------------------------------------------------

  /** A line terminator: what `.` in a regular expression refuses to match. */
  predicate IsLineTerminator(c: char) {
    c == '\n' || c == '\r' || c == '\U{2028}' || c == '\U{2029}'
  }

  predicate IsSpace(c: char) {
    || c == '\t' || c == '\U{B}' || c == '\U{C}' || c == ' ' || c == '\U{A0}' || c == '\U{1680}'
    || ('\U{2000}' <= c <= '\U{200A}')
    || c == '\U{202F}' || c == '\U{205F}' || c == '\U{3000}' || c == '\U{FEFF}'
    || IsLineTerminator(c)
  }

  /** True iff every character of `s` is whitespace (the string is blank). */
  predicate Blank(s: string) {
    forall k :: 0 <= k < |s| ==> IsSpace(s[k])
  }

  /** `s` without its leading whitespace. */
  function TrimStart(s: string): (r: string)
    ensures |r| <= |s| && r == s[|s| - |r|..]
    ensures Blank(s[..|s| - |r|])
    ensures r == [] || !IsSpace(r[0])
  {
    if |s| > 0 && IsSpace(s[0]) then
      var r := TrimStart(s[1..]);
      assert s[..|s| - |r|] == [s[0]] + s[1..][..|s| - 1 - |r|];
      r
    else s
  }

  /** `s` without its trailing whitespace. */
  function TrimEnd(s: string): (r: string)
    ensures |r| <= |s| && r == s[..|r|]
    ensures Blank(s[|r|..])
    ensures r == [] || !IsSpace(r[|r| - 1])
  {
    if |s| > 0 && IsSpace(s[|s| - 1]) then
      var t := s[..|s| - 1];
      var r := TrimEnd(t);
      assert s[..|r|] == t[..|r|];
      assert s[|r|..] == t[|r|..] + [s[|s| - 1]];
      r
    else s
  }

  /** JavaScript `String.prototype.trim`; `TrimSlice` and `TrimUnique` pin the result down as a slice of `s`. */
  function Trim(s: string): (r: string)
    ensures |r| <= |s|
    ensures r == [] || (!IsSpace(r[0]) && !IsSpace(r[|r| - 1]))
  {
    TrimEnd(TrimStart(s))
  }

  /**
   Any slice of `s` with blank text on both sides that is empty or has non-whitespace at both of
   its ends is the trimmed string.
   */
  lemma TrimUnique(s: string, a: nat, b: nat)
    requires a <= b <= |s| && Blank(s[..a]) && Blank(s[b..])
    requires a == b || (!IsSpace(s[a]) && !IsSpace(s[b - 1]))
    ensures Trim(s) == s[a..b]
  {
    if a == b {
      assert Blank(s) by {
        forall k | 0 <= k < |s| ensures IsSpace(s[k]) {
          if k < a { assert s[..a][k] == s[k]; } else { assert s[b..][k - b] == s[k]; }
        }
      }
      TrimStartUnique(s, |s|);
      assert s[|s|..] == [];
    } else {
      TrimStartUnique(s, a);
      TrimEndOfSuffix(s, a, b);
    }
  }

  /** Cutting a blank tail that follows non-whitespace off a suffix of `s`. */
  lemma TrimEndOfSuffix(s: string, a: nat, b: nat)
    requires a < b <= |s| && Blank(s[b..]) && !IsSpace(s[b - 1])
    ensures TrimEnd(s[a..]) == s[a..b]
  {
    var t := s[a..];
    var n := b - a;
    assert t[n..] == s[b..];
    assert t[n - 1] == s[b - 1];
    TrimEndUnique(t, n);
    assert t[..n] == s[a..b];
  }

  /** Dropping a blank prefix that ends at non-whitespace (or at the end) is `TrimStart`. */
  lemma {:induction false} TrimStartUnique(s: string, a: nat)
    requires a <= |s| && Blank(s[..a]) && (a == |s| || !IsSpace(s[a]))
    ensures TrimStart(s) == s[a..]
  {
    if a > 0 {
      assert s[..a][0] == s[0];
      assert s[1..][..a - 1] == s[..a][1..];
      assert s[1..][a - 1..] == s[a..];
      TrimStartUnique(s[1..], a - 1);
    }
  }

  /** Dropping a blank suffix that starts after non-whitespace (or at the start) is `TrimEnd`. */
  lemma {:induction false} TrimEndUnique(t: string, b: nat)
    requires b <= |t| && Blank(t[b..]) && (b == 0 || !IsSpace(t[b - 1]))
    ensures TrimEnd(t) == t[..b]
    decreases |t|
  {
    if b < |t| {
      var u := t[..|t| - 1];
      assert t[b..][|t| - 1 - b] == t[|t| - 1];
      assert u[b..] == t[b..][..|t| - 1 - b];
      assert u[..b] == t[..b];
      TrimEndUnique(u, b);
    } else {
      assert t[..b] == t;
    }
  }

  /** Trimming keeps only characters of the original, and yields "" exactly for a blank string. */
  lemma TrimSpec(s: string)
    ensures forall c {:trigger c in Trim(s)} :: c in Trim(s) ==> c in s
    ensures Trim(s) == [] <==> Blank(s)
  {
    var a := TrimStart(s);
    TrimFacts(s, a, TrimEnd(a));
  }

  /** The trimmed string is the slice of `s` between its blank ends. */
  lemma TrimSlice(s: string)
    ensures BlankAround(s, |s| - |TrimStart(s)|, Trim(s))
  {
    var t := TrimStart(s);
    PrefixOfSuffix(s, t, TrimEnd(t), |s| - |t|);
  }

  /** `r` sits in `s` at `a`, with only whitespace before and after it. */
  predicate BlankAround(s: string, a: int, r: string) {
    0 <= a && a + |r| <= |s| && r == s[a..a + |r|] && Blank(s[..a]) && Blank(s[a + |r|..])
  }

  /** A blank-ended prefix `r` of the suffix `t` of `s` from `a`, after blank text, sits in `s` at `a`. */
  lemma PrefixOfSuffix(s: string, t: string, r: string, a: nat)
    requires a <= |s| && t == s[a..] && Blank(s[..a])
    requires |r| <= |t| && r == t[..|r|] && Blank(t[|r|..])
    ensures BlankAround(s, a, r)
  {
    assert t[|r|..] == s[a + |r|..];
  }

  lemma TrimFacts(s: string, a: string, r: string)
    requires |a| <= |s| && a == s[|s| - |a|..] && Blank(s[..|s| - |a|]) && (a == [] || !IsSpace(a[0]))
    requires |r| <= |a| && r == a[..|r|] && Blank(a[|r|..])
    ensures forall c {:trigger c in r} :: c in r ==> c in s
    ensures r == [] <==> Blank(s)
  {
    assert forall c {:trigger c in r} :: c in r ==> c in a;
    if r == [] {
      assert a[|r|..] == a;
      assert a == [];
      assert s[..|s| - |a|] == s;
    } else {
      assert s[|s| - |a|] == a[0] == r[0];
    }
  }

  // ---------------------------------------------------------------------------
  // Prefixes and substrings
  // ---------------------------------------------------------------------------

  /** JavaScript `s.startsWith(p)`, character by character. */
  predicate StartsWith(s: string, p: string)
    ensures StartsWith(s, p) ==> |p| <= |s|
  {
    |p| == 0 || (|s| > 0 && s[0] == p[0] && StartsWith(s[1..], p[1..]))
  }

  /** `StartsWith` agrees with comparing the prefix of the same length. */
  lemma {:induction false} StartsWithPrefix(s: string, p: string)
    ensures StartsWith(s, p) <==> |p| <= |s| && s[..|p|] == p
    decreases |p|
  {
    if |p| > 0 && |s| > 0 {
      StartsWithPrefix(s[1..], p[1..]);
      if |p| <= |s| && s[..|p|] == p {
        assert s[1..][..|p| - 1] == s[..|p|][1..];
      }
      if StartsWith(s[1..], p[1..]) && s[0] == p[0] {
        assert s[..|p|] == [s[0]] + s[1..][..|p| - 1];
        assert p == [p[0]] + p[1..];
      }
    }
  }

  lemma {:induction false} StartsWithSelf(s: string)
    ensures StartsWith(s, s)
    decreases |s|
  {
    if |s| > 0 {
      StartsWithSelf(s[1..]);
    }
  }

  lemma StartsWithShorter(s: string, p: string, q: string)
    requires StartsWith(s, p) && StartsWith(p, q)
    ensures StartsWith(s, q)
  {
    StartsWithPrefix(s, p);
    StartsWithPrefix(p, q);
    StartsWithPrefix(s, q);
    assert s[..|q|] == p[..|q|];
  }

  /** JavaScript `s.includes(t)`: `t` starts at some position of `s`. */
  predicate Contains(s: string, t: string) {
    StartsWith(s, t) || (|s| > 0 && Contains(s[1..], t))
  }

  /** `t` occurs in `s` starting at index `i`. */
  predicate OccursAt(s: string, t: string, i: int) {
    0 <= i <= |s| - |t| && s[i..i + |t|] == t
  }

  /** `Contains` holds exactly when `t` occurs at some index of `s`. */
  lemma ContainsOccurs(s: string, t: string)
    ensures Contains(s, t) <==> exists i :: OccursAt(s, t, i)
  {
    if Contains(s, t) {
      var i := ContainsWitness(s, t);
    }
    if i :| OccursAt(s, t, i) {
      OccursContains(s, t, i);
    }
  }

  /** Where `Contains` holds, an index at which `t` occurs. */
  lemma {:induction false} ContainsWitness(s: string, t: string) returns (i: int)
    requires Contains(s, t)
    ensures OccursAt(s, t, i)
    decreases |s|
  {
    StartsWithPrefix(s, t);
    if StartsWith(s, t) {
      i := 0;
    } else {
      var j := ContainsWitness(s[1..], t);
      assert s[1..][j..j + |t|] == s[j + 1..j + 1 + |t|];
      i := j + 1;
    }
  }

  /** An occurrence of `t` at any index makes `Contains` hold. */
  lemma {:induction false} OccursContains(s: string, t: string, i: int)
    requires OccursAt(s, t, i)
    ensures Contains(s, t)
    decreases i
  {
    StartsWithPrefix(s, t);
    if i > 0 {
      assert s[1..][i - 1..i - 1 + |t|] == s[i..i + |t|];
      OccursContains(s[1..], t, i - 1);
    } else {
      assert s[..|t|] == t;
    }
  }

  /** `s.indexOf(t, i)`: the first position from `i` at which `t` occurs, or -1. */
  function IndexOf(s: string, t: string, i: nat): (r: int)
    requires i <= |s|
    ensures r == -1 || (i <= r && OccursAt(s, t, r))
    ensures r == -1 ==> forall k :: i <= k ==> !OccursAt(s, t, k)
    ensures r != -1 ==> forall k :: i <= k < r ==> !OccursAt(s, t, k)
    decreases |s| - i
  {
    if i + |t| > |s| then -1
    else if s[i..i + |t|] == t then i
    else IndexOf(s, t, i + 1)
  }

  /** `s.replace(t, '')` with a string pattern: only the first occurrence of `t`, if any, is removed. */
  function RemoveFirst(s: string, t: string): string {
    var k := IndexOf(s, t, 0);
    if k == -1 then s else s[..k] + s[k + |t|..]
  }

  /** When `s` starts with `t`, `replace` removes exactly that leading occurrence. */
  lemma RemoveLeading(s: string, t: string)
    requires StartsWith(s, t)
    ensures RemoveFirst(s, t) == s[|t|..]
  {
    StartsWithPrefix(s, t);
    assert s[0..|t|] == t;
  }

  /** Without an occurrence of `t`, `replace` leaves `s` as it is. */
  lemma RemoveAbsent(s: string, t: string)
    requires !Contains(s, t)
    ensures RemoveFirst(s, t) == s
  {
    ContainsOccurs(s, t);
  }

  /** A string that lacks some character of `t` does not contain `t`. */
  lemma MissingChar(s: string, t: string, j: int)
    requires 0 <= j < |t| && t[j] !in s
    ensures !Contains(s, t)
  {
    ContainsOccurs(s, t);
  }

  lemma ContainsTransitive(s: string, t: string, u: string)
    requires Contains(s, t) && Contains(t, u)
    ensures Contains(s, u)
  {
    ContainsOccurs(s, t);
    ContainsOccurs(t, u);
    ContainsOccurs(s, u);
    var i :| OccursAt(s, t, i);
    var j :| OccursAt(t, u, j);
    forall k | 0 <= k < |u| ensures s[i + j + k] == u[k] {
      assert s[i + j + k] == s[i..i + |t|][j + k] == t[j + k] == t[j..j + |u|][k];
    }
    assert s[i + j..i + j + |u|] == u;
    assert OccursAt(s, u, i + j);
  }

  /** A string occurs in every text built around it. */
  lemma ContainsMiddle(a: string, b: string, c: string)
    ensures Contains(a + b + c, b)
  {
    var s := a + b + c;
    ContainsOccurs(s, b);
    assert s[|a|..|a| + |b|] == b;
    assert OccursAt(s, b, |a|);
  }

  // ---------------------------------------------------------------------------
  // split / join
  // ---------------------------------------------------------------------------

  /** JavaScript `s.split(c)` for a one-character separator: the pieces between separators. */
  function Split(s: string, c: char): (parts: seq<string>)
    ensures |parts| >= 1
    ensures forall k :: 0 <= k < |parts| ==> c !in parts[k]
  {
    if |s| == 0 then [""]
    else
      var rest := Split(s[1..], c);
      if s[0] == c then [""] + rest else [[s[0]] + rest[0]] + rest[1..]
  }

  /** JavaScript `parts.join(sep)`. */
  function Join(parts: seq<string>, sep: string): string {
    if |parts| == 0 then ""
    else if |parts| == 1 then parts[0]
    else parts[0] + sep + Join(parts[1..], sep)
  }

  /**
   Splitting `a + s`, where `a` holds no separator and `s` is empty or starts with one, gives `a`
   as the first piece and then the pieces of what follows that separator.
   */
  lemma {:induction false} SplitFirst(a: string, s: string, c: char)
    requires c !in a
    requires s == [] || s[0] == c
    ensures Split(a + s, c) == [a] + (if s == [] then [] else Split(s[1..], c))
    decreases |a|
  {
    if a == [] {
      assert a + s == s;
    } else {
      SplitFirst(a[1..], s, c);
      assert (a + s)[1..] == a[1..] + s;
      assert [a[0]] + a[1..] == a;
    }
  }

  /** The first two pieces of `a + [c] + b + rest` are `a` and `b`. */
  lemma SplitTwo(a: string, b: string, rest: string, c: char)
    requires c !in a && c !in b
    requires rest == [] || rest[0] == c
    ensures var parts := Split(a + [c] + b + rest, c); |parts| >= 2 && parts[0] == a && parts[1] == b
  {
    var u := [c] + b + rest;
    assert a + [c] + b + rest == a + u;
    SplitFirst(a, u, c);
    assert u[1..] == b + rest;
    SplitFirst(b, rest, c);
  }

  /** Splitting and re-joining with the same separator gives back the original string. */
  lemma {:induction false} JoinSplit(s: string, c: char)
    ensures Join(Split(s, c), [c]) == s
  {
    if |s| > 0 {
      var rest := Split(s[1..], c);
      JoinSplit(s[1..], c);
      if s[0] == c {
        assert Split(s, c) == [""] + rest;
        assert Join(Split(s, c), [c]) == "" + [c] + Join(rest, [c]);
        assert s == [c] + s[1..];
      } else {
        var parts := Split(s, c);
        assert parts == [[s[0]] + rest[0]] + rest[1..];
        if |rest| == 1 {
          assert Join(parts, [c]) == [s[0]] + rest[0];
          assert s == [s[0]] + s[1..];
        } else {
          assert parts[1..] == rest[1..];
          assert Join(parts, [c]) == [s[0]] + rest[0] + [c] + Join(rest[1..], [c]);
          assert Join(rest, [c]) == rest[0] + [c] + Join(rest[1..], [c]);
          assert s == [s[0]] + s[1..];
        }
      }
    }
  }

  /** `split` yields two or more pieces exactly when the separator occurs. */
  lemma {:induction false} SplitManyIffContains(s: string, c: char)
    ensures |Split(s, c)| >= 2 <==> c in s
  {
    if |s| > 0 {
      SplitManyIffContains(s[1..], c);
      assert s == [s[0]] + s[1..];
    }
  }

  // ---------------------------------------------------------------------------
  // Case
  // ---------------------------------------------------------------------------

  predicate IsAsciiUpper(c: char) { 'A' <= c <= 'Z' }
  predicate IsAsciiLower(c: char) { 'a' <= c <= 'z' }
  predicate IsAsciiDigit(c: char) { '0' <= c <= '9' }
  predicate IsAsciiAlnum(c: char) { IsAsciiUpper(c) || IsAsciiLower(c) || IsAsciiDigit(c) }

  /**
   The lower-case form of one character as far as it can produce ASCII: ASCII capitals,
   KELVIN SIGN (to `k`) and LATIN CAPITAL LETTER I WITH DOT ABOVE (to `i` + COMBINING DOT ABOVE).
   */
  function LowerChar(c: char): string {
    if IsAsciiUpper(c) then [(c as int + 32) as char]
    else if c == '\U{212A}' then "k"
    else if c == '\U{130}' then "i\U{307}"
    else [c]
  }

  /** JavaScript `toLowerCase`, restricted to the mappings of `LowerChar`. */
  function ToLower(s: string): (r: string)
    ensures forall k :: 0 <= k < |r| ==> !IsAsciiUpper(r[k])
  {
    if |s| == 0 then "" else LowerChar(s[0]) + ToLower(s[1..])
  }

  /** A string with no character that `LowerChar` changes is its own lower-case form. */
  lemma ToLowerAsciiIdentity(s: string)
    requires forall k :: 0 <= k < |s| ==> !IsAsciiUpper(s[k]) && s[k] != '\U{212A}' && s[k] != '\U{130}'
    ensures ToLower(s) == s
  {
  }

  // ---------------------------------------------------------------------------
  // Decimal numbers
  // ---------------------------------------------------------------------------

  function DigitChar(d: nat): char
    requires d < 10
  {
    ('0' as int + d) as char
  }

  function DigitValue(c: char): nat
    requires IsAsciiDigit(c)
  {
    c as int - '0' as int
  }

  predicate AllDigits(s: string) {
    forall k :: 0 <= k < |s| ==> IsAsciiDigit(s[k])
  }

  /** The value of a string of ASCII digits (what `parseInt` gives for it). */
  function DecimalValue(s: string): nat
    requires AllDigits(s)
  {
    if |s| == 0 then 0 else DecimalValue(s[..|s| - 1]) * 10 + DigitValue(s[|s| - 1])
  }

  /** `n.toString()` for a non-negative integer. */
  function NatToString(n: nat): (r: string)
    ensures |r| >= 1 && AllDigits(r)
    ensures |r| > 1 ==> r[0] != '0'
  {
    if n < 10 then [DigitChar(n)] else NatToString(n / 10) + [DigitChar(n % 10)]
  }

  /** `n.toString()` for any integer. */
  function IntToString(n: int): (r: string)
    ensures |r| >= 1 && (r[0] == '-' <==> n < 0)
    ensures forall k :: (if n < 0 then 1 else 0) <= k < |r| ==> IsAsciiDigit(r[k])
  {
    if n < 0 then "-" + NatToString(-n) else NatToString(n)
  }

  /** Printing a number in decimal and reading it back gives the number. */
  lemma {:induction false} DecimalRoundTrip(n: nat)
    ensures DecimalValue(NatToString(n)) == n
  {
    if n >= 10 {
      DecimalRoundTrip(n / 10);
      var s := NatToString(n);
      assert s[..|s| - 1] == NatToString(n / 10);
    }
  }

  /** Leading zeros do not change a decimal value. */
  lemma {:induction false} LeadingZeros(z: string, s: string)
    requires forall k :: 0 <= k < |z| ==> z[k] == '0'
    requires AllDigits(s)
    ensures AllDigits(z + s) && DecimalValue(z + s) == DecimalValue(s)
  {
    if |s| == 0 {
      LeadingZerosOnly(z);
      assert z + s == z;
    } else {
      var s' := s[..|s| - 1];
      LeadingZeros(z, s');
      assert (z + s)[..|z + s| - 1] == z + s';
    }
  }

  lemma {:induction false} LeadingZerosOnly(z: string)
    requires forall k :: 0 <= k < |z| ==> z[k] == '0'
    ensures AllDigits(z) && DecimalValue(z) == 0
  {
    if |z| > 0 {
      LeadingZerosOnly(z[..|z| - 1]);
    }
  }

  /** `s.padStart(width, c)`: `s` prefixed by enough copies of `c` to reach `width`; never truncates. */
  function PadStart(s: string, width: nat, c: char): (r: string)
    ensures |r| == if |s| >= width then |s| else width
    ensures r[|r| - |s|..] == s
    ensures forall k :: 0 <= k < |r| - |s| ==> r[k] == c
  {
    if |s| >= width then s else Repeat(c, width - |s|) + s
  }

  /** Padding digits on the left with zeros keeps them digits and keeps their value. */
  lemma PadZeros(s: string, width: nat)
    requires AllDigits(s)
    ensures AllDigits(PadStart(s, width, '0')) && DecimalValue(PadStart(s, width, '0')) == DecimalValue(s)
  {
    if |s| < width {
      LeadingZeros(Repeat('0', width - |s|), s);
    }
  }

  function Repeat(c: char, n: nat): (r: string)
    ensures |r| == n && forall k :: 0 <= k < n ==> r[k] == c
  {
    if n == 0 then "" else [c] + Repeat(c, n - 1)
  }

  /**
   JavaScript's `a % b` on integers: the remainder of division truncated toward zero, which takes
   the sign of `a` (unlike Dafny's `%`, whose remainder is never negative).
   */
  function TruncRem(a: int, b: int): (r: int)
    requires b > 0
    ensures -b < r < b
    ensures a >= 0 ==> r == a % b
    ensures a <= 0 ==> r <= 0
  {
    if a >= 0 then a % b else -((-a) % b)
  }

  /** The truncated remainder is odd in its dividend: negating `a` negates the remainder. */
  lemma TruncRemOdd(a: int, b: int)
    requires b > 0
    ensures TruncRem(-a, b) == -TruncRem(a, b)
  {
  }

  /** Shifting a non-negative dividend by 4 leaves its remainder by 4 unchanged. */
  lemma TruncRemPeriodic(a: int)
    requires a >= 0
    ensures TruncRem(a + 4, 4) == TruncRem(a, 4)
  {
  }

  /** A negative dividend leaves a remainder of zero by 4 exactly when it is a multiple of 4. */
  lemma TruncRemNegative(a: int)
    requires a < 0
    ensures TruncRem(a, 4) == 0 <==> a % 4 == 0
  {
  }

  // ---------------------------------------------------------------------------
  // Encoded lengths
  // ---------------------------------------------------------------------------

  /** The number of UTF-16 code units of one character (JavaScript's unit of `length`). */
  function Utf16Units(c: char): nat {
    if c as int > 0xFFFF then 2 else 1
  }

  /** JavaScript `s.length`: the UTF-16 length of `s`. */
  function Utf16Length(s: string): (n: nat)
    ensures |s| <= n <= 2 * |s|
  {
    if |s| == 0 then 0 else Utf16Units(s[0]) + Utf16Length(s[1..])
  }

  lemma {:induction false} Utf16LengthAppend(a: string, b: string)
    ensures Utf16Length(a + b) == Utf16Length(a) + Utf16Length(b)
  {
    if |a| > 0 {
      Utf16LengthAppend(a[1..], b);
      assert (a + b)[0] == a[0];
      assert (a + b)[1..] == a[1..] + b;
    } else {
      assert a + b == b;
    }
  }

  newtype byte = x: int | 0 <= x < 256

  /** The UTF-8 encoding of one Unicode scalar value. */
  function Utf8Char(c: char): (bs: seq<byte>)
    ensures 1 <= |bs| <= 4
  {
    var v := c as int;
    if v < 0x80 then [v as byte]
    else if v < 0x800 then [(0xC0 + v / 0x40) as byte, (0x80 + v % 0x40) as byte]
    else if v < 0x10000 then
      [(0xE0 + v / 0x1000) as byte, (0x80 + (v / 0x40) % 0x40) as byte, (0x80 + v % 0x40) as byte]
    else
      [(0xF0 + v / 0x40000) as byte, (0x80 + (v / 0x1000) % 0x40) as byte,
       (0x80 + (v / 0x40) % 0x40) as byte, (0x80 + v % 0x40) as byte]
  }

  /** The UTF-8 encoding of a string (what `Blob`/`Buffer` hold for it). */
  function Utf8(s: string): (bs: seq<byte>)
    ensures |s| <= |bs| <= 4 * |s|
  {
    if |s| == 0 then [] else Utf8Char(s[0]) + Utf8(s[1..])
  }
}

=== FILE: json.dfy ===
/** The JSON values a request body field can hold, and JavaScript truthiness over them. */
module Json {
  import opened JsText

  /** A parsed JSON value. Numbers are modelled as integers; an object's members are not looked into. */
  datatype JsonValue =
    | JNull
    | JBool(b: bool)
    | JNumber(n: int)
    | JString(s: string)
    | JArray(items: seq<JsonValue>)
    | JObject

  /** JavaScript truthiness: `null`, `false`, `0` and `""` are falsy; an absent field (`undefined`) is falsy too. */
  predicate Truthy(v: JsonValue) {
    match v
    case JNull => false
    case JBool(b) => b
    case JNumber(n) => n != 0
    case JString(s) => s != ""
    case JArray(_) => true
    case JObject => true
  }

  /**
   A request body: unreadable (not JSON, or JSON `null`, whose field reads throw; with the error's
   message), or an object's fields. A JSON value that is neither `null` nor an object has no fields.
   */
  datatype RequestBody = Unreadable(message: string) | Object(fields: map<string, JsonValue>)

  /**
   A field of a request object. An absent field reads as `undefined`, which every route here
   treats like `null`; where the two differ (a destructuring default) the caller tests `key in body`.
   */
  function Field(body: map<string, JsonValue>, key: string): (v: JsonValue)
    ensures key !in body ==> v == JNull
  {
    if key in body then body[key] else JNull
  }

  /**
   JavaScript `String(v)` for the values a JSON field can hold: an array prints as its elements
   joined by `,` (a `null` element as the empty string), an object as `[object Object]`.
   */
  function AsString(v: JsonValue): (r: string)
    ensures Truthy(v) && !v.JArray? ==> r != ""
    ensures v.JArray? && |v.items| == 0 ==> r == ""
    decreases v, 1, 0
  {
    match v
    case JNull => "null"
    case JBool(b) => if b then "true" else "false"
    case JNumber(n) => IntToString(n)
    case JString(s) => s
    case JArray(items) => Join(ItemStrings(v, 0), ",")
    case JObject => "[object Object]"
  }

  /** The strings `join` makes of an array's elements from index `i` on: `null` gives the empty string. */
  function ItemStrings(v: JsonValue, i: nat): (r: seq<string>)
    requires v.JArray? && i <= |v.items|
    ensures |r| == |v.items| - i
    decreases v, 0, |v.items| - i
  {
    if i == |v.items| then []
    else [if v.items[i].JNull? then "" else AsString(v.items[i])] + ItemStrings(v, i + 1)
  }
}

=== FILE: keywords.dfy ===
/**
 First-match and last-match keyword rules: the `if (text.includes(a) || text.includes(b))` chains
 the routes use to pick a value from a description or an error message.
 */
module Keywords {
  import opened Wrappers
  import opened JsText

  /** A rule fires when the text contains any of its keywords. */
  datatype Rule<T> = Rule(keywords: seq<string>, value: T)

  /** `text.includes(k1) || text.includes(k2) || ...`. */
  predicate AnyContains(text: string, keywords: seq<string>) {
    |keywords| > 0 && (Contains(text, keywords[0]) || AnyContains(text, keywords[1..]))
  }

  predicate Fires<T>(r: Rule<T>, text: string) {
    AnyContains(text, r.keywords)
  }

  /** The index of the first rule that fires, or `|rules|` when none does. */
  function FirstIndex<T>(rules: seq<Rule<T>>, text: string): (i: nat)
    ensures i <= |rules|
    ensures i < |rules| ==> Fires(rules[i], text)
    ensures forall j :: 0 <= j < i ==> !Fires(rules[j], text)
  {
    if |rules| == 0 then 0
    else if Fires(rules[0], text) then 0
    else 1 + FirstIndex(rules[1..], text)
  }

  /** The index of the last rule that fires, or `-1` when none does. */
  function LastIndex<T>(rules: seq<Rule<T>>, text: string): (i: int)
    ensures -1 <= i < |rules|
    ensures i >= 0 ==> Fires(rules[i], text)
    ensures forall j :: i < j < |rules| ==> !Fires(rules[j], text)
  {
    if |rules| == 0 then -1
    else if Fires(rules[|rules| - 1], text) then |rules| - 1
    else LastIndex(rules[..|rules| - 1], text)
  }

  /** The first rule to fire is the one that fires with none firing before it. */
  lemma {:induction false} FirstIndexAt<T>(rules: seq<Rule<T>>, text: string, i: nat)
    requires i < |rules| && Fires(rules[i], text)
    requires forall j :: 0 <= j < i ==> !Fires(rules[j], text)
    ensures FirstIndex(rules, text) == i
  {
    if i > 0 {
      FirstIndexAt(rules[1..], text, i - 1);
    }
  }

  /** An `if / else if` chain: the value of the first rule that fires. */
  function FirstChoice<T>(rules: seq<Rule<T>>, text: string): Option<T> {
    var i := FirstIndex(rules, text);
    if i < |rules| then Some(rules[i].value) else None
  }

  /** A run of independent `if`s writing one place: the value of the last rule that fires. */
  function LastChoice<T>(rules: seq<Rule<T>>, text: string): Option<T> {
    var i := LastIndex(rules, text);
    if i >= 0 then Some(rules[i].value) else None
  }


  /** Appending a rule: it wins when it fires, otherwise the earlier rules decide. */
  lemma LastChoiceSnoc<T>(rules: seq<Rule<T>>, r: Rule<T>, text: string)
    ensures LastChoice(rules + [r], text)
      == if Fires(r, text) then Some(r.value) else LastChoice(rules, text)
  {
    assert (rules + [r])[..|rules|] == rules;
  }

  /** Putting a rule in front: it wins when it fires, otherwise the later rules decide. */
  lemma FirstChoiceCons<T>(r: Rule<T>, rules: seq<Rule<T>>, text: string)
    ensures FirstChoice([r] + rules, text)
      == if Fires(r, text) then Some(r.value) else FirstChoice(rules, text)
  {
    assert ([r] + rules)[0] == r;
    assert ([r] + rules)[1..] == rules;
  }

  /** A rule with one keyword fires exactly when the text contains it. */
  lemma FiresOne<T>(w: string, v: T, text: string)
    ensures Fires(Rule([w], v), text) <==> Contains(text, w)
  {
    assert [w][1..] == [];
    assert !AnyContains(text, []);
  }

  /** A rule with two keywords fires exactly when the text contains either. */
  lemma FiresTwo<T>(w1: string, w2: string, v: T, text: string)
    ensures Fires(Rule([w1, w2], v), text) <==> Contains(text, w1) || Contains(text, w2)
  {
    assert [w1, w2][1..] == [w2];
    assert [w2][1..] == [];
    assert !AnyContains(text, []);
    assert AnyContains(text, [w2]) <==> Contains(text, w2);
  }
}

=== FILE: rate_limit.dfy ===
/**
 The in-memory limiter of `app/api/story/route.ts` (`checkRateLimit`): per client address a count
 and the end of the current one-minute window; at most thirty requests are let through per window.
 The clock reading is a parameter.
 */
module RateLimit {

  /** `RATE_LIMIT.maxRequests`. */
  const MaxRequests: nat := 30

  /** `RATE_LIMIT.windowMs`: one minute in milliseconds. */
  const WindowMs: nat := 60 * 1000

  /** What the tracker holds for one address. */
  datatype Entry = Entry(count: nat, resetTime: int)

  /** `requestTracker`: the entries by client address. */
  type Tracker = map<string, Entry>

  /** The verdict on one request and the tracker after it. */
  datatype Outcome = Outcome(allowed: bool, tracker: Tracker)

  /** A window is open for `ip` at time `now`: an entry exists and `now` is not past its end. */
  predicate InWindow(t: Tracker, ip: string, now: int) {
    ip in t && now <= t[ip].resetTime
  }

  /**
   `checkRateLimit(ip)` at time `now`: an address without an entry, or whose window has ended,
   starts a new window with count 1; inside the window a count that has reached the maximum refuses
   the request and changes nothing; otherwise the count goes up by one.
   */
  function Check(t: Tracker, ip: string, now: int): (o: Outcome)
    ensures ip in o.tracker
    ensures forall a :: a != ip ==> (a in o.tracker <==> a in t)
    ensures forall a :: a != ip && a in t ==> o.tracker[a] == t[a]
    ensures o.allowed <==> !InWindow(t, ip, now) || t[ip].count < MaxRequests
    ensures !o.allowed ==> o.tracker == t
    ensures !InWindow(t, ip, now) ==> o.tracker[ip] == Entry(1, now + WindowMs)
    ensures InWindow(t, ip, now) ==> o.tracker[ip].resetTime == t[ip].resetTime
  {
    if ip !in t || now > t[ip].resetTime then
      Outcome(true, t[ip := Entry(1, now + WindowMs)])
    else if t[ip].count >= MaxRequests then
      Outcome(false, t)
    else
      Outcome(true, t[ip := t[ip].(count := t[ip].count + 1)])
  }

  /** Every count the tracker holds lies between 1 and the maximum. */
  predicate Bounded(t: Tracker) {
    forall a :: a in t ==> 1 <= t[a].count <= MaxRequests
  }

  /** The limiter keeps every count between 1 and the maximum. */
  lemma CheckBounded(t: Tracker, ip: string, now: int)
    requires Bounded(t)
    ensures Bounded(Check(t, ip, now).tracker)
  {
  }

  /** An allowed request inside a window adds exactly one to the count. */
  lemma CheckCounts(t: Tracker, ip: string, now: int)
    requires InWindow(t, ip, now)
    ensures var o := Check(t, ip, now);
      o.tracker[ip].count == if o.allowed then t[ip].count + 1 else t[ip].count
  {
  }

  /** The end of the window belongs to it: at `now == resetTime` a full count still refuses. */
  lemma WindowEndInclusive(t: Tracker, ip: string)
    requires ip in t && t[ip].count >= MaxRequests
    ensures !Check(t, ip, t[ip].resetTime).allowed
  {
  }

  /** The verdicts on a run of requests from one address at the given times, in order. */
  function Replay(t: Tracker, ip: string, times: seq<int>): (vs: seq<bool>)
    ensures |vs| == |times|
    decreases |times|
  {
    if |times| == 0 then []
    else
      var o := Check(t, ip, times[0]);
      [o.allowed] + Replay(o.tracker, ip, times[1..])
  }

  /**
   Inside one window whose count is `c`, the `k`-th further request is allowed exactly when
   `c + k` is below the maximum.
   */
  lemma {:induction false} ReplayInWindow(t: Tracker, ip: string, times: seq<int>)
    requires ip in t && t[ip].count <= MaxRequests
    requires forall k :: 0 <= k < |times| ==> times[k] <= t[ip].resetTime
    ensures forall k :: 0 <= k < |times| ==> (Replay(t, ip, times)[k] <==> t[ip].count + k < MaxRequests)
    decreases |times|
  {
    if |times| > 0 {
      var o := Check(t, ip, times[0]);
      CheckCounts(t, ip, times[0]);
      var rest := times[1..];
      assert forall k :: 0 <= k < |rest| ==> rest[k] == times[k + 1];
      ReplayInWindow(o.tracker, ip, rest);
      var vs := Replay(t, ip, times);
      assert vs[1..] == Replay(o.tracker, ip, rest);
      forall k | 0 <= k < |times|
        ensures vs[k] <==> t[ip].count + k < MaxRequests
      {
        if k > 0 {
          var rs := Replay(o.tracker, ip, rest);
          assert rs[k - 1] <==> o.tracker[ip].count + (k - 1) < MaxRequests;
          assert vs[k] == rs[k - 1];
        }
      }
    }
  }

  /**
   Thirty requests per window: when the first request of a run opens a new window and every later
   one comes before that window ends, exactly the first thirty are allowed.
   */
  lemma ThirtyPerWindow(t: Tracker, ip: string, times: seq<int>)
    requires |times| > 0 && !InWindow(t, ip, times[0])
    requires forall k :: 0 <= k < |times| ==> times[k] <= times[0] + WindowMs
    ensures var vs := Replay(t, ip, times);
      forall k :: 0 <= k < |times| ==> (vs[k] <==> k < MaxRequests)
  {
    var o := Check(t, ip, times[0]);
    var rest := times[1..];
    assert forall k :: 0 <= k < |rest| ==> rest[k] == times[k + 1];
    ReplayInWindow(o.tracker, ip, rest);
    var vs := Replay(t, ip, times);
    assert vs[1..] == Replay(o.tracker, ip, rest);
    forall k | 0 < k < |times|
      ensures vs[k] <==> k < MaxRequests
    {
      assert vs[k] == vs[1..][k - 1];
      assert vs[1..][k - 1] <==> o.tracker[ip].count + (k - 1) < MaxRequests;
    }
  }

  /** Requests from one address never change another address's entry. */
  lemma {:induction false} ReplayIsolated(t: Tracker, ip: string, times: seq<int>, other: string)
    requires other != ip
    ensures var t' := ReplayState(t, ip, times);
      (other in t' <==> other in t) && (other in t ==> t'[other] == t[other])
    decreases |times|
  {
    if |times| > 0 {
      ReplayIsolated(Check(t, ip, times[0]).tracker, ip, times[1..], other);
    }
  }

  /** The tracker after a run of requests from one address. */
  function ReplayState(t: Tracker, ip: string, times: seq<int>): Tracker
    decreases |times|
  {
    if |times| == 0 then t else ReplayState(Check(t, ip, times[0]).tracker, ip, times[1..])
  }
}

=== FILE: search_params.dfy ===
/**
 The part of WHATWG `URLSearchParams` the avatar builder uses: an ordered list of name/value
 pairs, `set` (replace the first pair with that name in place and drop the others, or append),
 `get`, `forEach` into a plain object, and `toString` (the
 `application/x-www-form-urlencoded` serializer, byte by byte over UTF-8).
 */
module SearchParams {
  import opened Wrappers
  import opened JsText

  /** The pairs, keyed by names of type `K` (strings once serialized). */
  type Params<K> = seq<(K, string)>

  /** The names of the pairs, in order. */
  function Names<K(==,!new)>(ps: Params<K>): (r: seq<K>)
    ensures |r| == |ps| && forall k :: 0 <= k < |ps| ==> r[k] == ps[k].0
  {
    seq(|ps|, k requires 0 <= k < |ps| => ps[k].0)
  }

  /** No name occurs twice. */
  predicate UniqueNames<K(==,!new)>(ps: Params<K>) {
    forall j, k :: 0 <= j < k < |ps| ==> ps[j].0 != ps[k].0
  }

  /** `params.get(name)`: the value of the first pair with that name. */
  function Lookup<K(==,!new)>(ps: Params<K>, name: K): (r: Option<string>)
    ensures r.None? <==> name !in Names(ps)
    ensures r.Some? ==> (name, r.value) in ps
  {
    if |ps| == 0 then None
    else if ps[0].0 == name then Some(ps[0].1)
    else
      assert Names(ps[1..]) == Names(ps)[1..];
      Lookup(ps[1..], name)
  }

  /** The pairs whose name is not `name`, in order. */
  function Without<K(==,!new)>(ps: Params<K>, name: K): (r: Params<K>)
    ensures name !in Names(r)
    ensures forall p :: p in r ==> p in ps
  {
    if |ps| == 0 then []
    else if ps[0].0 == name then Without(ps[1..], name)
    else [ps[0]] + Without(ps[1..], name)
  }

  /**
   `params.set(name, value)`: when a pair with that name exists, the first one takes the new
   value in place and every later one is removed; otherwise the pair is appended. Afterwards
   `get(name)` gives the new value and `get` of every other name is unchanged.
   */
  function Set<K(==,!new)>(ps: Params<K>, name: K, value: string): (r: Params<K>)
    ensures Lookup(r, name) == Some(value)
    ensures forall n :: n != name ==> Lookup(r, n) == Lookup(ps, n)
  {
    if |ps| == 0 then [(name, value)]
    else if ps[0].0 == name then
      var r := [(name, value)] + Without(ps[1..], name);
      LookupWithout(ps[1..], name);
      assert r[1..] == Without(ps[1..], name);
      r
    else
      var r := [ps[0]] + Set(ps[1..], name, value);
      assert r[1..] == Set(ps[1..], name, value);
      r
  }

  /** Removing pairs keeps the names distinct. */
  lemma {:induction false} WithoutUnique<K(!new)>(ps: Params<K>, name: K)
    requires UniqueNames(ps)
    ensures UniqueNames(Without(ps, name))
  {
    if |ps| > 0 {
      UniqueCons(ps[0], ps[1..]);
      assert [ps[0]] + ps[1..] == ps;
      WithoutUnique(ps[1..], name);
      if ps[0].0 != name {
        var w := Without(ps[1..], name);
        forall k | 0 <= k < |w| ensures Names(w)[k] != ps[0].0 {
          assert w[k] in ps[1..];
        }
        UniqueCons(ps[0], w);
      }
    }
  }

  /** Removing one name leaves the lookup of every other name unchanged. */
  lemma {:induction false} LookupWithout<K(!new)>(ps: Params<K>, name: K)
    ensures forall n :: n != name ==> Lookup(Without(ps, name), n) == Lookup(ps, n)
  {
    if |ps| > 0 {
      LookupWithout(ps[1..], name);
      if ps[0].0 != name {
        var w := [ps[0]] + Without(ps[1..], name);
        assert w[1..] == Without(ps[1..], name);
      }
    }
  }

  /** Setting a name twice is setting it once to the second value: the later `set` wins. */
  lemma {:induction false} SetSet<K(!new)>(ps: Params<K>, name: K, a: string, b: string)
    ensures Set(Set(ps, name, a), name, b) == Set(ps, name, b)
  {
    if |ps| == 0 {
    } else if ps[0].0 == name {
      var w := Without(ps[1..], name);
      WithoutAbsent(w, name);
      assert Set(ps, name, a)[1..] == w;
    } else {
      SetSet(ps[1..], name, a, b);
      var once := Set(ps, name, a);
      assert once[0] == ps[0] && once[1..] == Set(ps[1..], name, a);
    }
  }

  /** The names after `set`: the old ones, plus `name` at the end if it was new. */
  lemma {:induction false} NamesSet<K(!new)>(ps: Params<K>, name: K, value: string)
    requires UniqueNames(ps)
    ensures Names(Set(ps, name, value)) == if name in Names(ps) then Names(ps) else Names(ps) + [name]
  {
    if |ps| > 0 {
      var rest := ps[1..];
      UniqueCons(ps[0], rest);
      assert [ps[0]] + rest == ps;
      if ps[0].0 == name {
        WithoutAbsent(rest, name);
        assert Set(ps, name, value) == [(name, value)] + rest;
        UniqueCons((name, value), rest);
        assert Names(ps)[0] == name;
      } else {
        NamesSet(rest, name, value);
        var sr := Set(rest, name, value);
        assert Set(ps, name, value) == [ps[0]] + sr;
        UniqueCons(ps[0], sr);
        assert name in Names(ps) <==> name in Names(rest);
        ConsSnoc(ps[0].0, Names(rest), name);
      }
    }
  }

  /** `set` keeps the names distinct. */
  lemma {:induction false} SetUnique<K(!new)>(ps: Params<K>, name: K, value: string)
    requires UniqueNames(ps)
    ensures UniqueNames(Set(ps, name, value))
  {
    if |ps| > 0 {
      var rest := ps[1..];
      UniqueCons(ps[0], rest);
      assert [ps[0]] + rest == ps;
      if ps[0].0 == name {
        WithoutAbsent(rest, name);
        assert Set(ps, name, value) == [(name, value)] + rest;
        UniqueCons((name, value), rest);
      } else {
        SetUnique(rest, name, value);
        NamesSet(rest, name, value);
        var sr := Set(rest, name, value);
        assert Set(ps, name, value) == [ps[0]] + sr;
        UniqueCons(ps[0], sr);
      }
    }
  }

  lemma ConsSnoc<T>(a: T, xs: seq<T>, b: T)
    ensures [a] + (xs + [b]) == ([a] + xs) + [b]
  {
  }

  /** The names of a list with one more pair in front, and when they stay distinct. */
  lemma UniqueCons<K(!new)>(p: (K, string), ps: Params<K>)
    ensures Names([p] + ps) == [p.0] + Names(ps)
    ensures UniqueNames([p] + ps) <==> p.0 !in Names(ps) && UniqueNames(ps)
  {
    var xs := [p] + ps;
    assert Names(xs) == [p.0] + Names(ps);
    if UniqueNames(xs) {
      forall j, k | 0 <= j < k < |ps| ensures ps[j].0 != ps[k].0 {
        assert xs[j + 1] == ps[j] && xs[k + 1] == ps[k];
      }
      forall k | 0 <= k < |ps| ensures Names(ps)[k] != p.0 {
        assert xs[0] == p && xs[k + 1] == ps[k];
      }
    }
  }

  /** Removing a name that does not occur changes nothing. */
  lemma {:induction false} WithoutAbsent<K(!new)>(ps: Params<K>, name: K)
    requires name !in Names(ps)
    ensures Without(ps, name) == ps
  {
    if |ps| > 0 {
      assert ps[0].0 == Names(ps)[0];
      assert Names(ps[1..]) == Names(ps)[1..];
      WithoutAbsent(ps[1..], name);
    }
  }

  /** On pairs with distinct names, `set` of a present name replaces its value in place. */
  lemma {:induction false} SetInPlace<K(!new)>(ps: Params<K>, k: nat, value: string)
    requires UniqueNames(ps) && k < |ps|
    ensures Set(ps, ps[k].0, value) == ps[k := (ps[k].0, value)]
  {
    var name := ps[k].0;
    if k == 0 {
      assert Names(ps[1..]) == Names(ps)[1..];
      WithoutAbsent(ps[1..], name);
    } else {
      SetInPlace(ps[1..], k - 1, value);
      assert ps[1..][k - 1 := (name, value)] == ps[k := (name, value)][1..];
    }
  }

  // ---------------------------------------------------------------------------
  // `forEach` into an object
  // ---------------------------------------------------------------------------

  /** `params.forEach((value, key) => obj[key] = value)`: later pairs overwrite earlier ones. */
  function ToObject<K(==,!new)>(ps: Params<K>): (m: map<K, string>)
    ensures m.Keys == set p | p in ps :: p.0
  {
    if |ps| == 0 then map[]
    else
      var m := ToObject(ps[..|ps| - 1]);
      assert forall p :: p in ps <==> p in ps[..|ps| - 1] || p == ps[|ps| - 1];
      m[ps[|ps| - 1].0 := ps[|ps| - 1].1]
  }

  /** With distinct names the object holds exactly what `get` returns. */
  lemma {:induction false} ToObjectLookup<K(!new)>(ps: Params<K>, name: K)
    requires UniqueNames(ps)
    ensures name in ToObject(ps) <==> Lookup(ps, name).Some?
    ensures name in ToObject(ps) ==> ToObject(ps)[name] == Lookup(ps, name).value
  {
    if |ps| > 0 {
      var init := ps[..|ps| - 1];
      var last := ps[|ps| - 1];
      ToObjectLookup(init, name);
      LookupSnoc(init, last, name);
    }
  }

  /** `get` on a list with one more pair at the end. */
  lemma {:induction false} LookupSnoc<K(!new)>(ps: Params<K>, p: (K, string), name: K)
    ensures Lookup(ps + [p], name) == if Lookup(ps, name).Some? then Lookup(ps, name)
      else if p.0 == name then Some(p.1) else None
  {
    if |ps| > 0 {
      assert (ps + [p])[1..] == ps[1..] + [p];
      LookupSnoc(ps[1..], p, name);
    }
  }

  // ---------------------------------------------------------------------------
  // Renaming keys
  // ---------------------------------------------------------------------------

  /** The same pairs with every key replaced by its name. */
  function Rename<K, L>(ps: Params<K>, name: K -> L): (r: Params<L>)
    ensures |r| == |ps| && forall k :: 0 <= k < |ps| ==> r[k] == (name(ps[k].0), ps[k].1)
  {
    seq(|ps|, k requires 0 <= k < |ps| => (name(ps[k].0), ps[k].1))
  }

  /** Renaming with distinct names keeps the names distinct and answers `get` the same way. */
  lemma {:induction false} RenameLookup<K(!new), L(!new)>(ps: Params<K>, name: K -> L, key: K)
    requires forall a, b :: name(a) == name(b) ==> a == b
    ensures UniqueNames(ps) ==> UniqueNames(Rename(ps, name))
    ensures Lookup(Rename(ps, name), name(key)) == Lookup(ps, key)
  {
    if |ps| > 0 {
      RenameLookup(ps[1..], name, key);
      assert Rename(ps, name)[1..] == Rename(ps[1..], name);
    }
  }

  // ---------------------------------------------------------------------------
  // `toString`
  // ---------------------------------------------------------------------------

  /** The bytes the form serializer writes unchanged: ASCII letters, digits and `*-._`. */
  predicate Unreserved(b: byte) {
    || b == 0x2A || b == 0x2D || b == 0x2E || b == 0x5F
    || (0x30 <= b <= 0x39) || (0x41 <= b <= 0x5A) || (0x61 <= b <= 0x7A)
  }

  /** An upper-case hexadecimal digit. */
  function HexDigit(v: nat): (c: char)
    requires v < 16
  {
    if v < 10 then ('0' as int + v) as char else ('A' as int + v - 10) as char
  }

  /** Reading a written digit gives its value back. */
  lemma HexRoundTrip(v: nat)
    requires v < 16
    ensures HexValue(HexDigit(v)) == Some(v)
  {
  }

  /** The value of an upper-case hexadecimal digit, if `c` is one. */
  function HexValue(c: char): (r: Option<nat>)
    ensures r.Some? ==> r.value < 16 && HexDigit(r.value) == c
  {
    if '0' <= c <= '9' then Some(c as int - '0' as int)
    else if 'A' <= c <= 'F' then Some(c as int - 'A' as int + 10)
    else None
  }

  /** One byte: unreserved bytes as themselves, space as `+`, anything else as `%XY`. */
  function EncodeByte(b: byte): (r: string)
    ensures |r| == 1 || |r| == 3
  {
    if Unreserved(b) then [b as int as char]
    else if b == 0x20 then "+"
    else ['%', HexDigit(b as int / 16), HexDigit(b as int % 16)]
  }

  function EncodeBytes(bs: seq<byte>): string {
    if |bs| == 0 then "" else EncodeByte(bs[0]) + EncodeBytes(bs[1..])
  }

  /** The form encoding of a string: its UTF-8 bytes, each encoded. */
  function FormEncode(s: string): string {
    EncodeBytes(Utf8(s))
  }

  /** The characters the form encoding can produce. */
  predicate FormChar(c: char) {
    IsAsciiAlnum(c) || c == '*' || c == '-' || c == '.' || c == '_' || c == '+' || c == '%'
  }

  /** Undoing the form encoding: `None` when the text is not a form encoding. */
  function FormDecode(t: string): (r: Option<seq<byte>>)
  {
    if |t| == 0 then Some([])
    else if t[0] == '+' then
      match FormDecode(t[1..]) case None => None case Some(rest) => Some([0x20 as byte] + rest)
    else if t[0] == '%' then
      if |t| < 3 then None
      else match (HexValue(t[1]), HexValue(t[2]))
        case (Some(hi), Some(lo)) =>
          (match FormDecode(t[3..]) case None => None case Some(rest) => Some([(hi * 16 + lo) as byte] + rest))
        case _ => None
    else if t[0] as int < 0x80 && Unreserved(t[0] as int as byte) then
      match FormDecode(t[1..]) case None => None case Some(rest) => Some([t[0] as int as byte] + rest)
    else None
  }

  /** The encoding of every byte string decodes back to it: the encoding loses nothing. */
  lemma {:induction false} FormRoundTrip(bs: seq<byte>)
    ensures FormDecode(EncodeBytes(bs)) == Some(bs)
  {
    if |bs| > 0 {
      var b := bs[0];
      var e := EncodeByte(b);
      var t := EncodeBytes(bs);
      FormRoundTrip(bs[1..]);
      assert t == e + EncodeBytes(bs[1..]);
      if Unreserved(b) {
        assert t[1..] == EncodeBytes(bs[1..]);
      } else if b == 0x20 {
        assert t[1..] == EncodeBytes(bs[1..]);
      } else {
        var hi, lo := b as int / 16, b as int % 16;
        assert e == ['%', HexDigit(hi), HexDigit(lo)];
        assert t[0] == '%' && t[1] == HexDigit(hi) && t[2] == HexDigit(lo);
        assert t[3..] == EncodeBytes(bs[1..]);
        HexRoundTrip(hi);
        HexRoundTrip(lo);
        assert (hi * 16 + lo) as byte == b;
        assert FormDecode(t) == Some([b] + bs[1..]);
      }
      assert [b] + bs[1..] == bs;
    }
  }

  /** Form-encoded text holds only letters, digits, `*-._+%`: never `=` or `&`. */
  lemma {:induction false} EncodeBytesChars(bs: seq<byte>)
    ensures forall k :: 0 <= k < |EncodeBytes(bs)| ==> FormChar(EncodeBytes(bs)[k])
  {
    if |bs| > 0 {
      EncodeBytesChars(bs[1..]);
      var e := EncodeByte(bs[0]);
      assert forall k :: 0 <= k < |e| ==> FormChar(e[k]);
    }
  }

  /** One `name=value` piece of the query. */
  function Pair(p: (string, string)): string {
    FormEncode(p.0) + "=" + FormEncode(p.1)
  }

  /** `params.toString()`: the pieces joined with `&`. */
  function Query(ps: Params<string>): string {
    Join(seq(|ps|, k requires 0 <= k < |ps| => Pair(ps[k])), "&")
  }

  /**
   Splitting the query at `&` gives back one piece per pair, in order (the encoding never
   writes `&`), and each piece splits at its one `=` into the encoded name and value.
   */
  lemma QuerySplits(ps: Params<string>)
    requires |ps| > 0
    ensures Split(Query(ps), '&') == seq(|ps|, k requires 0 <= k < |ps| => Pair(ps[k]))
    ensures forall k :: 0 <= k < |ps| ==>
      Split(Pair(ps[k]), '=') == [FormEncode(ps[k].0), FormEncode(ps[k].1)]
  {
    QueryPieces(ps);
    forall k | 0 <= k < |ps|
      ensures Split(Pair(ps[k]), '=') == [FormEncode(ps[k].0), FormEncode(ps[k].1)]
    {
      PairSplits(ps[k]);
    }
  }

  lemma QueryPieces(ps: Params<string>)
    requires |ps| > 0
    ensures Split(Query(ps), '&') == seq(|ps|, k requires 0 <= k < |ps| => Pair(ps[k]))
  {
    var pieces := seq(|ps|, k requires 0 <= k < |ps| => Pair(ps[k]));
    forall k | 0 <= k < |ps| ensures '&' !in pieces[k] {
      PairChars(ps[k]);
    }
    SplitJoin(pieces, '&');
  }

  lemma PairSplits(p: (string, string))
    ensures Split(Pair(p), '=') == [FormEncode(p.0), FormEncode(p.1)]
  {
    var a, b := FormEncode(p.0), FormEncode(p.1);
    EncodeBytesChars(Utf8(p.0));
    EncodeBytesChars(Utf8(p.1));
    assert '=' !in a && '=' !in b;
    SplitFirst(a, "=" + b, '=');
    assert ("=" + b)[1..] == b;
    SplitNone(b, '=');
    assert a + "=" + b == a + ("=" + b);
  }

  /**
   `toString` loses nothing: splitting at `&` gives one piece per pair and each piece splits at
   `=` into two sides that decode to the UTF-8 bytes of the name and of the value. (With no pairs
   the text is empty, which splits into one empty piece.)
   */
  lemma QueryRoundTrip(ps: Params<string>)
    requires |ps| > 0
    ensures var pieces := Split(Query(ps), '&');
      && |pieces| == |ps|
      && forall k :: 0 <= k < |ps| ==>
        var halves := Split(pieces[k], '=');
        && |halves| == 2
        && FormDecode(halves[0]) == Some(Utf8(ps[k].0))
        && FormDecode(halves[1]) == Some(Utf8(ps[k].1))
  {
    QuerySplits(ps);
    forall k | 0 <= k < |ps|
      ensures FormDecode(FormEncode(ps[k].0)) == Some(Utf8(ps[k].0))
      ensures FormDecode(FormEncode(ps[k].1)) == Some(Utf8(ps[k].1))
    {
      FormRoundTrip(Utf8(ps[k].0));
      FormRoundTrip(Utf8(ps[k].1));
    }
  }

  lemma PairChars(p: (string, string))
    ensures '&' !in Pair(p)
  {
    EncodeBytesChars(Utf8(p.0));
    EncodeBytesChars(Utf8(p.1));
  }

  /** A string without the separator is one piece. */
  lemma SplitNone(s: string, c: char)
    requires c !in s
    ensures Split(s, c) == [s]
  {
    SplitFirst(s, "", c);
    assert s + "" == s;
  }

  /** Joining pieces that do not hold the separator and splitting again gives the pieces back. */
  lemma {:induction false} SplitJoin(pieces: seq<string>, c: char)
    requires |pieces| > 0
    requires forall k :: 0 <= k < |pieces| ==> c !in pieces[k]
    ensures Split(Join(pieces, [c]), c) == pieces
  {
    if |pieces| == 1 {
      SplitNone(pieces[0], c);
    } else {
      var rest := Join(pieces[1..], [c]);
      SplitJoin(pieces[1..], c);
      SplitFirst(pieces[0], [c] + rest, c);
      assert ([c] + rest)[1..] == rest;
      assert pieces[0] + [c] + rest == pieces[0] + ([c] + rest);
    }
  }
}

=== FILE: simple_story.dfy ===
/**
 The fallback scanner of `lib/storyParser.ts` (`parseSimpleStory`) for free text: the first
 non-blank line is the title, the next two form the summary, and from the third line on the text
 is cut into scenes at `Scene n:`, `Chapter n:` and `Part n:` headings, at most five of them.
 */
module SimpleStory {
  import opened JsText
  import opened StoryParser

  // ---------------------------------------------------------------------------
  // Lines
  // ---------------------------------------------------------------------------

  /** `lines.filter(line => line.trim())`: the lines that are not blank, untrimmed, in order. */
  function NonBlank(ls: seq<string>): (r: seq<string>)
    ensures |r| <= |ls|
    ensures forall k :: 0 <= k < |r| ==> Trim(r[k]) != "" && r[k] in ls
    ensures r == [] <==> forall k :: 0 <= k < |ls| ==> Trim(ls[k]) == ""
  {
    if |ls| == 0 then []
    else
      var rest := NonBlank(ls[1..]);
      InTail(ls, rest);
      if Trim(ls[0]) != "" then [ls[0]] + rest else rest
  }

  /** One line is kept exactly when it is not blank. */
  lemma NonBlankOne(l: string)
    ensures NonBlank([l]) == if Trim(l) != "" then [l] else []
  {
    assert [l][1..] == [];
  }

  /** The filter of consecutive runs of lines is the concatenation of their filters. */
  lemma {:induction false} NonBlankAppend(a: seq<string>, b: seq<string>)
    ensures NonBlank(a + b) == NonBlank(a) + NonBlank(b)
  {
    if |a| == 0 {
      assert a + b == b;
    } else {
      assert (a + b)[0] == a[0];
      assert (a + b)[1..] == a[1..] + b;
      NonBlankAppend(a[1..], b);
    }
  }

  /** The first kept line is the first line that is not blank. */
  lemma {:induction false} NonBlankFirst(ls: seq<string>, k: nat)
    requires k < |ls| && Trim(ls[k]) != ""
    requires forall j :: 0 <= j < k ==> Trim(ls[j]) == ""
    ensures NonBlank(ls) != [] && NonBlank(ls)[0] == ls[k]
  {
    if k > 0 {
      assert Trim(ls[0]) == "";
      assert NonBlank(ls) == NonBlank(ls[1..]);
      var tail := ls[1..];
      assert tail[k - 1] == ls[k];
      forall j | 0 <= j < k - 1 ensures Trim(tail[j]) == "" {
        assert tail[j] == ls[j + 1];
      }
      NonBlankFirst(tail, k - 1);
    }
  }

  /** What is in the tail of a list is in the list. */
  lemma InTail(ls: seq<string>, rest: seq<string>)
    requires |ls| > 0
    requires forall k :: 0 <= k < |rest| ==> rest[k] in ls[1..]
    ensures forall k :: 0 <= k < |rest| ==> rest[k] in ls
  {
    forall k | 0 <= k < |rest| ensures rest[k] in ls {
      var j :| 0 <= j < |ls[1..]| && ls[1..][j] == rest[k];
      assert ls[j + 1] == rest[k];
    }
  }

  /** ASCII-only lower-casing of one character (the case folding a non-Unicode `/i` pattern does for ASCII). */
  function FoldChar(c: char): char {
    if IsAsciiUpper(c) then (c as int + 32) as char else c
  }

  /** `line` begins with the lower-case word `w`, letters compared without regard to ASCII case. */
  predicate StartsWithWord(line: string, w: string) {
    |w| <= |line| && forall k :: 0 <= k < |w| ==> FoldChar(line[k]) == w[k]
  }

  /** `/^<w> \d+:/i`: the word, one space, one or more ASCII digits and a colon, at the start. */
  predicate HeadingWith(line: string, w: string) {
    && StartsWithWord(line, w)
    && |w| < |line| && line[|w|] == ' '
    && var d := DigitRun(line[|w| + 1..]);
       d > 0 && |w| + 1 + d < |line| && line[|w| + 1 + d] == ':'
  }

  /** The three heading forms that separate scenes. */
  predicate IsHeading(line: string) {
    HeadingWith(line, "scene") || HeadingWith(line, "chapter") || HeadingWith(line, "part")
  }

  /**
   A heading written in any ASCII case: the word, a space, a number and a colon, then anything.
   */
  lemma HeadingRecognised(line: string, spelled: string, w: string, n: nat, rest: string)
    requires w == "scene" || w == "chapter" || w == "part"
    requires |spelled| == |w| && forall k :: 0 <= k < |w| ==> FoldChar(spelled[k]) == w[k]
    requires line == spelled + " " + NatToString(n) + ":" + rest
    ensures IsHeading(line)
  {
    HeadingWithRecognised(line, spelled, w, n, rest);
  }

  lemma HeadingWithRecognised(line: string, spelled: string, w: string, n: nat, rest: string)
    requires |spelled| == |w| && forall k :: 0 <= k < |w| ==> FoldChar(spelled[k]) == w[k]
    requires line == spelled + " " + NatToString(n) + ":" + rest
    ensures HeadingWith(line, w)
  {
    var d := NatToString(n);
    assert line[|w| + 1..] == d + (":" + rest);
    StoryParser.DigitRunOf(d, ":" + rest);
    assert forall k :: 0 <= k < |w| ==> line[k] == spelled[k];
  }

  /** A line whose first word is not followed by a space and a number is no heading. */
  lemma NoNumberNoHeading(line: string)
    requires |line| >= 7 && line[..7] == "Scene: "
    ensures !IsHeading(line)
  {
    assert FoldChar(line[5]) == ':';
    assert line[4] == 'e' && line[3] == 'n';
  }

  // ---------------------------------------------------------------------------
  // Scenes
  // ---------------------------------------------------------------------------

  /** The most scenes the fallback scanner emits. */
  const MaxScenes: nat := 5

  /** `content.substring(0, 100) + '...'`. */
  function Excerpt(content: string): (r: string)
    ensures |r| == (if |content| < 100 then |content| else 100) + 3
    ensures r[..|r| - 3] == content[..|r| - 3] && r[|r| - 3..] == "..."
  {
    var n := if |content| < 100 then |content| else 100;
    content[..n] + "..."
  }

  /** The scene made from the `k`-th (0-based) block of content. */
  function SceneOf(k: nat, content: string): StoryScene {
    StoryScene(k + 1, "Scene " + NatToString(k + 1), "A magical place",
      ["Main Character", "Friend"], Excerpt(content), "")
  }

  /** The two scenes used when the text yields none. */
  const DefaultScenes: seq<StoryScene> := [
    StoryScene(1, "The Beginning", "A magical forest", ["Main Character"],
      "The adventure begins in a colorful forest", "\"What an amazing day for an adventure!\""),
    StoryScene(2, "The Challenge", "A mysterious cave", ["Main Character", "Friend"],
      "They face their first challenge together", "\"We can do this if we work together!\"")
  ]

  /**
   The blocks of content from line `i` on, with `cur` the block being collected: every non-heading
   line is appended with a trailing space, and a heading or the end of the text closes a non-empty
   block. Unlike the source's loop, this reference does not stop after five blocks.
   */
  function Blocks(lines: seq<string>, i: nat, cur: string): (bs: seq<string>)
    requires i <= |lines|
    ensures forall k :: 0 <= k < |bs| ==> bs[k] != ""
    decreases |lines| - i
  {
    if i == |lines| then (if cur != "" then [cur] else [])
    else if IsHeading(lines[i]) then
      (if cur != "" then [cur] else []) + Blocks(lines, i + 1, "")
    else Blocks(lines, i + 1, cur + lines[i] + " ")
  }

  /** The scenes built from the first (at most five) blocks. */
  function ScenesOf(bs: seq<string>): (scenes: seq<StoryScene>)
    ensures |scenes| == (if |bs| < MaxScenes then |bs| else MaxScenes)
    ensures forall k :: 0 <= k < |scenes| ==> scenes[k] == SceneOf(k, bs[k])
  {
    var n := if |bs| < MaxScenes then |bs| else MaxScenes;
    seq(n, k requires 0 <= k < n => SceneOf(k, bs[k]))
  }

  /** The index the scene scan starts at: line 2, or the end when there are fewer lines. */
  function ScanStart(lines: seq<string>): nat {
    if |lines| < 2 then |lines| else 2
  }

  /** `lines.slice(1, 3)`: the second and third lines, as far as they exist. */
  function SummaryLines(lines: seq<string>): (r: seq<string>)
    ensures |r| == (if |lines| <= 1 then 0 else if |lines| == 2 then 1 else 2)
    ensures forall k :: 0 <= k < |r| ==> r[k] == lines[k + 1]
  {
    if |lines| <= 1 then [] else lines[1..if |lines| < 3 then |lines| else 3]
  }

  /** `lines.slice(1, 3).join(' ') || 'A wonderful story'`. */
  function SummaryOf(lines: seq<string>): (r: string)
    ensures r != ""
    ensures |lines| <= 1 ==> r == "A wonderful story"
    ensures |lines| == 2 ==> r == if lines[1] == "" then "A wonderful story" else lines[1]
    ensures |lines| >= 3 ==> r == lines[1] + " " + lines[2]
  {
    var picked := SummaryLines(lines);
    assert |lines| == 2 ==> picked == [lines[1]];
    assert |lines| >= 3 ==> picked == [lines[1], lines[2]] && picked[1..] == [lines[2]];
    var s := Join(picked, " ");
    assert |lines| >= 3 ==> Join(picked[1..], " ") == lines[2];
    assert |lines| >= 3 ==> s == lines[1] + " " + lines[2] && |s| > |lines[1]|;
    if s == "" then "A wonderful story" else s
  }

  /** Adding a block below the cap adds its scene; above it, nothing changes. */
  lemma ScenesOfSnoc(bs: seq<string>, b: string)
    ensures |bs| < MaxScenes ==> ScenesOf(bs + [b]) == ScenesOf(bs) + [SceneOf(|bs|, b)]
    ensures |bs| >= MaxScenes ==> ScenesOf(bs + [b]) == ScenesOf(bs)
  {
    var xs := bs + [b];
    if |bs| < MaxScenes {
      assert forall k :: 0 <= k < |bs| ==> xs[k] == bs[k];
    } else {
      assert forall k :: 0 <= k < MaxScenes ==> xs[k] == bs[k];
    }
  }

  /**
   The scene loop of `parseSimpleStory` written as a recursion over the lines, from line `i` with
   `content` collected and `scenes` pushed so far: a heading saves a non-empty content as the next
   scene while fewer than five exist (and only then clears it); other lines are collected with a
   trailing space; the content left at the end is saved under the same cap.
   */
  function Scan(lines: seq<string>, i: nat, content: string, scenes: seq<StoryScene>): (r: seq<StoryScene>)
    requires i <= |lines|
    ensures scenes <= r
    ensures |scenes| <= MaxScenes ==> |r| <= MaxScenes
    ensures |scenes| >= MaxScenes ==> r == scenes
    decreases |lines| - i
  {
    var saves := content != "" && |scenes| < MaxScenes;
    if i == |lines| then (if saves then scenes + [SceneOf(|scenes|, content)] else scenes)
    else if IsHeading(lines[i]) then
      (if saves then Scan(lines, i + 1, "", scenes + [SceneOf(|scenes|, content)])
       else Scan(lines, i + 1, content, scenes))
    else Scan(lines, i + 1, content + lines[i] + " ", scenes)
  }

  /**
   The loop yields the scenes of the first five blocks: with `closed` the blocks closed so far and
   `cur` the open one (which is the loop's content while fewer than five scenes exist), scanning on
   gives the scenes of all closed blocks followed by the blocks still ahead.
   */
  lemma {:induction false} ScanBlocks(lines: seq<string>, i: nat, closed: seq<string>, cur: string, content: string)
    requires i <= |lines|
    requires |closed| < MaxScenes ==> content == cur
    ensures Scan(lines, i, content, ScenesOf(closed)) == ScenesOf(closed + Blocks(lines, i, cur))
    decreases |lines| - i
  {
    var scenes := ScenesOf(closed);
    if i == |lines| {
      CloseBlock(closed, cur, content);
      if cur != "" {
        assert closed + Blocks(lines, i, cur) == closed + [cur];
      } else {
        assert closed + Blocks(lines, i, cur) == closed;
      }
    } else if IsHeading(lines[i]) {
      BlocksAtHeading(lines, i, cur, closed);
      var closed' := if cur != "" then closed + [cur] else closed;
      var content' := if content != "" && |scenes| < MaxScenes then "" else content;
      assert Scan(lines, i, content, scenes) == Scan(lines, i + 1, content', ScenesOf(closed')) by {
        CloseBlock(closed, cur, content);
      }
      ScanBlocks(lines, i + 1, closed', "", content');
    } else {
      var cur' := cur + lines[i] + " ";
      assert Blocks(lines, i, cur) == Blocks(lines, i + 1, cur');
      assert Scan(lines, i, content, scenes) == Scan(lines, i + 1, content + lines[i] + " ", scenes);
      ScanBlocks(lines, i + 1, closed, cur', content + lines[i] + " ");
    }
  }

  /**
   The scene loop of `parseSimpleStory` from line `start`, as the source writes it. The result is
   the scenes of the first five blocks.
   */
  method ScanScenes(lines: seq<string>, start: nat) returns (scenes: seq<StoryScene>)
    requires start <= |lines|
    ensures scenes == ScenesOf(Blocks(lines, start, ""))
  {
    scenes := [];
    var sceneCount := 0;
    var content := "";
    var i := start;
    while i < |lines|
      invariant start <= i <= |lines|
      invariant sceneCount == |scenes|
      invariant Scan(lines, i, content, scenes) == Scan(lines, start, "", [])
    {
      if IsHeading(lines[i]) {
        if content != "" && sceneCount < MaxScenes {
          scenes := scenes + [SceneOf(sceneCount, content)];
          sceneCount := sceneCount + 1;
          content := "";
        }
      } else {
        content := content + lines[i] + " ";
      }
      i := i + 1;
    }
    if content != "" && sceneCount < MaxScenes {
      scenes := scenes + [SceneOf(sceneCount, content)];
    }
    ScanBlocks(lines, start, [], "", "");
    assert [] + Blocks(lines, start, "") == Blocks(lines, start, "");
  }

  /**
   Closing the collected content, as the loop does at a heading and at the end, adds the scene of
   the open block exactly when fewer than five scenes exist (while fewer do, the loop's content is
   the open block).
   */
  lemma CloseBlock(closed: seq<string>, cur: string, content: string)
    requires |closed| < MaxScenes ==> content == cur
    ensures var scenes := ScenesOf(closed);
      (if content != "" && |scenes| < MaxScenes then scenes + [SceneOf(|scenes|, content)] else scenes)
        == ScenesOf(if cur != "" then closed + [cur] else closed)
  {
    ScenesOfSnoc(closed, cur);
  }

  /**
   `parseSimpleStory`. The title is the first non-blank line (as written, untrimmed) or
   `Untitled Story`; the scenes are those of the first five content blocks after line 2, numbered
   from 1, or the two default scenes when there is no block at all.
   */
  method ParseSimpleStory(text: string) returns (r: ParsedStory)
    ensures var lines := NonBlank(Split(text, '\n'));
      && r.title == (if |lines| > 0 then lines[0] else "Untitled Story")
      && r.summary == SummaryOf(lines)
      && var bs := Blocks(lines, ScanStart(lines), "");
         r.scenes == (if |bs| == 0 then DefaultScenes else ScenesOf(bs))
    ensures 1 <= |r.scenes| <= MaxScenes
    ensures r.genre == "fantasy" && r.ageGroup == "children"
    ensures r.moral == "Always be kind and brave" && r.ending == "And they lived happily ever after."
  {
    var lines := NonBlank(Split(text, '\n'));
    var title := if |lines| > 0 then lines[0] else "Untitled Story";
    var scenes := ScanScenes(lines, ScanStart(lines));
    if |scenes| == 0 {
      scenes := DefaultScenes;
    }
    r := ParsedStory(title, SummaryOf(lines), "fantasy", "children",
      [CharacterEntry("Main Character", "The hero of the story"), CharacterEntry("Friend", "A helpful companion")],
      scenes, "Always be kind and brave", "And they lived happily ever after.");
  }

  /** The lines `ls`, each followed by one space, run together. */
  function Spaced(ls: seq<string>): string {
    if |ls| == 0 then "" else ls[0] + " " + Spaced(ls[1..])
  }

  /** Without headings, everything from line `i` on is one block, appended to what was collected. */
  lemma {:induction false} NoHeadingsOneBlock(lines: seq<string>, i: nat, cur: string)
    requires i <= |lines|
    requires forall m :: i <= m < |lines| ==> !IsHeading(lines[m])
    requires cur != "" || i < |lines|
    ensures Blocks(lines, i, cur) == [cur + Spaced(lines[i..])]
    decreases |lines| - i
  {
    if i == |lines| {
      assert cur + Spaced(lines[i..]) == cur;
    } else {
      var next := cur + lines[i] + " ";
      NoHeadingsOneBlock(lines, i + 1, next);
      assert lines[i..][1..] == lines[i + 1..];
      assert next + Spaced(lines[i + 1..]) == cur + Spaced(lines[i..]);
    }
  }

  /** At a heading, the open block (if non-empty) is closed and collection restarts empty. */
  lemma BlocksAtHeading(lines: seq<string>, i: nat, cur: string, closed: seq<string>)
    requires i < |lines| && IsHeading(lines[i])
    ensures closed + Blocks(lines, i, cur)
      == (if cur != "" then closed + [cur] else closed) + Blocks(lines, i + 1, "")
  {
    if cur == "" {
      assert Blocks(lines, i, cur) == Blocks(lines, i + 1, "");
    } else {
      assert Blocks(lines, i, cur) == [cur] + Blocks(lines, i + 1, "");
    }
  }
}

=== FILE: speech_route.dfy ===
/**
 The text-to-speech route of `app/api/audio/speech/route.ts`: the ordered checks on a request
 (text present, text length, voice, API key), the request forwarded to the speech service, and the
 translation of that service's answer. The environment, the service and the clock are parameters.
 */
module SpeechRoute {
  import opened Wrappers
  import opened Json
  import opened JsText

  const Model := "playai-tts"
  const DefaultVoice := "Fritz-PlayAI"
  const AvailableVoices: seq<string> := [DefaultVoice]
  const MaxTextLength := 5000

  const TextRequired := "Text is required for audio generation"
  const TextTooLong := "Text is too long. Maximum 5000 characters."
  const KeyMissing := "GROQ_API_KEY is not configured"
  const GenerationFailed := "Failed to generate audio"

  /** The message `text.trim()` throws for a truthy `text` that is not a string. */
  const TrimNotAFunction := "text.trim is not a function"

  /** `Invalid voice. Available voices: ...`, listing the voices joined by a comma and a space. */
  function InvalidVoice(): (r: string)
    ensures r == "Invalid voice. Available voices: " + DefaultVoice
  {
    "Invalid voice. Available voices: " + Join(AvailableVoices, ", ")
  }

  /** The JSON reply: the generated audio, or an error with its status. */
  datatype Reply =
    | Spoken(audio: seq<byte>, format: JsonValue, voice: string, textLength: nat, audioSize: nat, timestamp: string)
    | Failure(status: int, error: string, details: Option<string>)

  /** The body sent to the speech service. */
  datatype SpeechRequest = SpeechRequest(model: string, input: string, voice: string, responseFormat: JsonValue)

  /** What the speech service did: the call threw, or it answered with a status, a text and audio bytes. */
  datatype Service = Unreachable(message: string) | Answered(status: int, text: string, audio: seq<byte>)

  /** The outcome of the checks: a reply that ends the request, or the text, voice and format to use. */
  datatype Checked = Rejected(reply: Reply) | Accepted(text: string, voice: string, format: JsonValue)

  /** `voice` after its destructuring default, which applies only when the field is absent. */
  function VoiceOf(fields: map<string, JsonValue>): (v: JsonValue)
    ensures "voice" !in fields ==> v == JString(DefaultVoice)
    ensures "voice" in fields ==> v == fields["voice"]
  {
    if "voice" in fields then fields["voice"] else JString(DefaultVoice)
  }

  /** `response_format` after its destructuring default `'wav'`. */
  function FormatOf(fields: map<string, JsonValue>): (f: JsonValue)
    ensures "response_format" !in fields ==> f == JString("wav")
    ensures "response_format" in fields ==> f == fields["response_format"]
  {
    if "response_format" in fields then fields["response_format"] else JString("wav")
  }

  /** `AVAILABLE_VOICES.includes(voice)`: only a string equal to a listed voice is found. */
  predicate Listed(voice: JsonValue) {
    voice.JString? && voice.s in AvailableVoices
  }

  /** Whether the checks pass for the text, the voice and the environment. */
  predicate Valid(fields: map<string, JsonValue>, hasKey: bool) {
    var text := Field(fields, "text");
    && text.JString?
    && Trim(text.s) != ""
    && Utf16Length(text.s) <= MaxTextLength
    && Listed(VoiceOf(fields))
    && hasKey
  }

  /**
   The checks, in the source's order: missing or blank text, over-long text, unknown voice, missing
   API key. A truthy text that is not a string makes `trim` throw, which the outer handler turns
   into a 500.
   */
  function Check(fields: map<string, JsonValue>, hasKey: bool): (c: Checked)
    ensures c.Accepted? <==> Valid(fields, hasKey)
    ensures c.Accepted? ==>
      && c.text == Field(fields, "text").s
      && c.voice == DefaultVoice
      && c.format == FormatOf(fields)
    ensures c.Rejected? ==> c.reply.Failure? && c.reply.status in {400, 500}
  {
    var text := Field(fields, "text");
    var voice := VoiceOf(fields);
    if !Truthy(text) then Rejected(Failure(400, TextRequired, None))
    else if !text.JString? then Rejected(Failure(500, GenerationFailed, Some(TrimNotAFunction)))
    else if Trim(text.s) == "" then Rejected(Failure(400, TextRequired, None))
    else if Utf16Length(text.s) > MaxTextLength then Rejected(Failure(400, TextTooLong, None))
    else if !Listed(voice) then Rejected(Failure(400, InvalidVoice(), None))
    else if !hasKey then Rejected(Failure(500, KeyMissing, None))
    else Accepted(text.s, voice.s, FormatOf(fields))
  }

  /** The message for a non-OK answer of the speech service, chosen by its status. */
  function StatusMessage(status: int, text: string): (m: string)
    ensures status !in {401, 429, 400} ==> m == GenerationFailed
  {
    if status == 401 then "Invalid API key - check your GROQ_API_KEY"
    else if status == 429 then "Rate limit exceeded"
    else if status == 400 then "Invalid request: " + text
    else GenerationFailed
  }

  /** `response.ok`: a status in the range 200 to 299. */
  predicate Ok(status: int) {
    200 <= status <= 299
  }

  /** The reply for the service's answer to an accepted request. */
  function Respond(service: Service, text: string, voice: string, format: JsonValue, now: string): (r: Reply)
    ensures service.Unreachable? ==> r == Failure(500, GenerationFailed, Some(service.message))
    ensures service.Answered? && !Ok(service.status) ==>
      && r.Failure?
      && r.status == service.status
      && r.details == Some(service.text)
    ensures service.Answered? && Ok(service.status) ==>
      && r.Spoken?
      && r.audio == service.audio && r.audioSize == |service.audio|
      && r.textLength == Utf16Length(text)
  {
    match service
    case Unreachable(m) => Failure(500, GenerationFailed, Some(m))
    case Answered(status, body, audio) =>
      if !Ok(status) then Failure(status, StatusMessage(status, body), Some(body))
      else Spoken(audio, format, voice, Utf16Length(text), |audio|, now)
  }

  /**
   The route: the reply, and the request forwarded to the speech service when the checks pass.
   A body that is not JSON makes `request.json()` throw, which the outer handler turns into a 500.
   */
  function Post(body: RequestBody, hasKey: bool, service: Service, now: string): (r: (Reply, Option<SpeechRequest>))
    ensures body.Unreadable? ==> r == (Failure(500, GenerationFailed, Some(body.message)), None)
    ensures r.1.Some? <==> body.Object? && Valid(body.fields, hasKey)
    ensures body.Object? && Check(body.fields, hasKey).Rejected? ==> r.0 == Check(body.fields, hasKey).reply
    ensures r.1.Some? ==>
      && r.1.value.input == Trim(Field(body.fields, "text").s)
      && r.1.value.model == Model
      && r.1.value.voice == DefaultVoice
  {
    match body
    case Unreadable(m) => (Failure(500, GenerationFailed, Some(m)), None)
    case Object(fields) =>
      match Check(fields, hasKey)
      case Rejected(reply) => (reply, None)
      case Accepted(text, voice, format) =>
        (Respond(service, text, voice, format, now), Some(SpeechRequest(Model, Trim(text), voice, format)))
  }

  // ---------------------------------------------------------------------------
  // Properties
  // ---------------------------------------------------------------------------

  /** Missing, empty or whitespace-only text is refused with 400, whatever the voice or the key. */
  lemma BlankTextIs400(fields: map<string, JsonValue>, hasKey: bool)
    requires Field(fields, "text") == JNull || (Field(fields, "text").JString? && Trim(Field(fields, "text").s) == "")
    ensures Check(fields, hasKey) == Rejected(Failure(400, TextRequired, None))
  {
  }

  /**
   Text longer than 5000 UTF-16 code units, measured before trimming, is refused with 400 whatever
   the voice or the key, while text of exactly 5000 passes the length check.
   */
  lemma LengthLimit(fields: map<string, JsonValue>, hasKey: bool)
    requires Field(fields, "text").JString? && Trim(Field(fields, "text").s) != ""
    ensures Utf16Length(Field(fields, "text").s) > 5000 ==>
      Check(fields, hasKey) == Rejected(Failure(400, TextTooLong, None))
    ensures Utf16Length(Field(fields, "text").s) == 5000 ==>
      Check(fields, hasKey) != Rejected(Failure(400, TextTooLong, None))
  {
    CheckAfterText(fields, hasKey);
    assert InvalidVoice()[0] != TextTooLong[0];
    assert KeyMissing[0] != TextTooLong[0];
  }

  /** Surrounding whitespace counts towards the limit: padding short text past 5000 gets it refused. */
  lemma PaddingCounts(word: string, pad: string, hasKey: bool)
    requires Trim(word) != "" && Blank(pad)
    requires Utf16Length(word) + Utf16Length(pad) > 5000
    ensures Check(map["text" := JString(word + pad)], hasKey) == Rejected(Failure(400, TextTooLong, None))
  {
    Utf16LengthAppend(word, pad);
    TrimPadded(word, pad);
  }

  /** Trailing whitespace does not change whether a text trims to nothing. */
  lemma TrimPadded(word: string, pad: string)
    requires Trim(word) != "" && Blank(pad)
    ensures Trim(word + pad) != ""
  {
    TrimSpec(word);
    TrimSpec(word + pad);
    var k :| 0 <= k < |word| && !IsSpace(word[k]);
    assert (word + pad)[k] == word[k];
  }

  /** The default voice always passes the voice check; any other voice is refused with 400. */
  lemma VoiceCheck(fields: map<string, JsonValue>, hasKey: bool)
    requires Field(fields, "text").JString?
    requires Trim(Field(fields, "text").s) != "" && Utf16Length(Field(fields, "text").s) <= 5000
    ensures "voice" !in fields ==> Check(fields, hasKey).Accepted? || Check(fields, hasKey).reply.status == 500
    ensures VoiceOf(fields) != JString(DefaultVoice) ==>
      Check(fields, hasKey) == Rejected(Failure(400, InvalidVoice(), None))
  {
    CheckAfterText(fields, hasKey);
    ListedIsDefault(VoiceOf(fields));
  }

  /** Only the default voice is listed. */
  lemma ListedIsDefault(voice: JsonValue)
    ensures Listed(voice) <==> voice == JString(DefaultVoice)
  {
  }

  /** The checks that remain once the text is a string that is not blank. */
  lemma CheckAfterText(fields: map<string, JsonValue>, hasKey: bool)
    requires Field(fields, "text").JString? && Trim(Field(fields, "text").s) != ""
    ensures Utf16Length(Field(fields, "text").s) > MaxTextLength ==>
      Check(fields, hasKey) == Rejected(Failure(400, TextTooLong, None))
    ensures Utf16Length(Field(fields, "text").s) <= MaxTextLength && !Listed(VoiceOf(fields)) ==>
      Check(fields, hasKey) == Rejected(Failure(400, InvalidVoice(), None))
    ensures Utf16Length(Field(fields, "text").s) <= MaxTextLength && Listed(VoiceOf(fields)) && !hasKey ==>
      Check(fields, hasKey) == Rejected(Failure(500, KeyMissing, None))
    ensures Utf16Length(Field(fields, "text").s) <= MaxTextLength && Listed(VoiceOf(fields)) && hasKey ==>
      Check(fields, hasKey).Accepted?
  {
    var text := Field(fields, "text");
    assert text.s != "";
    assert Truthy(text);
  }

  /** A missing API key gives 500 exactly for requests that pass every other check. */
  lemma MissingKeyOnlyForValidInput(fields: map<string, JsonValue>)
    ensures Check(fields, false) == Rejected(Failure(500, KeyMissing, None)) <==> Valid(fields, true)
  {
    var text := Field(fields, "text");
    if text.JString? && Trim(text.s) != "" {
      CheckAfterText(fields, false);
      assert InvalidVoice()[0] != KeyMissing[0];
      assert TextTooLong[0] != KeyMissing[0];
    } else {
      assert GenerationFailed[0] != KeyMissing[0];
    }
  }

  /** A non-OK answer of the service is passed on with its own status and the message for it. */
  lemma UpstreamStatusPassedOn(fields: map<string, JsonValue>, status: int, text: string, audio: seq<byte>, now: string)
    requires Valid(fields, true) && !Ok(status)
    ensures var r := Post(Object(fields), true, Answered(status, text, audio), now).0;
      && r.Failure? && r.status == status
      && (status == 401 ==> r.error == "Invalid API key - check your GROQ_API_KEY")
      && (status == 429 ==> r.error == "Rate limit exceeded")
      && (status == 400 ==> r.error == "Invalid request: " + text)
  {
    PostAccepted(fields, true, Answered(status, text, audio), now);
  }

  /** The service receives the trimmed text, while the reply reports the untrimmed length. */
  lemma TrimmedSentUntrimmedCounted(fields: map<string, JsonValue>, audio: seq<byte>, now: string)
    requires Valid(fields, true)
    ensures var (reply, sent) := Post(Object(fields), true, Answered(200, "", audio), now);
      && sent.Some? && sent.value.input == Trim(Field(fields, "text").s)
      && reply.Spoken? && reply.textLength == Utf16Length(Field(fields, "text").s)
  {
    PostAccepted(fields, true, Answered(200, "", audio), now);
  }

  /** A request that passes the checks is answered from the service's outcome. */
  lemma PostAccepted(fields: map<string, JsonValue>, hasKey: bool, service: Service, now: string)
    requires Valid(fields, hasKey)
    ensures Post(Object(fields), hasKey, service, now).0
      == Respond(service, Field(fields, "text").s, DefaultVoice, FormatOf(fields), now)
  {
    var c := Check(fields, hasKey);
    assert c.Accepted? && c.text == Field(fields, "text").s && c.voice == DefaultVoice && c.format == FormatOf(fields);
  }
}

=== FILE: story_parser.dfy ===
/**
 The structured story scanner of `lib/storyParser.ts` (`parseStoryText`): a line-by-line pass over
 marker-delimited text that fills a `ParsedStory` record. Some branches look ahead and consume
 the following lines (multi-line summary, the character bullet list, multi-line action and
 dialogue); the scan resumes at the first line the look-ahead refused.

 The source keeps two pieces of mode state, `inScene` and `currentScene`; every assignment keeps
 `inScene == (currentScene != null)`, so the model holds the open scene as one `Option`.
 */
module StoryParser {
  import opened Wrappers
  import opened JsText

  datatype CharacterEntry = CharacterEntry(name: string, description: string)

  datatype StoryScene = StoryScene(
    sceneNumber: nat,
    title: string,
    location: string,
    characters: seq<string>,
    action: string,
    dialogue: string)

  datatype ParsedStory = ParsedStory(
    title: string,
    summary: string,
    genre: string,
    ageGroup: string,
    characters: seq<CharacterEntry>,
    scenes: seq<StoryScene>,
    moral: string,
    ending: string)

  const StartMarker: string := "=== STORY START ==="
  const EndMarker: string := "=== STORY END ==="

  const EmptyStory: ParsedStory := ParsedStory("", "", "", "", [], [], "", "")

  /** The scan state: the record built so far and the open scene, if any. */
  datatype ScanState = ScanState(story: ParsedStory, current: Option<StoryScene>)

  const InitialState: ScanState := ScanState(EmptyStory, None)

  /** The four top-level text fields, each set by the line that starts with its prefix. */
  datatype TextField = TitleField | GenreField | AgeGroupField | SummaryField
  {
    function Prefix(): string {
      match this
      case TitleField => "TITLE:"
      case GenreField => "GENRE:"
      case AgeGroupField => "AGE GROUP:"
      case SummaryField => "SUMMARY:"
    }

    function Of(story: ParsedStory): string {
      match this
      case TitleField => story.title
      case GenreField => story.genre
      case AgeGroupField => story.ageGroup
      case SummaryField => story.summary
    }

    /** The line kind that assigns `v` to this field. */
    function Assign(v: string): LineKind {
      match this
      case TitleField => Title(v)
      case GenreField => Genre(v)
      case AgeGroupField => AgeGroup(v)
      case SummaryField => Summary(v)
    }

    /** The line kinds that assign this field. */
    predicate SetBy(kind: LineKind) {
      match this
      case TitleField => kind.Title?
      case GenreField => kind.Genre?
      case AgeGroupField => kind.AgeGroup?
      case SummaryField => kind.Summary?
    }
  }

  // ---------------------------------------------------------------------------
  // Recognising lines
  // ---------------------------------------------------------------------------

  /** The text of a field line after its prefix, trimmed; `FieldValueReplaces` relates it to `replace`. */
  function FieldValue(line: string, prefix: string): string
    requires StartsWith(line, prefix)
  {
    Trim(line[|prefix|..])
  }

  /**
   `line.replace(prefix, '').trim()`: on a line that starts with `prefix`, `replace` removes that
   leading occurrence, so the value is the trimmed rest of the line.
   */
  lemma FieldValueReplaces(line: string, prefix: string)
    requires StartsWith(line, prefix)
    ensures Trim(RemoveFirst(line, prefix)) == FieldValue(line, prefix)
  {
    RemoveLeading(line, prefix);
  }

  /** The number of leading ASCII digits of `s` (what a greedy `\d+` consumes). */
  function DigitRun(s: string): (n: nat)
    ensures n <= |s|
    ensures forall k :: 0 <= k < n ==> IsAsciiDigit(s[k])
    ensures n < |s| ==> !IsAsciiDigit(s[n])
  {
    if |s| > 0 && IsAsciiDigit(s[0]) then 1 + DigitRun(s[1..]) else 0
  }

  /** What `(.*)` captures: the text up to the first line terminator. */
  function LineHead(s: string): (r: string)
    ensures |r| <= |s| && r == s[..|r|]
    ensures forall k :: 0 <= k < |r| ==> !IsLineTerminator(r[k])
    ensures |r| < |s| ==> IsLineTerminator(s[|r|])
  {
    if |s| == 0 || IsLineTerminator(s[0]) then "" else [s[0]] + LineHead(s[1..])
  }

  /**
   `/^SCENE (\d+):\s*(.*)/` on a trimmed line: the scene number (`parseInt` of the digits)
   and the title, or `None` when the line is not a scene header (`/^SCENE \d+:/` fails).
   */
  function SceneHeader(line: string): (h: Option<(nat, string)>)
    ensures h.Some? ==> StartsWith(line, "SCENE")
  {
    if StartsWith(line, "SCENE ") then
      var d := DigitRun(line[6..]);
      if d > 0 && 6 + d < |line| && line[6 + d] == ':' then
        assert AllDigits(line[6..6 + d]);
        StartsWithShorter(line, "SCENE ", "SCENE");
        Some((DecimalValue(line[6..6 + d]), LineHead(TrimStart(line[7 + d..]))))
      else None
    else None
  }

  /** The look-ahead loops of the source, named after the branch that starts them. */
  datatype LookAhead = SummaryLines | CharacterLines | ActionLines | DialogueLines

  /** The condition on a trimmed line that ends a look-ahead loop (its `while` test, negated). */
  predicate Stops(kind: LookAhead, t: string) {
    match kind
    case SummaryLines =>
      StartsWith(t, "CHARACTERS:") || StartsWith(t, "SCENE")
    case CharacterLines =>
      StartsWith(t, "SCENE")
    case ActionLines =>
      || StartsWith(t, "DIALOGUE:") || StartsWith(t, "SCENE") || t == ""
      || StartsWith(t, "MORAL:") || StartsWith(t, "STORY ENDING:")
    case DialogueLines =>
      || StartsWith(t, "SCENE") || StartsWith(t, "ACTION:") || StartsWith(t, "LOCATION:")
      || StartsWith(t, "CHARACTERS:") || t == ""
      || StartsWith(t, "MORAL:") || StartsWith(t, "STORY ENDING:")
  }

  /** The first index from `j` on whose trimmed line `stop` accepts, or the end. */
  function FirstStop(lines: seq<string>, j: nat, stop: string -> bool): (k: nat)
    requires j <= |lines|
    ensures j <= k <= |lines|
    ensures forall m :: j <= m < k ==> !stop(Trim(lines[m]))
    ensures k < |lines| ==> stop(Trim(lines[k]))
    decreases |lines| - j
  {
    if j == |lines| || stop(Trim(lines[j])) then j else FirstStop(lines, j + 1, stop)
  }

  /** The index where a look-ahead starting at `j` stops: the first refused line, or the end. */
  function LookAheadEnd(lines: seq<string>, j: nat, kind: LookAhead): (k: nat)
    requires j <= |lines|
    ensures j <= k <= |lines|
    ensures forall m :: j <= m < k ==> !Stops(kind, Trim(lines[m]))
    ensures k < |lines| ==> Stops(kind, Trim(lines[k]))
  {
    FirstStop(lines, j, t => Stops(kind, t))
  }

  /** What a look-ahead appends to its field: `' ' + line.trim()` for each non-blank line. */
  function Continuation(ls: seq<string>): (r: string)
    ensures r == "" <==> forall k :: 0 <= k < |ls| ==> Trim(ls[k]) == ""
    ensures r == "" || r[0] == ' '
  {
    if |ls| == 0 then ""
    else
      var rest := ls[1..];
      assert forall k :: 0 < k < |ls| ==> ls[k] == rest[k - 1];
      var head, tail := ContinuedLine(ls[0]), Continuation(rest);
      assert head == "" ==> head + tail == tail;
      assert head != "" ==> (head + tail)[0] == head[0];
      head + tail
  }

  /** The contribution of one look-ahead line: nothing when it is blank, else a space and its trimmed text. */
  function ContinuedLine(l: string): (r: string)
    ensures r == "" <==> Trim(l) == ""
    ensures r == "" || (r[0] == ' ' && r[1..] == Trim(l))
  {
    if Trim(l) == "" then "" else " " + Trim(l)
  }

  /** One line continues a field with a space and its trimmed text, or not at all when blank. */
  lemma ContinuationOne(l: string)
    ensures Continuation([l]) == if Trim(l) == "" then "" else " " + Trim(l)
  {
    assert [l][1..] == [];
    assert Continuation([l]) == ContinuedLine(l) + Continuation([]);
  }

  /** The continuation of consecutive runs of lines is the concatenation of their continuations. */
  lemma {:induction false} ContinuationAppend(a: seq<string>, b: seq<string>)
    ensures Continuation(a + b) == Continuation(a) + Continuation(b)
  {
    if |a| == 0 {
      assert a + b == b;
    } else {
      var ab := a + b;
      assert ab[0] == a[0] && ab[1..] == a[1..] + b;
      var h := ContinuedLine(a[0]);
      assert Continuation(ab) == h + Continuation(a[1..] + b);
      assert Continuation(a) == h + Continuation(a[1..]);
      ContinuationAppend(a[1..], b);
      Regroup(h, Continuation(a[1..]), Continuation(b), Continuation(a), Continuation(a[1..] + b));
    }
  }

  /**
   One line of the character look-ahead: a line starting with `•` whose remainder contains a
   `-` yields the trimmed first and second `-`-separated pieces; any other line yields nothing.
   */
  function Bullet(l: string): (r: seq<CharacterEntry>)
    ensures |r| <= 1
    ensures forall e :: e in r ==> '-' !in e.name && '-' !in e.description
    ensures r != [] <==> StartsWith(Trim(l), "•") && '-' in Trim(l)[1..]
  {
    TrimmedBullet(Trim(l))
  }

  /** `Bullet` on the already trimmed line. */
  function TrimmedBullet(t: string): (r: seq<CharacterEntry>)
    ensures |r| <= 1
    ensures forall e :: e in r ==> '-' !in e.name && '-' !in e.description
    ensures r != [] <==> StartsWith(t, "•") && '-' in t[1..]
  {
    if StartsWith(t, "•") then
      var parts := Split(t[1..], '-');
      SplitManyIffContains(t[1..], '-');
      if |parts| >= 2 then
        assert '-' !in parts[0] && '-' !in parts[1];
        TrimSpec(parts[0]); TrimSpec(parts[1]);
        [CharacterEntry(Trim(parts[0]), Trim(parts[1]))]
      else []
    else []
  }

  function Bullets(ls: seq<string>): (r: seq<CharacterEntry>)
    ensures forall e :: e in r ==> '-' !in e.name && '-' !in e.description
  {
    if |ls| == 0 then [] else Bullet(ls[0]) + Bullets(ls[1..])
  }

  // ---------------------------------------------------------------------------
  // The scan
  // ---------------------------------------------------------------------------

  /**
   Which branch of the loop body a trimmed line takes, tested in the source's order. The
   scene-only kinds arise only while a scene is open; `Moral` and `Ending` only while none is.
   */
  datatype LineKind =
    | Marker
    | Title(value: string)
    | Genre(value: string)
    | AgeGroup(value: string)
    | Summary(value: string)
    | CharacterList
    | Header(number: nat, name: string)
    | Location(value: string)
    | Action(value: string)
    | Dialogue(value: string)
    | CloseScene
    | Moral(value: string)
    | Ending(value: string)
    | Ignored
  {
    predicate SceneOnly() { Location? || Action? || Dialogue? || CloseScene? }
  }

  /** A line starting with one of the field prefixes or a marker is not a scene header. */
  lemma NotHeader(line: string, p: string)
    requires |p| >= 2 && (p[0] != 'S' || p[1] != 'C')
    requires StartsWith(line, p)
    ensures !StartsWith(line, "SCENE")
  {
    assert line[0] == p[0] && line[1] == p[1];
  }

  function Classify(line: string, open: Option<StoryScene>): (k: LineKind)
    ensures k.Header? <==> SceneHeader(line).Some?
    ensures k.Header? ==> SceneHeader(line) == Some((k.number, k.name))
    ensures k.SceneOnly() ==> open.Some?
    ensures (k.Moral? || k.Ending?) ==> open.None?
  {
    match TopKind(line)
    case Some(k) => k
    case None =>
      var h := SceneHeader(line);
      if h.Some? then Header(h.value.0, h.value.1)
      else if open.Some? then SceneKind(line, open.value)
      else ClosingKind(line)
  }

  lemma MarkersNotScene()
    ensures !StartsWith(StartMarker, "SCENE") && !StartsWith(EndMarker, "SCENE")
  {
  }

  /** The branches tested before the scene header: the markers and the top-level fields. */
  function TopKind(line: string): (k: Option<LineKind>)
    ensures k.Some? ==> !StartsWith(line, "SCENE")
    ensures k.Some? ==> !k.value.Header? && !k.value.SceneOnly() && !k.value.Moral? && !k.value.Ending?
  {
    if line == StartMarker || line == EndMarker then MarkersNotScene(); Some(Marker)
    else if StartsWith(line, "TITLE:") then NotHeader(line, "TITLE:"); Some(Title(FieldValue(line, "TITLE:")))
    else if StartsWith(line, "GENRE:") then NotHeader(line, "GENRE:"); Some(Genre(FieldValue(line, "GENRE:")))
    else if StartsWith(line, "AGE GROUP:") then
      NotHeader(line, "AGE GROUP:"); Some(AgeGroup(FieldValue(line, "AGE GROUP:")))
    else if StartsWith(line, "SUMMARY:") then
      NotHeader(line, "SUMMARY:"); Some(Summary(FieldValue(line, "SUMMARY:")))
    else if StartsWith(line, "CHARACTERS:") then NotHeader(line, "CHARACTERS:"); Some(CharacterList)
    else None
  }

  /** The branches taken inside an open scene `sc` (the source's `inScene` block). */
  function SceneKind(line: string, sc: StoryScene): (k: LineKind)
    ensures k.SceneOnly() || k.Ignored?
  {
    if StartsWith(line, "LOCATION:") then Location(FieldValue(line, "LOCATION:"))
    else if StartsWith(line, "ACTION:") then Action(FieldValue(line, "ACTION:"))
    else if StartsWith(line, "DIALOGUE:") then Dialogue(FieldValue(line, "DIALOGUE:"))
    else if line == "" && sc.location != "" && sc.action != "" then CloseScene
    else Ignored
  }

  /** The branches taken when no scene is open: the moral and the ending. */
  function ClosingKind(line: string): (k: LineKind)
    ensures k.Moral? || k.Ending? || k.Ignored?
    ensures k.Ignored? <==> !StartsWith(line, "MORAL:") && !StartsWith(line, "STORY ENDING:")
  {
    if StartsWith(line, "MORAL:") then Moral(FieldValue(line, "MORAL:"))
    else if StartsWith(line, "STORY ENDING:") then Ending(FieldValue(line, "STORY ENDING:"))
    else Ignored
  }

  /** The record with the open scene, if any, appended to its scenes. */
  function Flush(st: ScanState): (r: ParsedStory)
    ensures r == st.story.(scenes := r.scenes)
    ensures st.story.scenes <= r.scenes
    ensures |r.scenes| == |st.story.scenes| + (if st.current.Some? then 1 else 0)
    ensures st.current.Some? ==> r.scenes[|st.story.scenes|] == st.current.value
  {
    match st.current
    case None => st.story
    case Some(sc) => st.story.(scenes := st.story.scenes + [sc])
  }

  /** Which look-ahead, if any, a line kind starts. */
  function LookAheadOf(kind: LineKind): Option<LookAhead> {
    match kind
    case Summary(_) => Some(SummaryLines)
    case CharacterList => Some(CharacterLines)
    case Action(_) => Some(ActionLines)
    case Dialogue(_) => Some(DialogueLines)
    case _ => None
  }

  /** The index of the next line the loop visits after line `i` (the source's `i = j - 1; i++`). */
  function NextIndex(lines: seq<string>, i: nat, kind: LineKind): (j: nat)
    requires i < |lines|
    ensures i < j <= |lines|
  {
    match LookAheadOf(kind)
    case None => i + 1
    case Some(la) => LookAheadEnd(lines, i + 1, la)
  }

  /**
   The effect of one line of kind `kind` on the state, given the lines its look-ahead
   consumed (`consumed` is empty for kinds without a look-ahead).
   */
  function Update(kind: LineKind, st: ScanState, consumed: seq<string>): (r: ScanState)
    requires kind.SceneOnly() ==> st.current.Some?
    ensures forall f: TextField :: !f.SetBy(kind) ==> f.Of(r.story) == f.Of(st.story)
    ensures kind.Header? || kind.CloseScene? ==> r.story.scenes == Flush(st).scenes
    ensures !kind.Header? && !kind.CloseScene? ==> r.story.scenes == st.story.scenes
    ensures !kind.CharacterList? ==> r.story.characters == st.story.characters
    ensures kind.CharacterList? ==> r.story.characters == st.story.characters + Bullets(consumed)
  {
    match kind
    case Header(n, t) => FlushKeeps(st); ScanState(Flush(st), Some(StoryScene(n, t, "", [], "", "")))
    case CloseScene => FlushKeeps(st); ScanState(Flush(st), None)
    case Location(v) => st.(current := Some(st.current.value.(location := v)))
    case Action(v) => st.(current := Some(st.current.value.(action := v + Continuation(consumed))))
    case Dialogue(v) => st.(current := Some(st.current.value.(dialogue := v + Continuation(consumed))))
    case _ => st.(story := UpdateStory(kind, st.story, consumed))
  }

  /** Pushing the open scene leaves the text fields and the characters as they were. */
  lemma FlushKeeps(st: ScanState)
    ensures forall f: TextField :: f.Of(Flush(st)) == f.Of(st.story)
    ensures Flush(st).characters == st.story.characters
  {
  }

  /** The part of `Update` for the line kinds that change the story's own fields, or nothing. */
  function UpdateStory(kind: LineKind, story: ParsedStory, consumed: seq<string>): (r: ParsedStory)
    requires !kind.Header? && !kind.CloseScene? && !kind.SceneOnly()
    ensures forall f: TextField :: !f.SetBy(kind) ==> f.Of(r) == f.Of(story)
    ensures r.scenes == story.scenes
    ensures !kind.CharacterList? ==> r.characters == story.characters
  {
    match kind
    case Title(v) => story.(title := v)
    case Genre(v) => story.(genre := v)
    case AgeGroup(v) => story.(ageGroup := v)
    case Summary(v) => story.(summary := v + Continuation(consumed))
    case CharacterList => story.(characters := story.characters + Bullets(consumed))
    case Moral(v) => story.(moral := v)
    case Ending(v) => story.(ending := v)
    case _ => story
  }

  /**
   One turn of the source's `for` loop on line `i`: the new state and the index of the next
   line to visit (past any lines a look-ahead consumed).
   */
  function Step(lines: seq<string>, i: nat, st: ScanState): (res: (ScanState, nat))
    requires i < |lines|
    ensures i < res.1 <= |lines|
  {
    var kind := Classify(Trim(lines[i]), st.current);
    var j := NextIndex(lines, i, kind);
    (Update(kind, st, lines[i + 1..j]), j)
  }

  /** The loop from line `i` to the end, followed by the final push of the open scene. */
  function Scan(lines: seq<string>, i: nat, st: ScanState): (r: ParsedStory)
    requires i <= |lines|
    ensures st.story.scenes <= r.scenes
    ensures st.story.characters <= r.characters
    decreases |lines| - i
  {
    if i == |lines| then Flush(st)
    else
      var res := Step(lines, i, st);
      Scan(lines, res.1, res.0)
  }

  // ---------------------------------------------------------------------------
  // What the scan produces
  // ---------------------------------------------------------------------------

  /** The (number, title) pairs of a list of scenes. */
  function Heads(scenes: seq<StoryScene>): seq<(nat, string)> {
    seq(|scenes|, k requires 0 <= k < |scenes| => (scenes[k].sceneNumber, scenes[k].title))
  }

  /** The (number, title) pairs of the scene-header lines from index `i` on, in order. */
  function HeaderLines(lines: seq<string>, i: nat): seq<(nat, string)>
    requires i <= |lines|
    decreases |lines| - i
  {
    if i == |lines| then []
    else
      var h := SceneHeader(Trim(lines[i]));
      (if h.Some? then [h.value] else []) + HeaderLines(lines, i + 1)
  }

  /** No trimmed line from index `i` on starts with `p`. */
  predicate NoLineWith(lines: seq<string>, i: nat, p: string) {
    forall k :: i <= k < |lines| ==> !StartsWith(Trim(lines[k]), p)
  }

  /** The state invariant: no scene ever has characters, no character entry holds a `-`. */
  ghost predicate Tidy(st: ScanState) {
    && (forall k :: 0 <= k < |st.story.scenes| ==> st.story.scenes[k].characters == [])
    && (st.current.Some? ==> st.current.value.characters == [])
    && (forall e :: e in st.story.characters ==> '-' !in e.name && '-' !in e.description)
  }

  /**
   `parseStoryText`: split on `\n` and scan. The scenes are exactly the scene-header lines, in
   order, with their numbers and titles; no scene ever gets a character list (a `CHARACTERS:`
   line is always taken by the top-level branch); no character name or description holds a `-`.
   */
  function ParseStoryText(text: string): (r: ParsedStory)
    ensures Heads(r.scenes) == HeaderLines(Split(text, '\n'), 0)
    ensures |r.scenes| == |HeaderLines(Split(text, '\n'), 0)|
    ensures forall k :: 0 <= k < |r.scenes| ==> r.scenes[k].characters == []
    ensures forall e :: e in r.characters ==> '-' !in e.name && '-' !in e.description
    ensures forall f: TextField :: NoLineWith(Split(text, '\n'), 0, f.Prefix()) ==> f.Of(r) == ""
  {
    var lines := Split(text, '\n');
    ScanHeads(lines, 0, InitialState);
    ScanTidy(lines, 0, InitialState);
    forall f: TextField
      ensures NoLineWith(lines, 0, f.Prefix()) ==> f.Of(Scan(lines, 0, InitialState)) == ""
    {
      FieldWithoutLine(f, lines);
    }
    Scan(lines, 0, InitialState)
  }

  // ---------------------------------------------------------------------------
  // Single lines
  // ---------------------------------------------------------------------------

  /**
   The header the story prompt asks for, `SCENE <n>: <title>`, is read back as scene `n` with
   title `title`, when the title has no leading whitespace and no line break.
   */
  lemma SceneHeaderRoundTrip(n: nat, title: string)
    requires title == [] || !IsSpace(title[0])
    requires forall k :: 0 <= k < |title| ==> !IsLineTerminator(title[k])
    ensures SceneHeader("SCENE " + NatToString(n) + ": " + title) == Some((n, title))
  {
    var d := NatToString(n);
    var line := "SCENE " + d + ": " + title;
    HeaderSlices(d, title);
    assert DigitRun(line[6..]) == |d| by { DigitRunOf(d, ": " + title); }
    assert DecimalValue(d) == n by { DecimalRoundTrip(n); }
    assert TrimStart(" " + title) == title by { TrimStartSpace(title); }
    assert LineHead(title) == title by { LineHeadWhole(title); }
    HeaderAssemble(line, d, n, title);
  }

  /** `SceneHeaderMatch` with the number and the title already read back from their slices. */
  lemma HeaderAssemble(line: string, d: string, n: nat, title: string)
    requires StartsWith(line, "SCENE ") && 0 < |d| && 6 + |d| < |line| && AllDigits(d)
    requires line[6..6 + |d|] == d && DigitRun(line[6..]) == |d| && line[6 + |d|] == ':'
    requires DecimalValue(d) == n && line[7 + |d|..] == " " + title
    requires TrimStart(" " + title) == title && LineHead(title) == title
    ensures SceneHeader(line) == Some((n, title))
  {
    SceneHeaderMatch(line, |d|);
  }

  /**
   A line of the form `SCENE <digits>:<rest>` is a header: its number is the value of the digits
   and its title the first line of `<rest>` after leading whitespace.
   */
  lemma SceneHeaderMatch(line: string, d: nat)
    requires StartsWith(line, "SCENE ") && 0 < d && 6 + d < |line|
    requires AllDigits(line[6..6 + d]) && line[6 + d] == ':'
    ensures SceneHeader(line) == Some((DecimalValue(line[6..6 + d]), LineHead(TrimStart(line[7 + d..]))))
  {
    var rest := line[6..];
    assert rest[..d] == line[6..6 + d] && rest[d] == line[6 + d];
    DigitRunEnds(rest, d);
    HeaderAt(line, d);
  }

  /** Digits up to a non-digit at `d`: the digit run has length `d`. */
  lemma DigitRunEnds(s: string, d: nat)
    requires d < |s| && AllDigits(s[..d]) && !IsAsciiDigit(s[d])
    ensures DigitRun(s) == d
  {
    assert s == s[..d] + s[d..];
    DigitRunOf(s[..d], s[d..]);
  }

  /** The step of `SceneHeaderMatch` once the digit run is known to end at the colon. */
  lemma HeaderAt(line: string, d: nat)
    requires StartsWith(line, "SCENE ") && 0 < d && 6 + d < |line|
    requires DigitRun(line[6..]) == d && line[6 + d] == ':' && AllDigits(line[6..6 + d])
    ensures SceneHeader(line) == Some((DecimalValue(line[6..6 + d]), LineHead(TrimStart(line[7 + d..]))))
  {
  }

  /** Only a line of the form `SCENE <digits>:<rest>` is a header; `d` is the length of its digits. */
  lemma SceneHeaderWitness(line: string) returns (d: nat)
    requires SceneHeader(line).Some?
    ensures StartsWith(line, "SCENE ") && 0 < d && 6 + d < |line|
    ensures AllDigits(line[6..6 + d]) && line[6 + d] == ':'
    ensures SceneHeader(line) == Some((DecimalValue(line[6..6 + d]), LineHead(TrimStart(line[7 + d..]))))
  {
    d := DigitRun(line[6..]);
  }

  lemma HeaderSlices(d: string, title: string)
    ensures var line := "SCENE " + d + ": " + title;
      && StartsWith(line, "SCENE ")
      && line[6..] == d + (": " + title)
      && line[6 + |d|] == ':'
      && line[6..6 + |d|] == d
      && line[7 + |d|..] == " " + title
  {
    var line := "SCENE " + d + ": " + title;
    StartsWithPrefix(line, "SCENE ");
    assert line[..6] == "SCENE ";
  }

  lemma {:induction false} DigitRunOf(d: string, rest: string)
    requires AllDigits(d)
    requires rest == [] || !IsAsciiDigit(rest[0])
    ensures DigitRun(d + rest) == |d|
    decreases |d|
  {
    if d == [] {
      assert d + rest == rest;
    } else {
      assert (d + rest)[1..] == d[1..] + rest;
      DigitRunOf(d[1..], rest);
    }
  }

  lemma TrimStartSpace(t: string)
    requires t == [] || !IsSpace(t[0])
    ensures TrimStart(" " + t) == t
  {
    var s := " " + t;
    assert s[1..] == t;
    assert TrimStart(t) == t;
  }

  lemma LineHeadWhole(t: string)
    requires forall k :: 0 <= k < |t| ==> !IsLineTerminator(t[k])
    ensures LineHead(t) == t
  {
  }

  /**
   A character bullet `• <name> - <description>` (possibly followed by more `-` pieces) yields
   exactly one entry: the trimmed name and the trimmed description.
   */
  lemma BulletEntry(l: string, name: string, description: string, rest: string)
    requires '-' !in name && '-' !in description
    requires rest == [] || rest[0] == '-'
    requires Trim(l) == "•" + name + "-" + description + rest
    ensures Bullet(l) == [CharacterEntry(Trim(name), Trim(description))]
  {
    TrimmedBulletEntry(Trim(l), name, description, rest);
  }

  lemma TrimmedBulletEntry(t: string, name: string, description: string, rest: string)
    requires '-' !in name && '-' !in description
    requires rest == [] || rest[0] == '-'
    requires t == "•" + name + "-" + description + rest
    ensures TrimmedBullet(t) == [CharacterEntry(Trim(name), Trim(description))]
  {
    assert t[0] == '•';
    assert StartsWith(t, "•");
    assert t[1..] == name + "-" + description + rest;
    SplitTwo(name, description, rest, '-');
  }

  /** `Step` applies the update of its line's kind and resumes after what the look-ahead consumed. */
  lemma StepByKind(lines: seq<string>, i: nat, st: ScanState, kind: LineKind)
    requires i < |lines| && kind == Classify(Trim(lines[i]), st.current)
    ensures kind.SceneOnly() ==> st.current.Some?
    ensures Step(lines, i, st).0 == Update(kind, st, lines[i + 1..NextIndex(lines, i, kind)])
    ensures Step(lines, i, st).1 == NextIndex(lines, i, kind)
  {
  }

  /** Lines without a look-ahead move the scan to the very next line. */
  lemma NoLookAhead(lines: seq<string>, i: nat, kind: LineKind)
    requires i < |lines| && LookAheadOf(kind).None?
    ensures NextIndex(lines, i, kind) == i + 1
  {
  }

  /** The start and end markers are skipped: they leave the state as it was. */
  lemma MarkerLine(t: string, st: ScanState)
    requires t == StartMarker || t == EndMarker
    ensures Classify(t, st.current) == Marker
    ensures Update(Marker, st, []) == st
  {
  }

  /** A `TITLE:` line sets the title to the trimmed remainder, in or out of a scene. */
  lemma TitleLine(t: string, st: ScanState)
    requires StartsWith(t, "TITLE:")
    ensures Classify(t, st.current) == Title(Trim(t[6..]))
    ensures Update(Title(Trim(t[6..])), st, []) == st.(story := st.story.(title := Trim(t[6..])))
  {
    assert t[0] == 'T';
    assert t != StartMarker && t != EndMarker;
  }

  /**
   A scene header is recognised whether or not a scene is open; it closes the open scene (if
   any) and opens a fresh one with the header's number and title.
   */
  lemma HeaderLine(t: string, st: ScanState, n: nat, title: string)
    requires SceneHeader(t) == Some((n, title))
    ensures Classify(t, st.current) == Header(n, title)
    ensures Update(Header(n, title), st, []) == ScanState(Flush(st), Some(StoryScene(n, title, "", [], "", "")))
  {
    var k := Classify(t, st.current);
    assert k.Header? && SceneHeader(t) == Some((k.number, k.name));
  }

  /** A blank line closes an open scene once it has both a location and an action. */
  lemma BlankLineClosesScene(st: ScanState)
    requires st.current.Some? && st.current.value.location != "" && st.current.value.action != ""
    ensures Classify("", st.current) == CloseScene
    ensures Update(CloseScene, st, []) == ScanState(Flush(st), None)
  {
  }

  /** A blank line leaves a scene open while its location or its action is still empty. */
  lemma BlankLineKeepsScene(st: ScanState)
    requires st.current.Some? && (st.current.value.location == "" || st.current.value.action == "")
    ensures Classify("", st.current) == Ignored
  {
  }

  /** Inside a scene a `MORAL:` line is dropped. */
  lemma MoralInsideSceneDropped(t: string, sc: StoryScene)
    requires StartsWith(t, "MORAL:")
    ensures Classify(t, Some(sc)) == Ignored
  {
    var p := "MORAL:";
    Clash(t, p, StartMarker); Clash(t, p, EndMarker);
    Clash(t, p, "TITLE:"); Clash(t, p, "GENRE:"); Clash(t, p, "AGE GROUP:");
    Clash(t, p, "SUMMARY:"); Clash(t, p, "CHARACTERS:"); NotHeader(t, p);
    Clash(t, p, "LOCATION:"); Clash(t, p, "ACTION:"); Clash(t, p, "DIALOGUE:");
  }

  /** Outside a scene a `MORAL:` line sets the moral to the trimmed remainder. */
  lemma MoralLine(t: string, st: ScanState)
    requires StartsWith(t, "MORAL:") && st.current.None?
    ensures Classify(t, st.current) == Moral(Trim(t[6..]))
    ensures Update(Moral(Trim(t[6..])), st, []) == st.(story := st.story.(moral := Trim(t[6..])))
  {
    var p := "MORAL:";
    Clash(t, p, StartMarker); Clash(t, p, EndMarker);
    Clash(t, p, "TITLE:"); Clash(t, p, "GENRE:"); Clash(t, p, "AGE GROUP:");
    Clash(t, p, "SUMMARY:"); Clash(t, p, "CHARACTERS:"); NotHeader(t, p);
    MoralUpdate(Trim(t[6..]), st);
  }

  lemma MoralUpdate(v: string, st: ScanState)
    ensures Update(Moral(v), st, []) == st.(story := st.story.(moral := v))
  {
  }

  /** Outside a scene a `STORY ENDING:` line sets the ending to the trimmed remainder. */
  lemma EndingLine(t: string, st: ScanState)
    requires StartsWith(t, "STORY ENDING:") && st.current.None?
    ensures Classify(t, st.current) == Ending(Trim(t[13..]))
    ensures Update(Ending(Trim(t[13..])), st, []) == st.(story := st.story.(ending := Trim(t[13..])))
  {
    var p := "STORY ENDING:";
    Clash(t, p, StartMarker); Clash(t, p, EndMarker);
    Clash(t, p, "TITLE:"); Clash(t, p, "GENRE:"); Clash(t, p, "AGE GROUP:");
    Clash(t, p, "CHARACTERS:"); NotHeader(t, p);
    assert t[1] == 'T';
    assert !StartsWith(t, "SUMMARY:");
    Clash(t, p, "MORAL:");
    EndingUpdate(Trim(t[13..]), st);
  }

  lemma EndingUpdate(v: string, st: ScanState)
    ensures Update(Ending(v), st, []) == st.(story := st.story.(ending := v))
  {
  }

  /** Outside a scene a `LOCATION:` line is dropped. */
  lemma LocationOutsideSceneDropped(t: string)
    requires StartsWith(t, "LOCATION:")
    ensures Classify(t, None) == Ignored
  {
    var p := "LOCATION:";
    Clash(t, p, StartMarker); Clash(t, p, EndMarker);
    Clash(t, p, "TITLE:"); Clash(t, p, "GENRE:"); Clash(t, p, "AGE GROUP:");
    Clash(t, p, "SUMMARY:"); Clash(t, p, "CHARACTERS:"); NotHeader(t, p);
    Clash(t, p, "MORAL:"); Clash(t, p, "STORY ENDING:");
  }

  /** A `GENRE:` line sets the genre to the trimmed remainder, in or out of a scene. */
  lemma GenreLine(t: string, st: ScanState)
    requires StartsWith(t, "GENRE:")
    ensures Classify(t, st.current) == Genre(Trim(t[6..]))
    ensures Update(Genre(Trim(t[6..])), st, []) == st.(story := st.story.(genre := Trim(t[6..])))
  {
    GenreTop(t);
    ClassifyOfTop(t, st.current);
    GenreUpdate(Trim(t[6..]), st);
  }

  lemma GenreUpdate(v: string, st: ScanState)
    ensures Update(Genre(v), st, []) == st.(story := st.story.(genre := v))
  {
  }

  lemma GenreTop(t: string)
    requires StartsWith(t, "GENRE:")
    ensures TopKind(t) == Some(Genre(Trim(t[6..])))
  {
    var p := "GENRE:";
    Clash(t, p, StartMarker); Clash(t, p, EndMarker); Clash(t, p, "TITLE:");
  }

  /** An `AGE GROUP:` line sets the age group to the trimmed remainder, in or out of a scene. */
  lemma AgeGroupLine(t: string, st: ScanState)
    requires StartsWith(t, "AGE GROUP:")
    ensures Classify(t, st.current) == AgeGroup(Trim(t[10..]))
    ensures Update(AgeGroup(Trim(t[10..])), st, []) == st.(story := st.story.(ageGroup := Trim(t[10..])))
  {
    AgeGroupTop(t);
    ClassifyOfTop(t, st.current);
    AgeGroupUpdate(Trim(t[10..]), st);
  }

  lemma AgeGroupUpdate(v: string, st: ScanState)
    ensures Update(AgeGroup(v), st, []) == st.(story := st.story.(ageGroup := v))
  {
  }

  /** A line the top-level branches take is classified by them, whether or not a scene is open. */
  lemma ClassifyOfTop(line: string, open: Option<StoryScene>)
    requires TopKind(line).Some?
    ensures Classify(line, open) == TopKind(line).value
  {
  }

  lemma AgeGroupTop(t: string)
    requires StartsWith(t, "AGE GROUP:")
    ensures TopKind(t) == Some(AgeGroup(Trim(t[10..])))
  {
    var p := "AGE GROUP:";
    Clash(t, p, StartMarker); Clash(t, p, EndMarker); Clash(t, p, "TITLE:"); Clash(t, p, "GENRE:");
  }

  /**
   Each of the four text fields is plainly assigned: a later line of the same field replaces
   what an earlier one set.
   */
  lemma FieldOverwrite(f: TextField, st: ScanState, a: string, b: string)
    ensures f.Of(Update(f.Assign(b), Update(f.Assign(a), st, []), []).story) == b
    ensures Update(f.Assign(b), Update(f.Assign(a), st, []), []) == Update(f.Assign(b), st, [])
  {
  }

  /**
   A `SUMMARY:` line sets the summary to its trimmed remainder followed by `' ' + line.trim()` for
   each non-blank line up to the first trimmed line that starts with `CHARACTERS:` or `SCENE`; the
   scan resumes at that line.
   */
  lemma SummaryLine(lines: seq<string>, i: nat, st: ScanState)
    requires i < |lines| && StartsWith(Trim(lines[i]), "SUMMARY:")
    ensures var t := Trim(lines[i]);
      var j := LookAheadEnd(lines, i + 1, SummaryLines);
      && Step(lines, i, st).1 == j
      && Step(lines, i, st).0 == st.(story := st.story.(summary := Trim(t[8..]) + Continuation(lines[i + 1..j])))
      && (forall m :: i < m < j ==> !StartsWith(Trim(lines[m]), "CHARACTERS:") && !StartsWith(Trim(lines[m]), "SCENE"))
      && (j < |lines| ==> StartsWith(Trim(lines[j]), "CHARACTERS:") || StartsWith(Trim(lines[j]), "SCENE"))
  {
    var t := Trim(lines[i]);
    var p := "SUMMARY:";
    Clash(t, p, StartMarker); Clash(t, p, EndMarker);
    Clash(t, p, "TITLE:"); Clash(t, p, "GENRE:"); Clash(t, p, "AGE GROUP:");
    assert Classify(t, st.current) == Summary(Trim(t[8..]));
  }

  /** A line that starts with none of the recognised prefixes and is not blank. */
  predicate Unrecognised(t: string) {
    && t != "" && t != StartMarker && t != EndMarker
    && !StartsWith(t, "TITLE:") && !StartsWith(t, "GENRE:") && !StartsWith(t, "AGE GROUP:")
    && !StartsWith(t, "SUMMARY:") && !StartsWith(t, "CHARACTERS:") && !StartsWith(t, "SCENE")
    && !StartsWith(t, "LOCATION:") && !StartsWith(t, "ACTION:") && !StartsWith(t, "DIALOGUE:")
    && !StartsWith(t, "MORAL:") && !StartsWith(t, "STORY ENDING:")
  }

  /** A non-blank line with no recognised prefix changes nothing, in or out of a scene. */
  lemma UnrecognisedLine(lines: seq<string>, i: nat, st: ScanState)
    requires i < |lines| && Unrecognised(Trim(lines[i]))
    ensures Step(lines, i, st) == (st, i + 1)
  {
    var t := Trim(lines[i]);
    assert SceneHeader(t).None?;
    assert Classify(t, st.current) == Ignored;
    assert UpdateStory(Ignored, st.story, lines[i + 1..i + 1]) == st.story;
  }

  /** A line starting with `p` neither equals nor starts with a `q` whose first letter differs. */
  lemma Clash(t: string, p: string, q: string)
    requires StartsWith(t, p) && |p| > 0 && |q| > 0 && p[0] != q[0]
    ensures !StartsWith(t, q) && t != q
  {
    assert t[0] == p[0];
  }

  // ---------------------------------------------------------------------------
  // Proofs
  // ---------------------------------------------------------------------------

  function OpenHead(st: ScanState): seq<(nat, string)> {
    match st.current
    case None => []
    case Some(sc) => [(sc.sceneNumber, sc.title)]
  }

  lemma HeadsAppend(a: seq<StoryScene>, b: seq<StoryScene>)
    ensures Heads(a + b) == Heads(a) + Heads(b)
  {
  }

  lemma FlushHeads(st: ScanState)
    ensures Heads(Flush(st).scenes) == AllHeads(st)
  {
    match st.current {
      case None =>
      case Some(sc) => HeadsAppend(st.story.scenes, [sc]);
    }
  }

  /** A line that does not start with `SCENE` contributes no header. */
  lemma NoHeaderAt(lines: seq<string>, a: nat)
    requires a < |lines| && !StartsWith(Trim(lines[a]), "SCENE")
    ensures HeaderLines(lines, a) == HeaderLines(lines, a + 1)
  {
    assert SceneHeader(Trim(lines[a])).None?;
  }

  /** A look-ahead never consumes a scene header, since every look-ahead stops at `SCENE`. */
  lemma LookAheadSkipsNoHeader(lines: seq<string>, j: nat, kind: LookAhead)
    requires j <= |lines|
    ensures HeaderLines(lines, j) == HeaderLines(lines, LookAheadEnd(lines, j, kind))
  {
    var stop := t => Stops(kind, t);
    forall m | j <= m < |lines| && !stop(Trim(lines[m]))
      ensures !StartsWith(Trim(lines[m]), "SCENE")
    {
      StopsAtScene(kind, Trim(lines[m]));
    }
    FirstStopSkips(lines, j, stop);
  }

  /** Every look-ahead stops at a line starting with `SCENE`. */
  lemma StopsAtScene(kind: LookAhead, t: string)
    ensures StartsWith(t, "SCENE") ==> Stops(kind, t)
  {
  }

  /** Passing lines that do not start with `SCENE` passes no header. */
  lemma {:induction false} FirstStopSkips(lines: seq<string>, j: nat, stop: string -> bool)
    requires j <= |lines|
    requires forall m :: j <= m < |lines| && !stop(Trim(lines[m])) ==> !StartsWith(Trim(lines[m]), "SCENE")
    ensures HeaderLines(lines, j) == HeaderLines(lines, FirstStop(lines, j, stop))
    decreases |lines| - j
  {
    if j < |lines| && !stop(Trim(lines[j])) {
      NoHeaderAt(lines, j);
      FirstStopSkips(lines, j + 1, stop);
    }
  }

  /** The head a line kind opens, if it is a header. */
  function KindHead(kind: LineKind): seq<(nat, string)> {
    if kind.Header? then [(kind.number, kind.name)] else []
  }

  lemma UpdateHeads(kind: LineKind, st: ScanState, consumed: seq<string>)
    requires kind.SceneOnly() ==> st.current.Some?
    ensures var st' := Update(kind, st, consumed);
      AllHeads(st') == AllHeads(st) + KindHead(kind)
  {
    match kind {
      case Header(_, _) => FlushHeads(st);
      case CloseScene => FlushHeads(st);
      case _ =>
    }
  }

  lemma NextIndexSkipsNoHeader(lines: seq<string>, i: nat, kind: LineKind)
    requires i < |lines|
    ensures HeaderLines(lines, i + 1) == HeaderLines(lines, NextIndex(lines, i, kind))
  {
    match LookAheadOf(kind) {
      case None =>
      case Some(la) => LookAheadSkipsNoHeader(lines, i + 1, la);
    }
  }

  lemma HeaderLinesAt(lines: seq<string>, i: nat, open: Option<StoryScene>)
    requires i < |lines|
    ensures HeaderLines(lines, i) == KindHead(Classify(Trim(lines[i]), open)) + HeaderLines(lines, i + 1)
  {
    var kind := Classify(Trim(lines[i]), open);
    if kind.Header? {
      assert SceneHeader(Trim(lines[i])) == Some((kind.number, kind.name));
    } else {
      assert SceneHeader(Trim(lines[i])).None?;
    }
  }

  /** The heads of the closed scenes followed by the head of the open one. */
  function AllHeads(st: ScanState): seq<(nat, string)> {
    Heads(st.story.scenes) + OpenHead(st)
  }

  /** One step keeps "closed heads + open head + heads still ahead" constant. */
  lemma StepHeads(lines: seq<string>, i: nat, st: ScanState)
    requires i < |lines|
    ensures var res := Step(lines, i, st);
      AllHeads(res.0) + HeaderLines(lines, res.1) == AllHeads(st) + HeaderLines(lines, i)
  {
    var kind := Classify(Trim(lines[i]), st.current);
    var j := NextIndex(lines, i, kind);
    var st' := Update(kind, st, lines[i + 1..j]);
    assert Step(lines, i, st) == (st', j);
    HeaderLinesAt(lines, i, st.current);
    UpdateHeads(kind, st, lines[i + 1..j]);
    NextIndexSkipsNoHeader(lines, i, kind);
    Regroup(AllHeads(st), KindHead(kind), HeaderLines(lines, j), AllHeads(st'), HeaderLines(lines, i));
  }

  lemma Regroup<T>(a: seq<T>, b: seq<T>, c: seq<T>, x: seq<T>, y: seq<T>)
    requires x == a + b && y == b + c
    ensures x + c == a + y
  {
  }

  lemma {:induction false} ScanHeads(lines: seq<string>, i: nat, st: ScanState)
    requires i <= |lines|
    ensures Heads(Scan(lines, i, st).scenes) == AllHeads(st) + HeaderLines(lines, i)
    decreases |lines| - i
  {
    if i == |lines| {
      FlushHeads(st);
    } else {
      var res := Step(lines, i, st);
      StepHeads(lines, i, st);
      ScanHeads(lines, res.1, res.0);
    }
  }

  lemma UpdateTidy(kind: LineKind, st: ScanState, consumed: seq<string>)
    requires kind.SceneOnly() ==> st.current.Some?
    requires Tidy(st)
    ensures Tidy(Update(kind, st, consumed))
  {
    match kind {
      case CharacterList =>
        var added := Bullets(consumed);
        assert forall e :: e in st.story.characters + added ==> e in st.story.characters || e in added;
      case _ =>
    }
  }

  lemma StepTidy(lines: seq<string>, i: nat, st: ScanState)
    requires i < |lines| && Tidy(st)
    ensures Tidy(Step(lines, i, st).0)
  {
    var kind := Classify(Trim(lines[i]), st.current);
    UpdateTidy(kind, st, lines[i + 1..NextIndex(lines, i, kind)]);
  }

  lemma {:induction false} ScanTidy(lines: seq<string>, i: nat, st: ScanState)
    requires i <= |lines| && Tidy(st)
    ensures var r := Scan(lines, i, st);
      && (forall k :: 0 <= k < |r.scenes| ==> r.scenes[k].characters == [])
      && (forall e :: e in r.characters ==> '-' !in e.name && '-' !in e.description)
    decreases |lines| - i
  {
    if i < |lines| {
      var res := Step(lines, i, st);
      assert Scan(lines, i, st) == Scan(lines, res.1, res.0);
      StepTidy(lines, i, st);
      ScanTidy(lines, res.1, res.0);
    }
  }

  /** Only a line starting with a field's prefix is classified as assigning that field. */
  lemma ClassifySetsField(f: TextField, t: string, open: Option<StoryScene>)
    ensures f.SetBy(Classify(t, open)) ==> StartsWith(t, f.Prefix())
  {
  }

  /** A scan over lines none of which starts with a field's prefix leaves that field as it was. */
  lemma {:induction false} ScanKeepsField(f: TextField, lines: seq<string>, i: nat, st: ScanState)
    requires i <= |lines| && NoLineWith(lines, i, f.Prefix())
    ensures f.Of(Scan(lines, i, st)) == f.Of(st.story)
    decreases |lines| - i
  {
    if i < |lines| {
      var kind := Classify(Trim(lines[i]), st.current);
      var res := Step(lines, i, st);
      ClassifySetsField(f, Trim(lines[i]), st.current);
      StepByKind(lines, i, st, kind);
      assert f.Of(res.0.story) == f.Of(st.story);
      ScanKeepsField(f, lines, res.1, res.0);
    }
  }

  /** A text with no line for a field leaves that field empty. */
  lemma FieldWithoutLine(f: TextField, lines: seq<string>)
    ensures NoLineWith(lines, 0, f.Prefix()) ==> f.Of(Scan(lines, 0, InitialState)) == ""
  {
    if NoLineWith(lines, 0, f.Prefix()) {
      ScanKeepsField(f, lines, 0, InitialState);
    }
  }
}

=== FILE: story_route.dfy ===
/**
 The story route of `app/api/story/route.ts`: the order in which a request is checked (prompt,
 then the rate limiter), the two generators tried in turn (Groq, then Hugging Face) with their
 error translations and the marker wrapping of the text they return, the length table, and the
 mapping of the final error message to an HTTP status. The upstream services, the clock and the
 environment are parameters.
 */
module StoryRoute {
  import opened Wrappers
  import opened Json
  import opened JsText
  import opened Keywords
  import RateLimit

  // ---------------------------------------------------------------------------
  // Story markers
  // ---------------------------------------------------------------------------

  const StartMarker := "=== STORY START ==="
  const EndMarker := "=== STORY END ==="

  predicate HasMarkers(s: string) {
    Contains(s, StartMarker) && Contains(s, EndMarker)
  }

  /**
   The format guard of both generators: a text that lacks either marker is returned between a
   start line and an end line; a text with both is returned as it is.
   */
  function WrapMarkers(story: string): (r: string)
    ensures HasMarkers(r)
    ensures HasMarkers(story) ==> r == story
    ensures !HasMarkers(story) ==> r == StartMarker + "\n" + story + "\n" + EndMarker
  {
    if HasMarkers(story) then story
    else
      var r := StartMarker + "\n" + story + "\n" + EndMarker;
      WrappedHasMarkers(story);
      r
  }

  lemma WrappedHasMarkers(story: string)
    ensures HasMarkers(StartMarker + "\n" + story + "\n" + EndMarker)
  {
    var rest := "\n" + story + "\n";
    assert StartMarker + "\n" + story + "\n" + EndMarker == "" + StartMarker + (rest + EndMarker);
    ContainsMiddle("", StartMarker, rest + EndMarker);
    assert StartMarker + "\n" + story + "\n" + EndMarker == (StartMarker + rest) + EndMarker + "";
    ContainsMiddle(StartMarker + rest, EndMarker, "");
  }

  /** Wrapping twice is wrapping once. */
  lemma WrapIdempotent(story: string)
    ensures WrapMarkers(WrapMarkers(story)) == WrapMarkers(story)
  {
  }

  /** The wrapped text keeps the story: it occurs in the result. */
  lemma WrapKeepsStory(story: string)
    ensures Contains(WrapMarkers(story), story)
  {
    if !HasMarkers(story) {
      assert WrapMarkers(story) == (StartMarker + "\n") + story + ("\n" + EndMarker);
      ContainsMiddle(StartMarker + "\n", story, "\n" + EndMarker);
    } else {
      ContainsMiddle("", story, "");
      assert "" + story + "" == story;
    }
  }

  // ---------------------------------------------------------------------------
  // Length table and prompt template
  // ---------------------------------------------------------------------------

  /** A row of `lengthConfig`: the token budget and the number of scenes asked for. */
  datatype LengthConfig = LengthConfig(maxTokens: nat, sceneCount: nat)

  /** The rows of `lengthConfig` by property name (the Groq and the Hugging Face tables agree). */
  function LengthRow(key: string): (c: Option<LengthConfig>)
    ensures c.Some? <==> key in {"short", "medium", "long"}
    ensures c.Some? ==> 3 <= c.value.sceneCount <= 5 && 800 <= c.value.maxTokens <= 2000
  {
    if key == "short" then Some(LengthConfig(800, 3))
    else if key == "medium" then Some(LengthConfig(1200, 4))
    else if key == "long" then Some(LengthConfig(2000, 5))
    else None
  }

  /**
   `lengthConfig[length]`: the value is turned into a property name with `String`, so a string
   names itself and an array names its elements joined by commas (`["short"]` finds the short
   row); any other name gives `undefined`.
   */
  function LengthConfigFor(length: JsonValue): (c: Option<LengthConfig>)
    ensures c == LengthRow(AsString(length))
    ensures length == JString("short") ==> c == Some(LengthConfig(800, 3))
    ensures length == JString("medium") ==> c == Some(LengthConfig(1200, 4))
    ensures length == JString("long") ==> c == Some(LengthConfig(2000, 5))
    ensures length.JNull? || length.JNumber? || length.JBool? || length.JObject? ==> c.None?
  {
    var key := AsString(length);
    assert length.JNumber? ==> key[0] == '-' || IsAsciiDigit(key[0]);
    LengthRow(key)
  }

  /** An array holding one row name finds that row, as the property-name conversion joins it. */
  lemma ArrayLengthKey(row: string)
    ensures LengthConfigFor(JArray([JString(row)])) == LengthRow(row)
  {
    assert ItemStrings(JArray([JString(row)]), 0) == [row];
  }

  /** A longer story asks for more scenes and more tokens. */
  lemma LengthOrdered()
    ensures var s := LengthConfigFor(JString("short")).value;
      var m := LengthConfigFor(JString("medium")).value;
      var l := LengthConfigFor(JString("long")).value;
      && s.sceneCount < m.sceneCount < l.sceneCount
      && s.maxTokens < m.maxTokens < l.maxTokens
  {
  }

  /** The heading of the `i`-th scene in the template. */
  function SceneHeader(i: nat): string {
    "SCENE " + NatToString(i) + ": [Scene title]\n"
  }

  /** One scene of the template; `dialogue` is the generator's DIALOGUE line. */
  function SceneBlock(i: nat, dialogue: string): string {
    SceneHeader(i)
      + "LOCATION: [Vivid location description]\nCHARACTERS: [Character names present]\n"
      + "ACTION: [What happens in this scene]\n" + dialogue + "\n\n"
  }

  /** `Array.from({ length: n }, (_, i) => block(i + 1)).join('')`: the blocks `1..n`, in order. */
  function Blocks(n: nat, block: nat -> string): string {
    if n == 0 then "" else Blocks(n - 1, block) + block(n)
  }

  /** The blocks from `i + 1` to `n`. */
  function BlocksFrom(i: nat, n: nat, block: nat -> string): string
    requires i <= n
    decreases n - i
  {
    if i == n then "" else block(i + 1) + BlocksFrom(i + 1, n, block)
  }

  /** The first `i` blocks followed by the rest make up all `n`. */
  lemma {:induction false} BlocksSplit(n: nat, i: nat, block: nat -> string)
    requires i <= n
    ensures Blocks(n, block) == Blocks(i, block) + BlocksFrom(i, n, block)
    decreases n - i
  {
    if i < n {
      BlocksSplit(n, i + 1, block);
      assert Blocks(i + 1, block) == Blocks(i, block) + block(i + 1);
      assert Blocks(i, block) + block(i + 1) + BlocksFrom(i + 1, n, block)
        == Blocks(i, block) + (block(i + 1) + BlocksFrom(i + 1, n, block));
    }
  }

  /** The block maker of a generator's template. */
  function SceneBlocks(dialogue: string): nat -> string {
    (i: nat) => SceneBlock(i, dialogue)
  }

  /** The scene section of a prompt asking for `n` scenes. */
  function SceneSection(n: nat, dialogue: string): string {
    Blocks(n, SceneBlocks(dialogue))
  }

  /** The DIALOGUE line of the Groq prompt. */
  const GroqDialogue :=
    "DIALOGUE: [\"Character name says: 'Actual spoken dialogue here'\", \"Another character says: 'More dialogue here'\"]"

  /** The DIALOGUE line of the Hugging Face prompt. */
  const HuggingFaceDialogue := "DIALOGUE: [\"Character dialogue in quotes\"]"

  /** A text that begins block `i` of `n` occurs in the joined blocks. */
  lemma BlockStartInBlocks(n: nat, i: nat, block: nat -> string, header: string)
    requires 1 <= i <= n && StartsWith(block(i), header)
    ensures Contains(Blocks(n, block), header)
  {
    BlocksSplit(n, i, block);
    StartsWithPrefix(block(i), header);
    var tail := block(i)[|header|..] + BlocksFrom(i, n, block);
    assert block(i) == header + block(i)[|header|..];
    assert Blocks(n, block) == Blocks(i - 1, block) + header + tail;
    ContainsMiddle(Blocks(i - 1, block), header, tail);
  }

  /** Every scene `1..n` has its heading in the template asked for with `n` scenes. */
  lemma SceneHeadersPresent(n: nat, i: nat, dialogue: string)
    requires 1 <= i <= n
    ensures Contains(SceneSection(n, dialogue), SceneHeader(i))
  {
    var b := SceneBlock(i, dialogue);
    assert b == SceneHeader(i) + b[|SceneHeader(i)|..];
    StartsWithPrefix(b, SceneHeader(i));
    BlockStartInBlocks(n, i, SceneBlocks(dialogue), SceneHeader(i));
  }

  // ---------------------------------------------------------------------------
  // Errors
  // ---------------------------------------------------------------------------

  /** What a generator step produced: the story, or the message of the error it threw. */
  datatype Attempt = Story(text: string) | Thrown(message: string)

  /** An error body in Groq's format (`error.error`). */
  datatype ErrorBody = ErrorBody(message: string, code: string)

  /**
   An error raised by the Groq SDK: `status` is `error.status || error.statusCode` (0 when neither
   is set), `message` is `error.message` (`None` when absent), `body` is `error.error`.
   */
  datatype GroqError = GroqError(status: int, message: Option<string>, body: Option<ErrorBody>)

  /** `${error.message}` in a template literal: an absent message prints as `undefined`. */
  function MessageText(m: Option<string>): string {
    m.GetOr("undefined")
  }

  const InvalidKeyMessage := "Invalid API key - check your GROQ_API_KEY"
  const GroqRateMessage := "Rate limit exceeded - free tier has limits"
  const UnavailableMessage := "Service temporarily unavailable - try again soon"
  const ModelGoneMessage := "Model not available - the model has been decommissioned. Please update the model name in the code."
  const DecommissionedMessage := "Model has been decommissioned. Please update to a current model."

  /** The message tests of the Groq `catch`, in order. */
  const GroqMessageRules: seq<Rule<string>> := [
    Rule(["API key", "authentication"], InvalidKeyMessage),
    Rule(["rate limit", "quota"], GroqRateMessage),
    Rule(["decommissioned", "model", "not found"], ModelGoneMessage)
  ]

  /** The error has a non-empty message that one of the message tests finds. */
  predicate MessageMatches(e: GroqError) {
    e.message.Some? && e.message.value != "" && FirstIndex(GroqMessageRules, e.message.value) < |GroqMessageRules|
  }

  /** The error body (`error.error`) has a message and says the model is decommissioned. */
  predicate BodyDecommissioned(e: GroqError) {
    e.body.Some? && e.body.value.message != ""
      && (Contains(e.body.value.message, "decommissioned") || e.body.value.code == "model_decommissioned")
  }

  /**
   The `catch` of `generateStoryWithGroq`: the message of the error it throws. A status decides
   first (401, 429, 503 and any other); then the message is tested against the rules above; then
   the error body; otherwise the error is rethrown as it is.
   */
  function GroqCatch(e: GroqError): (m: string)
    ensures e.status == 401 ==> m == InvalidKeyMessage
    ensures e.status == 429 ==> m == GroqRateMessage
    ensures e.status == 503 ==> m == UnavailableMessage
    ensures e.status !in {0, 401, 429, 503} ==>
      m == "API error: " + IntToString(e.status) + " - "
        + (if e.message.Some? && e.message.value != "" then e.message.value else "Unknown error")
    ensures e.status == 0 && MessageMatches(e)
      ==> m == GroqMessageRules[FirstIndex(GroqMessageRules, e.message.value)].value
    ensures e.status == 0 && !MessageMatches(e) && BodyDecommissioned(e) ==> m == DecommissionedMessage
    ensures e.status == 0 && !MessageMatches(e) && !BodyDecommissioned(e) ==> m == MessageText(e.message)
  {
    if e.status != 0 then
      if e.status == 401 then InvalidKeyMessage
      else if e.status == 429 then GroqRateMessage
      else if e.status == 503 then UnavailableMessage
      else
        var detail := if e.message.Some? && e.message.value != "" then e.message.value else "Unknown error";
        "API error: " + IntToString(e.status) + " - " + detail
    else if e.message.Some? && e.message.value != "" && FirstChoice(GroqMessageRules, e.message.value).Some? then
      FirstChoice(GroqMessageRules, e.message.value).value
    else if e.body.Some? && e.body.value.message != ""
      && (Contains(e.body.value.message, "decommissioned") || e.body.value.code == "model_decommissioned") then
      DecommissionedMessage
    else MessageText(e.message)
  }

  /** Any message mentioning `model` is reported as a decommissioned model. */
  lemma GroqModelWordMeansDecommissioned(m: string)
    requires Contains(m, "model")
    requires !Contains(m, "API key") && !Contains(m, "authentication")
    requires !Contains(m, "rate limit") && !Contains(m, "quota")
    ensures GroqCatch(GroqError(0, Some(m), None)) == ModelGoneMessage
  {
    assert m != "" by {
      if m == "" {
        ContainsOccurs(m, "model");
      }
    }
    FiresTwo("API key", "authentication", InvalidKeyMessage, m);
    FiresTwo("rate limit", "quota", GroqRateMessage, m);
    FiresThree("decommissioned", "model", "not found", ModelGoneMessage, m);
    FirstIndexAt(GroqMessageRules, m, 2);
  }

  /** A rule with three keywords fires exactly when the text contains one of them. */
  lemma FiresThree<T>(w1: string, w2: string, w3: string, v: T, text: string)
    ensures Fires(Rule([w1, w2, w3], v), text) <==> Contains(text, w1) || Contains(text, w2) || Contains(text, w3)
  {
    assert [w1, w2, w3][1..] == [w2, w3];
    FiresTwo(w2, w3, v, text);
  }

  /** The final classification of `POST`: a status and a user-facing error. */
  datatype Failure = Failure(status: nat, error: string)

  /** The message tests of the `POST` handler's `catch`, in order. */
  const FailureRules: seq<Rule<Failure>> := [
    Rule(["GROQ_API_KEY"], Failure(400, "API key not configured")),
    Rule(["rate limit"], Failure(429, "Rate limit exceeded")),
    Rule(["quota"], Failure(500, "API quota exceeded")),
    Rule(["timeout"], Failure(500, "Request timeout")),
    Rule(["Invalid API key"], Failure(401, "Invalid API key")),
    Rule(["decommissioned", "Model has been decommissioned"], Failure(400, "Model has been decommissioned"))
  ]

  /** Status 500 and the generic error when no test matches. */
  const DefaultFailure := Failure(500, "Failed to generate story")

  /** The error classification of `POST`: the first phrase found in the message decides. */
  function Classify(message: string): (f: Failure)
    ensures var i := FirstIndex(FailureRules, message);
      && (i < |FailureRules| ==> f == FailureRules[i].value)
      && (i == |FailureRules| ==> f == DefaultFailure)
  {
    FirstChoice(FailureRules, message).GetOr(DefaultFailure)
  }

  /** Every classification is one of 400, 401, 429 and 500. */
  lemma ClassifyStatuses(message: string)
    ensures Classify(message).status in {400, 401, 429, 500}
  {
    var i := FirstIndex(FailureRules, message);
    assert forall j :: 0 <= j < |FailureRules| ==> FailureRules[j].value.status in {400, 401, 429, 500};
  }

  /** A message naming `GROQ_API_KEY` is always a 400, whatever else it says. */
  lemma ClassifyKeyFirst(message: string)
    requires Contains(message, "GROQ_API_KEY")
    ensures Classify(message) == Failure(400, "API key not configured")
  {
    FiresOne("GROQ_API_KEY", Failure(400, "API key not configured"), message);
    FirstIndexAt(FailureRules, message, 0);
  }

  /** 401 needs `Invalid API key` without any of the four phrases tested before it. */
  lemma Classify401(message: string)
    ensures Classify(message).status == 401 <==>
      && Contains(message, "Invalid API key")
      && !Contains(message, "GROQ_API_KEY") && !Contains(message, "rate limit")
      && !Contains(message, "quota") && !Contains(message, "timeout")
  {
    FiresOne("GROQ_API_KEY", Failure(400, "API key not configured"), message);
    FiresOne("rate limit", Failure(429, "Rate limit exceeded"), message);
    FiresOne("quota", Failure(500, "API quota exceeded"), message);
    FiresOne("timeout", Failure(500, "Request timeout"), message);
    FiresOne("Invalid API key", Failure(401, "Invalid API key"), message);
    var i := FirstIndex(FailureRules, message);
    if Contains(message, "Invalid API key")
      && !Contains(message, "GROQ_API_KEY") && !Contains(message, "rate limit")
      && !Contains(message, "quota") && !Contains(message, "timeout")
    {
      FirstIndexAt(FailureRules, message, 4);
    } else {
      assert FailureRules[0] == Rule(["GROQ_API_KEY"], Failure(400, "API key not configured"));
      assert FailureRules[1] == Rule(["rate limit"], Failure(429, "Rate limit exceeded"));
      assert FailureRules[2] == Rule(["quota"], Failure(500, "API quota exceeded"));
      assert FailureRules[3] == Rule(["timeout"], Failure(500, "Request timeout"));
      assert FailureRules[4] == Rule(["Invalid API key"], Failure(401, "Invalid API key"));
      assert i != 4;
      assert forall j :: 0 <= j < |FailureRules| && j != 4 ==> FailureRules[j].value.status != 401;
    }
  }

  // ---------------------------------------------------------------------------
  // The two generators
  // ---------------------------------------------------------------------------

  /** What the Groq chat call gave: the first choice's content (`None` when absent), or an error. */
  datatype GroqOutcome = GroqReplied(content: Option<string>) | GroqFailed(error: GroqError)

  const GroqKeyMissing := "GROQ_API_KEY is not configured"
  const GroqEmptyMessage := "No story generated - empty response from AI"

  /** The message of reading `sceneCount` from an `undefined` row of the length table. */
  const NoLengthConfig := "Cannot read properties of undefined (reading 'sceneCount')"

  /**
   `generateStoryWithGroq`: a missing key and an unknown length throw before the request (and
   bypass its `catch`); an empty reply is thrown inside the `try` and so goes through the `catch`;
   a reply is wrapped in the markers.
   */
  function GroqStory(hasKey: bool, config: Option<LengthConfig>, outcome: GroqOutcome): (a: Attempt)
    ensures !hasKey ==> a == Thrown(GroqKeyMissing)
    ensures a.Story? ==> HasMarkers(a.text)
    ensures a.Story? <==>
      && hasKey && config.Some? && outcome.GroqReplied?
      && outcome.content.Some? && outcome.content.value != ""
  {
    if !hasKey then Thrown(GroqKeyMissing)
    else if config.None? then Thrown(NoLengthConfig)
    else match outcome
      case GroqReplied(content) =>
        if content.None? || content.value == "" then Thrown(GroqCatch(GroqError(0, Some(GroqEmptyMessage), None)))
        else Story(WrapMarkers(content.value))
      case GroqFailed(e) => Thrown(GroqCatch(e))
  }

  /**
   What the Hugging Face request gave: a non-OK status with its body text, a decoded reply (the
   story it carries, `None` when the reply has none of the accepted shapes), or a thrown message.
   */
  datatype HfOutcome = HfRejected(status: int, body: string) | HfData(story: Option<string>) | HfFailed(message: string)

  const HfTokenMissing := "HUGGINGFACE_API_TOKEN is not configured"
  const HfUnexpected := "Unexpected response format from Hugging Face"
  const HfEmpty := "No story generated - empty response from Hugging Face"
  const HfInvalidToken := "Invalid API token - check your HUGGINGFACE_API_TOKEN"
  const HfLoading := "Model is loading, please wait a moment and try again"

  /** The `catch` of `generateStoryWithHuggingFace`: two messages are replaced, others rethrown. */
  function HfCatch(m: string): (r: string)
    ensures Contains(m, "HUGGINGFACE_API_TOKEN") ==> r == HfInvalidToken
    ensures !Contains(m, "HUGGINGFACE_API_TOKEN") && Contains(m, "model is currently loading") ==> r == HfLoading
    ensures !Contains(m, "HUGGINGFACE_API_TOKEN") && !Contains(m, "model is currently loading") ==> r == m
  {
    if Contains(m, "HUGGINGFACE_API_TOKEN") then HfInvalidToken
    else if Contains(m, "model is currently loading") then HfLoading
    else m
  }

  /** The attempt inside the `try` of `generateStoryWithHuggingFace`, before its `catch`. */
  function HfTry(outcome: HfOutcome): (a: Attempt)
    ensures a.Story? <==> outcome.HfData? && outcome.story.Some? && Trim(outcome.story.value) != ""
    ensures a.Story? ==> HasMarkers(a.text) && Contains(a.text, outcome.story.value)
    ensures outcome.HfFailed? ==> a == Thrown(outcome.message)
  {
    match outcome
    case HfRejected(status, body) => Thrown("Hugging Face API error: " + IntToString(status) + " - " + body)
    case HfData(story) =>
      if story.None? then Thrown(HfUnexpected)
      else if Trim(story.value) == "" then Thrown(HfEmpty)
      else WrapKeepsStory(story.value); Story(WrapMarkers(story.value))
    case HfFailed(message) => Thrown(message)
  }

  /**
   `generateStoryWithHuggingFace`: a missing token and an unknown length throw before the request;
   a blank story is an error; a story is wrapped in the markers.
   */
  function HfStory(hasToken: bool, config: Option<LengthConfig>, outcome: HfOutcome): (a: Attempt)
    ensures !hasToken ==> a == Thrown(HfTokenMissing)
    ensures a.Story? ==> HasMarkers(a.text)
    ensures a.Story? <==>
      && hasToken && config.Some? && outcome.HfData?
      && outcome.story.Some? && Trim(outcome.story.value) != ""
  {
    if !hasToken then Thrown(HfTokenMissing)
    else if config.None? then Thrown(NoLengthConfig)
    else match HfTry(outcome)
      case Story(s) => Story(s)
      case Thrown(m) => Thrown(HfCatch(m))
  }

  // ---------------------------------------------------------------------------
  // POST
  // ---------------------------------------------------------------------------

  /** The environment and the upstream services as seen by one request. */
  datatype Upstream = Upstream(groqKey: bool, groq: GroqOutcome, hfToken: bool, hf: HfOutcome)

  /** The JSON reply: a story with the model that wrote it and its length, or an error. */
  datatype Response =
    | Generated(story: string, model: string, length: nat)
    | Error(status: nat, error: string, details: Option<string>, message: Option<string>)

  const GroqModel := "llama-3.1-8b-instant"
  const HfModel := "gpt2"

  /** The `message` of the 429 reply, naming the limiter's budget. */
  const RetryMessage := "Please try again in a minute. Free tier allows " + NatToString(RateLimit.MaxRequests) + " requests per minute."

  /** The budget the 429 message names is thirty requests. */
  lemma RetryMessageText()
    ensures RetryMessage == "Please try again in a minute. Free tier allows 30 requests per minute."
  {
    assert NatToString(30) == "30";
  }

  /** The message `prompt?.trim()` throws for a prompt that is neither a string nor nullish. */
  const TrimNotAFunction := "prompt?.trim is not a function"

  /** The reply of the outer `catch` for an error message. */
  function Failed(message: string): Response {
    var f := Classify(message);
    Error(f.status, f.error, Some(message), None)
  }

  /** The prompt check: `Some(response)` when the request stops here. */
  function PromptCheck(prompt: JsonValue): (r: Option<Response>)
    ensures prompt.JString? ==> (r.Some? <==> Trim(prompt.s) == "")
    ensures prompt.JNull? ==> r.Some?
    ensures r.Some? && (prompt.JNull? || prompt.JString?) ==> r.value == Error(400, "Story prompt is required", None, None)
  {
    match prompt
    case JNull => Some(Error(400, "Story prompt is required", None, None))
    case JString(s) => if Trim(s) == "" then Some(Error(400, "Story prompt is required", None, None)) else None
    case _ => Some(Failed(TrimNotAFunction))
  }

  /** The two generators in turn, and the combined message when both fail. */
  function Generate(config: Option<LengthConfig>, up: Upstream): (r: Response)
    ensures r.Generated? ==> HasMarkers(r.story) && r.length == Utf16Length(r.story)
  {
    match GroqStory(up.groqKey, config, up.groq)
    case Story(s) => Generated(s, GroqModel, Utf16Length(s))
    case Thrown(g) =>
      match HfStory(up.hfToken, config, up.hf)
      case Story(s) => Generated(s, HfModel, Utf16Length(s))
      case Thrown(h) => Failed(Combined(g, h))
  }

  /** The message thrown when both generators fail. */
  function Combined(g: string, h: string): (r: string)
    ensures Contains(r, g) && Contains(r, h)
  {
    var lead := "Story generation failed. Groq error: ";
    var mid := ". Hugging Face error: ";
    var r := lead + g + mid + h;
    ContainsMiddle(lead, g, mid + h);
    assert lead + g + (mid + h) == r;
    ContainsMiddle(lead + g + mid, h, "");
    assert lead + g + mid + h + "" == r;
    r
  }

  /** Both generators failing gives the classification of the combined message. */
  lemma BothFail(config: Option<LengthConfig>, up: Upstream)
    requires GroqStory(up.groqKey, config, up.groq).Thrown?
    requires HfStory(up.hfToken, config, up.hf).Thrown?
    ensures Generate(config, up) == Failed(Combined(
      GroqStory(up.groqKey, config, up.groq).message, HfStory(up.hfToken, config, up.hf).message))
  {
  }

  /** A Groq message naming `GROQ_API_KEY` makes the combined message a 400, whatever Hugging Face said. */
  lemma CombinedKeyIs400(g: string, h: string)
    requires Contains(g, "GROQ_API_KEY")
    ensures Classify(Combined(g, h)) == Failure(400, "API key not configured")
  {
    var m := Combined(g, h);
    assert m == "Story generation failed. Groq error: " + g + (". Hugging Face error: " + h);
    ContainsMiddle("Story generation failed. Groq error: ", g, ". Hugging Face error: " + h);
    ContainsTransitive(m, g, "GROQ_API_KEY");
    ClassifyKeyFirst(m);
  }

  /**
   `POST` for a client address at time `now` with limiter state `t`: the prompt is checked first,
   then the rate limit, then the generators run. The limiter state after the request is returned.
   */
  function Post(body: RequestBody, ip: string, now: int, t: RateLimit.Tracker, up: Upstream): (r: (Response, RateLimit.Tracker))
    ensures body.Unreadable? ==> r.1 == t
    ensures r.0.Generated? ==> HasMarkers(r.0.story)
    ensures body.Object? && !Field(body.fields, "prompt").JNull? && !Field(body.fields, "prompt").JString?
      ==> r == (Failed(TrimNotAFunction), t)
    ensures PromptAccepted(body) ==> r.1 == RateLimit.Check(t, ip, now).tracker
    ensures PromptAccepted(body) && RateLimit.Check(t, ip, now).allowed ==>
      r.0 == Generate(LengthConfigFor(LengthField(body.fields)), up)
  {
    match body
    case Unreadable(m) => (Failed(m), t)
    case Object(fields) =>
      var prompt := Field(fields, "prompt");
      match PromptCheck(prompt)
      case Some(stop) => (stop, t)
      case None =>
        var o := RateLimit.Check(t, ip, now);
        if !o.allowed then
          (Error(429, "Rate limit exceeded", None, Some(RetryMessage)), o.tracker)
        else
          (Generate(LengthConfigFor(LengthField(fields)), up), o.tracker)
  }

  /** The body is an object whose prompt is a string that does not trim to nothing. */
  predicate PromptAccepted(body: RequestBody) {
    body.Object? && Field(body.fields, "prompt").JString? && Trim(Field(body.fields, "prompt").s) != ""
  }

  /** `length = 'medium'` in the destructuring: the default applies only when the field is absent. */
  function LengthField(fields: map<string, JsonValue>): (v: JsonValue)
    ensures "length" !in fields ==> v == JString("medium")
    ensures "length" in fields ==> v == fields["length"]
  {
    if "length" in fields then fields["length"] else JString("medium")
  }

  // ---------------------------------------------------------------------------
  // Properties of POST
  // ---------------------------------------------------------------------------

  /** A missing or blank prompt is refused with 400 before the limiter runs: no quota is used. */
  lemma BlankPromptUsesNoQuota(fields: map<string, JsonValue>, ip: string, now: int, t: RateLimit.Tracker, up: Upstream)
    requires Field(fields, "prompt").JNull? || (Field(fields, "prompt").JString? && Trim(Field(fields, "prompt").s) == "")
    ensures Post(Object(fields), ip, now, t, up) == (Error(400, "Story prompt is required", None, None), t)
  {
  }

  /** A request the limiter refuses gets 429 whatever the upstream services would do. */
  lemma LimitedRequestIs429(fields: map<string, JsonValue>, ip: string, now: int, t: RateLimit.Tracker, up: Upstream)
    requires Field(fields, "prompt").JString? && Trim(Field(fields, "prompt").s) != ""
    requires RateLimit.InWindow(t, ip, now) && t[ip].count >= RateLimit.MaxRequests
    ensures Post(Object(fields), ip, now, t, up) == (Error(429, "Rate limit exceeded", None, Some(RetryMessage)), t)
  {
  }

  /** A Groq reply is used as it comes (wrapped if need be); Hugging Face is then not consulted. */
  lemma GroqWins(config: LengthConfig, content: string, up: Upstream)
    requires up.groqKey && up.groq == GroqReplied(Some(content)) && content != ""
    ensures Generate(Some(config), up) == Generated(WrapMarkers(content), GroqModel, Utf16Length(WrapMarkers(content)))
  {
  }

  /**
   Without a Groq key, and with Hugging Face failing too, the reply is the 400 `API key not
   configured`: the combined message names `GROQ_API_KEY`.
   */
  lemma MissingGroqKeyIs400(config: Option<LengthConfig>, up: Upstream)
    requires !up.groqKey && HfStory(up.hfToken, config, up.hf).Thrown?
    ensures Generate(config, up).Error? && Generate(config, up).status == 400
  {
    BothFail(config, up);
    KeyNamedIn(GroqKeyMissing, "GROQ_API_KEY", 0);
    CombinedKeyIs400(GroqKeyMissing, HfStory(up.hfToken, config, up.hf).message);
  }

  /**
   A Groq 401 is reported as 400 `API key not configured`, not 401: the message it is turned into
   names `GROQ_API_KEY`, which the classification tests first.
   */
  lemma GroqUnauthorizedIs400(config: LengthConfig, e: GroqError, up: Upstream)
    requires up.groqKey && up.groq == GroqFailed(e) && e.status == 401
    requires HfStory(up.hfToken, Some(config), up.hf).Thrown?
    ensures Generate(Some(config), up).Error? && Generate(Some(config), up).status == 400
  {
    assert GroqStory(up.groqKey, Some(config), up.groq) == Thrown(InvalidKeyMessage);
    BothFail(Some(config), up);
    InvalidKeyNamesKey();
    CombinedKeyIs400(InvalidKeyMessage, HfStory(up.hfToken, Some(config), up.hf).message);
  }

  /** The message a Groq 401 is turned into names `GROQ_API_KEY`. */
  lemma InvalidKeyNamesKey()
    ensures Contains(InvalidKeyMessage, "GROQ_API_KEY")
  {
    KeyNamedIn(InvalidKeyMessage, "GROQ_API_KEY", 29);
  }

  /** A literal occurrence: `t` stands at index `i` of `s`. */
  lemma KeyNamedIn(s: string, t: string, i: nat)
    requires i + |t| <= |s| && s[i..i + |t|] == t
    ensures Contains(s, t)
  {
    ContainsOccurs(s, t);
    assert OccursAt(s, t, i);
  }
}

=== FILE: video_plan.dfy ===
/**
 The decision logic of browser-side video assembly (utils/videoGenerator.ts): the duration of each
 scene, the names of the files handed to FFmpeg, the two concat scripts, the choice of command, the
 files removed afterwards, how many frames the canvas pass yields, and the three-level fallback chain
 (full video, then a five-second title card, then a static clip).

 FFmpeg, the canvas, the `Audio` element and the network are not modelled: what they produce is an
 input (`Env`). JavaScript's conversion of a duration to text (`${duration}`) is the parameter `show`.
 */
module VideoPlan {
  import opened Wrappers
  import opened JsText

  // ---------------------------------------------------------------------------
  // Scenes and their durations
  // ---------------------------------------------------------------------------

  /**
   The fields of a stored scene (`Scene` in lib/type.ts) that video assembly reads. An absent
   `audio_url` is the empty string: both are falsy, and the source only tests truthiness.
   */
  datatype Scene = Scene(sceneNumber: int, duration: real, audioUrl: string)

  /** One entry of `processScenesData`'s result; `hasAudio` also tells whether an audio buffer is held. */
  datatype SceneData = SceneData(duration: real, hasAudio: bool)

  /** `Math.ceil` on a real number. */
  function Ceil(x: real): (c: int)
    ensures x <= c as real < x + 1.0
  {
    -((-x).Floor)
  }

  /** `scene.duration || 5`: a zero duration falls back to five seconds. */
  function BaseDuration(d: real): (b: real)
    ensures b != 0.0
    ensures d != 0.0 ==> b == d
  {
    if d == 0.0 then 5.0 else d
  }

  /**
   The duration of one scene. `audio` is what extracting the scene's audio gave: `None` for `null`
   or a thrown error, `Some(a)` for a buffer whose probed length is `a` seconds. Audio is only
   extracted when the scene has an audio URL.
   */
  function ProcessScene(scene: Scene, audio: Option<real>): (r: SceneData)
    ensures r.hasAudio <==> scene.audioUrl != "" && audio.Some?
    ensures r.duration >= 1.0
    ensures r.duration >= BaseDuration(scene.duration)
    ensures r.hasAudio ==> r.duration >= audio.value
    ensures
      || r.duration == BaseDuration(scene.duration)
      || (r.hasAudio && r.duration == Ceil(audio.value) as real)
      || r.duration == 1.0
  {
    var base := BaseDuration(scene.duration);
    var heard := scene.audioUrl != "" && audio.Some?;
    var longer := if heard && audio.value > base then Ceil(audio.value) as real else base;
    SceneData(if longer < 1.0 then 1.0 else longer, heard)
  }

  /** A scene whose own duration is at least one second and whose audio is no longer keeps its duration. */
  lemma KeepsSceneDuration(scene: Scene, audio: Option<real>)
    requires scene.duration >= 1.0
    requires audio.None? || scene.audioUrl == "" || audio.value <= scene.duration
    ensures ProcessScene(scene, audio).duration == scene.duration
  {
  }

  /** Audio longer than the scene stretches it to the audio's length rounded up to whole seconds. */
  lemma LongerAudioRoundsUp(scene: Scene, a: real)
    requires scene.audioUrl != ""
    requires a > BaseDuration(scene.duration) && a >= 1.0
    ensures ProcessScene(scene, Some(a)).duration == Ceil(a) as real
    ensures ProcessScene(scene, Some(a)).duration < a + 1.0
  {
  }

  /** `processScenesData`: one entry per scene, in order. */
  function ProcessScenes(scenes: seq<Scene>, audio: seq<Option<real>>): (data: seq<SceneData>)
    requires |audio| == |scenes|
    ensures |data| == |scenes|
    ensures forall i :: 0 <= i < |scenes| ==> data[i] == ProcessScene(scenes[i], audio[i])
    ensures forall i :: 0 <= i < |scenes| ==> (data[i].hasAudio <==> scenes[i].audioUrl != "" && audio[i].Some?)
  {
    if |scenes| == 0 then []
    else
      var n := |scenes| - 1;
      ProcessScenes(scenes[..n], audio[..n]) + [ProcessScene(scenes[n], audio[n])]
  }

  /** `sceneData.some(scene => scene.hasAudio)` */
  predicate AnyAudio(data: seq<SceneData>) {
    exists i :: 0 <= i < |data| && data[i].hasAudio
  }

  // ---------------------------------------------------------------------------
  // File names
  // ---------------------------------------------------------------------------

  /** The four-digit (or longer) index inside a frame file name: `i.toString().padStart(4, '0')`. */
  function FrameDigits(i: nat): string {
    PadStart(NatToString(i), 4, '0')
  }

  /** The padded index is all digits, reads back as `i`, and has four digits below ten thousand. */
  lemma FrameDigitsValue(i: nat)
    ensures AllDigits(FrameDigits(i)) && DecimalValue(FrameDigits(i)) == i
    ensures |FrameDigits(i)| >= 4
    ensures i < 10000 ==> |FrameDigits(i)| == 4
  {
    DecimalRoundTrip(i);
    PadZeros(NatToString(i), 4);
    SmallHasFewDigits(i);
  }

  lemma {:induction false} SmallHasFewDigits(i: nat)
    ensures i < 10 ==> |NatToString(i)| == 1
    ensures i < 100 ==> |NatToString(i)| <= 2
    ensures i < 1000 ==> |NatToString(i)| <= 3
    ensures i < 10000 ==> |NatToString(i)| <= 4
  {
    if i >= 10 {
      SmallHasFewDigits(i / 10);
    }
  }

  /** The name under which frame `i` is written, listed in frames.txt and deleted. */
  function FrameName(i: nat): string {
    "frame" + FrameDigits(i) + ".png"
  }

  /** The name under which scene `i`'s audio buffer is written and listed. */
  function AudioName(i: nat): string {
    "audio" + NatToString(i) + ".wav"
  }

  /** Distinct frames never share a file name. */
  lemma FrameNameInjective(i: nat, j: nat)
    requires FrameName(i) == FrameName(j)
    ensures i == j
  {
    FrameDigitsValue(i);
    FrameDigitsValue(j);
    var a, b := FrameName(i), FrameName(j);
    assert a[5..|a| - 4] == FrameDigits(i);
    assert b[5..|b| - 4] == FrameDigits(j);
  }

  /** Distinct scenes never share an audio file name. */
  lemma AudioNameInjective(i: nat, j: nat)
    requires AudioName(i) == AudioName(j)
    ensures i == j
  {
    var a, b := AudioName(i), AudioName(j);
    assert a[5..|a| - 4] == NatToString(i);
    assert b[5..|b| - 4] == NatToString(j);
    DecimalRoundTrip(i);
    DecimalRoundTrip(j);
  }

  /** The first ten thousand frames have thirteen-character names. */
  lemma FrameNameLength(i: nat)
    requires i < 10000
    ensures |FrameName(i)| == 13
  {
    FrameDigitsValue(i);
  }

  /** Frame names, audio names and the fixed file names never collide. */
  lemma NamesDisjoint(i: nat, j: nat)
    ensures FrameName(i) != AudioName(j)
    ensures FrameName(i) !in {"frames.txt", "audio_concat.txt", "output.mp4"}
    ensures AudioName(j) !in {"frames.txt", "audio_concat.txt", "output.mp4"}
  {
    FrameDigitsValue(i);
    var f, a := FrameName(i), AudioName(j);
    assert f[0] == 'f' && a[0] == 'a';
    assert f[5] == FrameDigits(i)[0] && IsAsciiDigit(f[5]);
    assert a[5] == NatToString(j)[0] && IsAsciiDigit(a[5]);
    assert "frames.txt"[5] == 's' && "audio_concat.txt"[5] == '_';
  }

  // ---------------------------------------------------------------------------
  // Concat scripts
  // ---------------------------------------------------------------------------

  /** Lines joined with a newline after each one, as the scripts are built with `+= ...\n`. */
  function Unlines(lines: seq<string>): string {
    if |lines| == 0 then "" else lines[0] + "\n" + Unlines(lines[1..])
  }

  lemma {:induction false} UnlinesSnoc(lines: seq<string>, l: string)
    ensures Unlines(lines + [l]) == Unlines(lines) + l + "\n"
  {
    if |lines| > 0 {
      assert (lines + [l])[1..] == lines[1..] + [l];
      UnlinesSnoc(lines[1..], l);
    } else {
      assert lines + [l] == [l];
    }
  }

  /** A script of newline-free lines splits back into exactly those lines, then an empty tail. */
  lemma {:induction false} UnlinesSplit(lines: seq<string>)
    requires forall k :: 0 <= k < |lines| ==> '\n' !in lines[k]
    ensures Split(Unlines(lines), '\n') == lines + [""]
  {
    if |lines| > 0 {
      var rest := "\n" + Unlines(lines[1..]);
      assert Unlines(lines) == lines[0] + rest;
      SplitFirst(lines[0], rest, '\n');
      assert rest[1..] == Unlines(lines[1..]);
      UnlinesSplit(lines[1..]);
      assert lines == [lines[0]] + lines[1..];
    }
  }

  /** The two lines frames.txt holds for frame `i`. */
  function FrameEntry(i: nat, d: real, show: real -> string): seq<string> {
    ["file '" + FrameName(i) + "'", "duration " + show(d)]
  }

  /**
   The lines of frames.txt for the first `count` frames: each frame file in order, followed by the
   duration of the scene at the same index.
   */
  function FramesLines(data: seq<SceneData>, count: nat, show: real -> string): (lines: seq<string>)
    requires count <= |data|
    ensures |lines| == 2 * count
  {
    if count == 0 then []
    else FramesLines(data, count - 1, show) + FrameEntry(count - 1, data[count - 1].duration, show)
  }

  /** The source of scene `i`'s audio in audio_concat.txt: its buffer, or generated silence. */
  function AudioSource(i: nat, hasAudio: bool): string {
    "file '" + (if hasAudio then AudioName(i) else Silence) + "'"
  }

  /**
   FFmpeg's generated-silence source, listed for a scene without audio: the `anullsrc` filter with
   its two options, `anullsrc=channel_layout=stereo:sample_rate=44100`.
   */
  const Silence := "anullsrc" + "=" + "channel_layout=stereo" + ":" + "sample_rate=44100"

  lemma SilenceOneLine()
    ensures '\n' !in Silence
  {
    assert '\n' !in "anullsrc" && '\n' !in "channel_layout=stereo" && '\n' !in "sample_rate=44100";
  }

  /** The three lines audio_concat.txt holds for scene `i`. */
  function AudioEntry(i: nat, s: SceneData, show: real -> string): seq<string> {
    [AudioSource(i, s.hasAudio), "inpoint 0", "outpoint " + show(s.duration)]
  }

  /** The lines of audio_concat.txt for the first `count` scenes: one three-line block per scene. */
  function AudioLines(data: seq<SceneData>, count: nat, show: real -> string): (lines: seq<string>)
    requires count <= |data|
    ensures |lines| == 3 * count
  {
    if count == 0 then []
    else AudioLines(data, count - 1, show) + AudioEntry(count - 1, data[count - 1], show)
  }

  /** Lines `2i` and `2i + 1` of frames.txt name frame `i` and give the duration of scene `i`. */
  lemma {:induction false} FramesLinesAt(data: seq<SceneData>, count: nat, show: real -> string, i: nat)
    requires i < count <= |data|
    ensures FramesLines(data, count, show)[2 * i] == "file '" + FrameName(i) + "'"
    ensures FramesLines(data, count, show)[2 * i + 1] == "duration " + show(data[i].duration)
  {
    var before := FramesLines(data, count - 1, show);
    assert FramesLines(data, count, show) == before + FrameEntry(count - 1, data[count - 1].duration, show);
    if i < count - 1 {
      FramesLinesAt(data, count - 1, show, i);
    }
  }

  /**
   Lines `3i`, `3i + 1` and `3i + 2` of audio_concat.txt give scene `i`'s audio source, its start and
   its end.
   */
  lemma {:induction false} AudioLinesAt(data: seq<SceneData>, count: nat, show: real -> string, i: nat)
    requires i < count <= |data|
    ensures AudioLines(data, count, show)[3 * i] == AudioSource(i, data[i].hasAudio)
    ensures AudioLines(data, count, show)[3 * i + 1] == "inpoint 0"
    ensures AudioLines(data, count, show)[3 * i + 2] == "outpoint " + show(data[i].duration)
  {
    var before := AudioLines(data, count - 1, show);
    assert AudioLines(data, count, show) == before + AudioEntry(count - 1, data[count - 1], show);
    if i < count - 1 {
      AudioLinesAt(data, count - 1, show, i);
    }
  }

  /** One more frame appends its two lines to the text of frames.txt. */
  lemma FramesStep(data: seq<SceneData>, i: nat, show: real -> string)
    requires i < |data|
    ensures Unlines(FramesLines(data, i + 1, show)) ==
      Unlines(FramesLines(data, i, show)) + ("file '" + FrameName(i) + "'") + "\n"
        + ("duration " + show(data[i].duration)) + "\n"
  {
    var before := FramesLines(data, i, show);
    var file := "file '" + FrameName(i) + "'";
    var duration := "duration " + show(data[i].duration);
    UnlinesSnoc(before, file);
    UnlinesSnoc(before + [file], duration);
    assert before + [file] + [duration] == FramesLines(data, i + 1, show);
  }

  /** One more scene appends its three lines to the text of audio_concat.txt. */
  lemma AudioStep(data: seq<SceneData>, i: nat, show: real -> string)
    requires i < |data|
    ensures Unlines(AudioLines(data, i + 1, show)) ==
      Unlines(AudioLines(data, i, show)) + AudioSource(i, data[i].hasAudio) + "\n"
        + "inpoint 0" + "\n" + ("outpoint " + show(data[i].duration)) + "\n"
  {
    var before := AudioLines(data, i, show);
    var source := AudioSource(i, data[i].hasAudio);
    var outpoint := "outpoint " + show(data[i].duration);
    UnlinesSnoc(before, source);
    UnlinesSnoc(before + [source], "inpoint 0");
    UnlinesSnoc(before + [source] + ["inpoint 0"], outpoint);
    assert before + [source] + ["inpoint 0"] + [outpoint] == AudioLines(data, i + 1, show);
  }

  /** The text of frames.txt, built as the source builds it: two appended lines per frame. */
  method WriteFramesScript(data: seq<SceneData>, frameCount: nat, show: real -> string) returns (text: string)
    requires frameCount <= |data|
    ensures text == Unlines(FramesLines(data, frameCount, show))
  {
    text := "";
    var i := 0;
    while i < frameCount
      invariant i <= frameCount
      invariant text == Unlines(FramesLines(data, i, show))
    {
      var file := "file '" + FrameName(i) + "'";
      var duration := "duration " + show(data[i].duration);
      FramesStep(data, i, show);
      text := text + file + "\n";
      text := text + duration + "\n";
      i := i + 1;
    }
  }

  /** The text of audio_concat.txt, built as the source builds it: three appended lines per scene. */
  method WriteAudioScript(data: seq<SceneData>, show: real -> string) returns (text: string)
    ensures text == Unlines(AudioLines(data, |data|, show))
  {
    text := "";
    var i := 0;
    while i < |data|
      invariant i <= |data|
      invariant text == Unlines(AudioLines(data, i, show))
    {
      var source := AudioSource(i, data[i].hasAudio);
      var outpoint := "outpoint " + show(data[i].duration);
      AudioStep(data, i, show);
      text := text + source + "\n";
      text := text + "inpoint 0" + "\n";
      text := text + outpoint + "\n";
      i := i + 1;
    }
  }

  /** No frame name holds a newline, so a frames.txt entry is one line. */
  lemma FrameNameOneLine(i: nat)
    ensures '\n' !in "file '" + FrameName(i) + "'"
  {
    FrameDigitsValue(i);
    DigitsOneLine(FrameDigits(i));
    assert '\n' !in FrameName(i);
  }

  lemma DigitsOneLine(d: string)
    requires AllDigits(d)
    ensures '\n' !in d
  {
  }

  /** No audio source line holds a newline. */
  lemma AudioSourceOneLine(i: nat, hasAudio: bool)
    ensures '\n' !in AudioSource(i, hasAudio)
  {
    if hasAudio {
      DigitsOneLine(NatToString(i));
      assert '\n' !in AudioName(i);
    } else {
      SilenceOneLine();
    }
  }

  lemma FixedTextOneLine()
    ensures '\n' !in "inpoint 0" && '\n' !in "outpoint " && '\n' !in "duration "
  {
  }

  /** Every line of `ls` is a single line. */
  predicate OneLineEach(ls: seq<string>) {
    forall k :: 0 <= k < |ls| ==> '\n' !in ls[k]
  }

  lemma OneLineAppend(a: seq<string>, b: seq<string>)
    requires OneLineEach(a) && OneLineEach(b)
    ensures OneLineEach(a + b)
  {
    forall k | 0 <= k < |a + b| ensures '\n' !in (a + b)[k] {
      if k < |a| { assert (a + b)[k] == a[k]; } else { assert (a + b)[k] == b[k - |a|]; }
    }
  }

  lemma FrameEntryOneLine(i: nat, d: real, show: real -> string)
    requires '\n' !in show(d)
    ensures OneLineEach(FrameEntry(i, d, show))
  {
    FrameNameOneLine(i);
    FixedTextOneLine();
  }

  lemma AudioEntryOneLine(i: nat, s: SceneData, show: real -> string)
    requires '\n' !in show(s.duration)
    ensures OneLineEach(AudioEntry(i, s, show))
  {
    AudioSourceOneLine(i, s.hasAudio);
    FixedTextOneLine();
  }

  /** No line of frames.txt holds a newline when no printed duration does. */
  lemma {:induction false} FramesLinesOneLine(data: seq<SceneData>, count: nat, show: real -> string)
    requires count <= |data|
    requires forall i :: 0 <= i < count ==> '\n' !in show(data[i].duration)
    ensures OneLineEach(FramesLines(data, count, show))
  {
    if count > 0 {
      var i := count - 1;
      FramesLinesOneLine(data, i, show);
      FrameEntryOneLine(i, data[i].duration, show);
      OneLineAppend(FramesLines(data, i, show), FrameEntry(i, data[i].duration, show));
      assert FramesLines(data, count, show) == FramesLines(data, i, show) + FrameEntry(i, data[i].duration, show);
    }
  }

  /** No line of audio_concat.txt holds a newline when no printed duration does. */
  lemma {:induction false} AudioLinesOneLine(data: seq<SceneData>, count: nat, show: real -> string)
    requires count <= |data|
    requires forall i :: 0 <= i < count ==> '\n' !in show(data[i].duration)
    ensures OneLineEach(AudioLines(data, count, show))
  {
    if count > 0 {
      var i := count - 1;
      AudioLinesOneLine(data, i, show);
      AudioEntryOneLine(i, data[i], show);
      OneLineAppend(AudioLines(data, i, show), AudioEntry(i, data[i], show));
      assert AudioLines(data, count, show) == AudioLines(data, i, show) + AudioEntry(i, data[i], show);
    }
  }

  /**
   Splitting frames.txt at newlines gives back, for every frame in order, its `file` line and its
   `duration` line (and the empty piece after the final newline), provided the printed durations
   hold no newline.
   */
  lemma FramesScriptReadsBack(data: seq<SceneData>, count: nat, show: real -> string)
    requires count <= |data|
    requires forall i :: 0 <= i < count ==> '\n' !in show(data[i].duration)
    ensures Split(Unlines(FramesLines(data, count, show)), '\n') == FramesLines(data, count, show) + [""]
  {
    FramesLinesOneLine(data, count, show);
    UnlinesSplit(FramesLines(data, count, show));
  }

  /** Splitting audio_concat.txt at newlines gives back its three-line blocks. */
  lemma AudioScriptReadsBack(data: seq<SceneData>, count: nat, show: real -> string)
    requires count <= |data|
    requires forall i :: 0 <= i < count ==> '\n' !in show(data[i].duration)
    ensures Split(Unlines(AudioLines(data, count, show)), '\n') == AudioLines(data, count, show) + [""]
  {
    AudioLinesOneLine(data, count, show);
    UnlinesSplit(AudioLines(data, count, show));
  }

  // ---------------------------------------------------------------------------
  // Commands
  // ---------------------------------------------------------------------------

  const AudioCommand: seq<string> := [
    "-f", "concat", "-safe", "0", "-i", "frames.txt",
    "-f", "concat", "-safe", "0", "-i", "audio_concat.txt",
    "-c:v", "libx264", "-preset", "medium", "-crf", "23", "-pix_fmt", "yuv420p",
    "-c:a", "aac", "-b:a", "128k", "-shortest", "-movflags", "+faststart", "output.mp4"]

  const SilentCommand: seq<string> := [
    "-f", "concat", "-safe", "0", "-i", "frames.txt",
    "-c:v", "libx264", "-preset", "medium", "-crf", "23", "-pix_fmt", "yuv420p",
    "-an", "-movflags", "+faststart", "output.mp4"]

  /** The FFmpeg arguments of the full video. */
  function Command(data: seq<SceneData>): seq<string> {
    if AnyAudio(data) then AudioCommand else SilentCommand
  }

  /**
   The command reads the audio script and stops at the shorter stream exactly when some scene has
   audio, and drops audio (`-an`) exactly when none has.
   */
  lemma CommandChoice(data: seq<SceneData>)
    ensures "-shortest" in Command(data) <==> AnyAudio(data)
    ensures "audio_concat.txt" in Command(data) <==> AnyAudio(data)
    ensures "-an" in Command(data) <==> !AnyAudio(data)
    ensures "frames.txt" in Command(data)
    ensures Command(data)[|Command(data)| - 1] == "output.mp4"
  {
    if AnyAudio(data) {
      AudioCommandWords();
    } else {
      SilentCommandWords();
    }
  }

  /** The arguments of the command with audio. */
  lemma AudioCommandWords()
    ensures "-shortest" in AudioCommand && "audio_concat.txt" in AudioCommand && "frames.txt" in AudioCommand
    ensures "-an" !in AudioCommand
    ensures AudioCommand[|AudioCommand| - 1] == "output.mp4"
  {
    assert AudioCommand[24] == "-shortest";
    assert AudioCommand[11] == "audio_concat.txt";
    assert AudioCommand[5] == "frames.txt";
    assert forall k :: 0 <= k < |AudioCommand| ==> AudioCommand[k] != "-an";
  }

  /** The arguments of the command without audio. */
  lemma SilentCommandWords()
    ensures "-an" in SilentCommand && "frames.txt" in SilentCommand
    ensures "-shortest" !in SilentCommand && "audio_concat.txt" !in SilentCommand
    ensures SilentCommand[|SilentCommand| - 1] == "output.mp4"
  {
    assert SilentCommand[14] == "-an";
    assert SilentCommand[5] == "frames.txt";
    assert forall k :: 0 <= k < |SilentCommand| ==> SilentCommand[k] != "-shortest";
    assert forall k :: 0 <= k < |SilentCommand| ==> SilentCommand[k] != "audio_concat.txt";
  }

  // ---------------------------------------------------------------------------
  // Rendering
  // ---------------------------------------------------------------------------

  /**
   What the canvas pass does for one scene: no 2D context (the scene is skipped), a drawn frame,
   or a drawing error, after which a placeholder frame is drawn; `placeholderDrawn` is false when
   drawing the placeholder throws too.
   */
  datatype Render = NoContext | Drawn | DrawFailed(placeholderDrawn: bool)

  /** A rendered frame, by the scene it shows. */
  datatype Frame = SceneFrame(sceneNumber: int) | Placeholder(sceneNumber: int)

  /** Whether a render outcome makes `renderScenesToFrames` throw. */
  predicate Throws(r: Render) {
    r.DrawFailed? && !r.placeholderDrawn
  }

  /**
   `renderScenesToFrames`: `None` when it throws. Otherwise the frames, at most one per scene, in
   scene order, and exactly one per scene when every scene obtained a 2D context.
   */
  function RenderFrames(scenes: seq<Scene>, renders: seq<Render>): (r: Option<seq<Frame>>)
    requires |renders| == |scenes|
    ensures r.Some? <==> forall i :: 0 <= i < |renders| ==> !Throws(renders[i])
    ensures r.Some? ==> |r.value| <= |scenes|
    ensures r.Some? ==> (|r.value| == |scenes| <==> forall i :: 0 <= i < |renders| ==> renders[i] != NoContext)
    ensures r.Some? ==> (|r.value| == 0 <==> forall i :: 0 <= i < |renders| ==> renders[i] == NoContext)
  {
    if |scenes| == 0 then Some([])
    else
      var n := |scenes| - 1;
      var before := RenderFrames(scenes[..n], renders[..n]);
      var number := scenes[n].sceneNumber;
      if before.None? then None
      else match renders[n]
      case NoContext => before
      case Drawn => Some(before.value + [SceneFrame(number)])
      case DrawFailed(drawn) => if drawn then Some(before.value + [Placeholder(number)]) else None
  }

  /** Every frame shows a scene of the input, and frame `i` comes from a scene at index `i` or later. */
  lemma {:induction false} FramesFromScenes(scenes: seq<Scene>, renders: seq<Render>)
    requires |renders| == |scenes|
    requires RenderFrames(scenes, renders).Some?
    ensures var frames := RenderFrames(scenes, renders).value;
      forall i :: 0 <= i < |frames| ==>
        exists j :: i <= j < |scenes| && frames[i].sceneNumber == scenes[j].sceneNumber
  {
    if |scenes| > 0 {
      var n := |scenes| - 1;
      FramesFromScenes(scenes[..n], renders[..n]);
      var before := RenderFrames(scenes[..n], renders[..n]).value;
      var frames := RenderFrames(scenes, renders).value;
      forall i | 0 <= i < |frames|
        ensures exists j :: i <= j < |scenes| && frames[i].sceneNumber == scenes[j].sceneNumber
      {
        if i < |before| {
          assert frames[i] == before[i];
          var j :| i <= j < n && before[i].sceneNumber == scenes[..n][j].sceneNumber;
          assert scenes[..n][j] == scenes[j];
        } else {
          assert frames[i].sceneNumber == scenes[n].sceneNumber;
        }
      }
    }
  }

  // ---------------------------------------------------------------------------
  // The full-video plan
  // ---------------------------------------------------------------------------

  /** Everything the full-video path hands to FFmpeg and removes afterwards. */
  datatype Plan = Plan(
    data: seq<SceneData>,
    frames: seq<Frame>,
    framesScript: string,
    audioScript: Option<string>,
    command: seq<string>,
    written: set<string>,
    deleted: set<string>)

  /** `cleanupFiles(frameCount, audioFileCount)`: the names it deletes. */
  function Cleanup(frameCount: nat, audioFileCount: nat): (names: set<string>)
    ensures forall i :: 0 <= i < frameCount ==> FrameName(i) in names
    ensures forall i :: 0 <= i < audioFileCount ==> AudioName(i) in names
  {
    (set i | 0 <= i < frameCount :: FrameName(i))
    + (set i | 0 <= i < audioFileCount :: AudioName(i))
    + {"frames.txt", "audio_concat.txt", "output.mp4"}
  }

  /** The files the full-video path creates: frames, frames.txt, audio buffers and their script, the output. */
  function Written(data: seq<SceneData>, frameCount: nat): set<string> {
    (set i | 0 <= i < frameCount :: FrameName(i))
    + {"frames.txt", "output.mp4"}
    + (if AnyAudio(data) then
         (set i | 0 <= i < |data| && data[i].hasAudio :: AudioName(i)) + {"audio_concat.txt"}
       else {})
  }

  /**
   Cleanup, called with the frame count and the scene count, removes every file the full-video path
   created.
   */
  lemma WrittenAreDeleted(data: seq<SceneData>, frameCount: nat)
    requires frameCount <= |data|
    ensures Written(data, frameCount) <= Cleanup(frameCount, |data|)
  {
    var deleted := Cleanup(frameCount, |data|);
    forall f | f in Written(data, frameCount) ensures f in deleted {
      if f !in {"frames.txt", "output.mp4", "audio_concat.txt"} {
        if f in (set i | 0 <= i < frameCount :: FrameName(i)) {
          var i :| 0 <= i < frameCount && f == FrameName(i);
        } else {
          var i :| 0 <= i < |data| && data[i].hasAudio && f == AudioName(i);
        }
      }
    }
  }

  /** The plan for scene data and rendered frames (the frame count never exceeds the scene count). */
  function PlanFor(data: seq<SceneData>, frames: seq<Frame>, show: real -> string): (p: Plan)
    requires 0 < |frames| <= |data|
    ensures p.written <= p.deleted
    ensures p.audioScript.Some? <==> AnyAudio(data)
    ensures ("-shortest" in p.command <==> AnyAudio(data)) && ("-an" in p.command <==> !AnyAudio(data))
  {
    WrittenAreDeleted(data, |frames|);
    CommandChoice(data);
    Plan(
      data, frames,
      Unlines(FramesLines(data, |frames|, show)),
      if AnyAudio(data) then Some(Unlines(AudioLines(data, |data|, show))) else None,
      Command(data),
      Written(data, |frames|), Cleanup(|frames|, |data|))
  }

  /**
   The full-video path: `None` when it throws before FFmpeg runs (the render pass throws, or no frame
   was rendered).
   */
  function Assemble(scenes: seq<Scene>, audio: seq<Option<real>>, renders: seq<Render>, show: real -> string)
    : (p: Option<Plan>)
    requires |audio| == |scenes| == |renders|
    ensures p.Some? <==>
      && (forall i :: 0 <= i < |renders| ==> !Throws(renders[i]))
      && (exists i :: 0 <= i < |renders| && renders[i] != NoContext)
    ensures p.Some? ==> |p.value.data| == |scenes| && 0 < |p.value.frames| <= |scenes|
  {
    var data := ProcessScenes(scenes, audio);
    var frames := RenderFrames(scenes, renders);
    if frames.None? || |frames.value| == 0 then None
    else Some(PlanFor(data, frames.value, show))
  }

  /** Every frame that frames.txt lists is a file the full-video path wrote. */
  lemma ListedFramesWritten(data: seq<SceneData>, count: nat, show: real -> string, k: nat)
    requires k < count <= |data|
    ensures FramesLines(data, count, show)[2 * k] == "file '" + FrameName(k) + "'"
    ensures FrameName(k) in Written(data, count)
  {
    FramesLinesAt(data, count, show, k);
  }

  /** Every audio file that audio_concat.txt lists is a file the full-video path wrote. */
  lemma ListedAudioWritten(data: seq<SceneData>, count: nat, show: real -> string, k: nat)
    requires k < |data| && data[k].hasAudio
    ensures AudioLines(data, |data|, show)[3 * k] == "file '" + AudioName(k) + "'"
    ensures AudioName(k) in Written(data, count)
  {
    AudioLinesAt(data, |data|, show, k);
    assert AnyAudio(data);
    assert AudioName(k) in (set i | 0 <= i < |data| && data[i].hasAudio :: AudioName(i));
  }

  // ---------------------------------------------------------------------------
  // The title-card and static fallbacks
  // ---------------------------------------------------------------------------

  const TitleAudioCommand: seq<string> := [
    "-loop", "1", "-i", "title.png", "-i", "audio.wav", "-t", "5", "-vf", "fps=30,format=yuv420p",
    "-c:v", "libx264", "-preset", "ultrafast", "-pix_fmt", "yuv420p",
    "-c:a", "aac", "-b:a", "128k", "-shortest", "output.mp4"]

  const TitleSilentCommand: seq<string> := [
    "-loop", "1", "-i", "title.png", "-t", "5", "-vf", "fps=30,format=yuv420p",
    "-c:v", "libx264", "-preset", "ultrafast", "-pix_fmt", "yuv420p", "-an", "output.mp4"]

  /** The title card of `createSimpleSceneVideo`: its text lines, command and the files it creates and deletes. */
  datatype TitleCard = TitleCard(lines: seq<string>, command: seq<string>, written: set<string>, deleted: set<string>)

  /** The number of scenes with a truthy `audio_url`. */
  function AudioSceneCount(scenes: seq<Scene>): (k: nat)
    ensures k <= |scenes|
    ensures k == 0 <==> forall i :: 0 <= i < |scenes| ==> scenes[i].audioUrl == ""
  {
    if |scenes| == 0 then 0
    else AudioSceneCount(scenes[..|scenes| - 1]) + (if scenes[|scenes| - 1].audioUrl != "" then 1 else 0)
  }

  /**
   The title card for `scenes`; `firstAudio` tells whether extracting the first audio scene's audio
   gave a buffer.
   */
  function TitleCardFor(scenes: seq<Scene>, title: string, firstAudio: bool): (c: TitleCard)
    ensures c.written <= c.deleted
    ensures "-shortest" in c.command <==> AudioSceneCount(scenes) > 0 && firstAudio
  {
    var k := AudioSceneCount(scenes);
    var heard := k > 0;
    var withAudio := heard && firstAudio;
    assert TitleAudioCommand[20] == "-shortest";
    assert forall j :: 0 <= j < |TitleSilentCommand| ==> TitleSilentCommand[j] != "-shortest";
    TitleCard(
      [title, NatToString(|scenes|) + " Scenes"]
        + (if heard then [NatToString(k) + " scenes with audio"] else []),
      if withAudio then TitleAudioCommand else TitleSilentCommand,
      {"title.png", "output.mp4"} + (if withAudio then {"audio.wav"} else {}),
      {"title.png", "output.mp4"} + (if heard then {"audio.wav"} else {}))
  }

  /** The title card has a third line exactly when some scene has an audio URL. */
  lemma TitleCardLines(scenes: seq<Scene>, title: string, firstAudio: bool)
    ensures var c := TitleCardFor(scenes, title, firstAudio);
      && c.lines[0] == title
      && (|c.lines| == 3 <==> exists i :: 0 <= i < |scenes| && scenes[i].audioUrl != "")
      && |c.lines| in {2, 3}
  {
  }

  /** The last resort of `createFallbackVideo`: the canvas's own encoding, or a plain-text note. */
  datatype Clip = CanvasClip(title: string, sceneCount: nat) | TextClip(text: string)

  function FallbackClip(title: string, sceneCount: nat, canvasBlob: bool): (c: Clip)
    ensures c.TextClip? <==> !canvasBlob
  {
    if canvasBlob then CanvasClip(title, sceneCount)
    else TextClip("Video for: " + title + "\n" + "Scenes: " + NatToString(sceneCount))
  }

  /** The text note reads back as its title line and its scene-count line. */
  lemma FallbackTextReadsBack(title: string, sceneCount: nat)
    requires '\n' !in title
    ensures var lines := Split(FallbackClip(title, sceneCount, false).text, '\n');
      && lines == ["Video for: " + title, "Scenes: " + NatToString(sceneCount)]
  {
    var a := "Video for: " + title;
    var b := "Scenes: " + NatToString(sceneCount);
    var text := FallbackClip(title, sceneCount, false).text;
    DigitsOneLine(NatToString(sceneCount));
    assert '\n' !in a && '\n' !in b;
    assert text == a + "\n" + "Scenes: " + NatToString(sceneCount);
    assert text == a + ("\n" + b);
    SplitFirst(a, "\n" + b, '\n');
    assert ("\n" + b)[1..] == b;
    SplitFirst(b, "", '\n');
    assert b + "" == b;
  }

  // ---------------------------------------------------------------------------
  // The fallback chain
  // ---------------------------------------------------------------------------

  /**
   What the browser and FFmpeg do during one export: whether FFmpeg loads, each scene's audio
   extraction and canvas render, whether encoding the full video succeeds, whether the title card
   finds audio and encodes, whether the static clip's canvas gives a 2D context (the non-null
   assertion on `getContext('2d')` throws on the first `fillStyle` otherwise), and whether that
   canvas yields a blob.
   */
  datatype Env = Env(
    loads: bool,
    audio: seq<Option<real>>,
    renders: seq<Render>,
    encodes: bool,
    titleAudio: bool,
    titleEncodes: bool,
    fallbackContext: bool,
    canvasBlob: bool)

  /**
   The outcome of `generateVideoFromScenes`. `Rejected` is a rejected promise: FFmpeg failed to
   load, or the static clip's canvas gave no 2D context, which no `catch` is left to handle.
   */
  datatype Video = Full(plan: Plan) | Titled(card: TitleCard) | Static(clip: Clip) | Rejected

  /**
   `createSimpleSceneVideo` after FFmpeg has loaded: the title card, or `createFallbackVideo` when
   it fails, which rejects when its canvas gives no 2D context.
   */
  function SimpleVideo(scenes: seq<Scene>, title: string, env: Env): (v: Video)
    ensures !v.Full?
    ensures v.Titled? <==> env.titleEncodes
    ensures v.Rejected? <==> !env.titleEncodes && !env.fallbackContext
    ensures v.Static? ==> v.clip == FallbackClip(title, |scenes|, env.canvasBlob)
  {
    if env.titleEncodes then Titled(TitleCardFor(scenes, title, env.titleAudio))
    else if !env.fallbackContext then Rejected
    else Static(FallbackClip(title, |scenes|, env.canvasBlob))
  }

  /** `generateVideoFromScenes` */
  function Export(scenes: seq<Scene>, title: string, env: Env, show: real -> string): (v: Video)
    requires |env.audio| == |scenes| == |env.renders|
    ensures !env.loads ==> v.Rejected?
    ensures v.Rejected? <==> !env.loads || (!v.Full? && !env.titleEncodes && !env.fallbackContext)
    ensures v.Full? ==> v.plan.written <= v.plan.deleted
  {
    if !env.loads then Rejected
    else
      var plan := Assemble(scenes, env.audio, env.renders, show);
      if plan.Some? && env.encodes then Full(plan.value)
      else SimpleVideo(scenes, title, env)
  }

  /**
   The full video is produced exactly when FFmpeg loads, no render throws, at least one scene
   obtained a 2D context, and encoding succeeds; otherwise the title card is tried, and when that
   fails too the static clip is returned if its canvas gives a 2D context, and the export is
   rejected if it does not.
   */
  lemma FallbackChain(scenes: seq<Scene>, title: string, env: Env, show: real -> string)
    requires |env.audio| == |scenes| == |env.renders|
    ensures var v := Export(scenes, title, env, show);
      var mainPath :=
        && (forall i :: 0 <= i < |env.renders| ==> !Throws(env.renders[i]))
        && (exists i :: 0 <= i < |env.renders| && env.renders[i] != NoContext)
        && env.encodes;
      && (v.Full? <==> env.loads && mainPath)
      && (v.Titled? <==> env.loads && !mainPath && env.titleEncodes)
      && (v.Static? <==> env.loads && !mainPath && !env.titleEncodes && env.fallbackContext)
      && (v.Rejected? <==> !env.loads || (!mainPath && !env.titleEncodes && !env.fallbackContext))
  {
  }

  /** With no scenes there is nothing to render, so the export always falls back. */
  lemma NoScenesFallsBack(title: string, env: Env, show: real -> string)
    requires env.loads && |env.audio| == 0 && |env.renders| == 0
    ensures !Export([], title, env, show).Full?
  {
  }
}

=== FILE: wrappers.dfy ===
/** The optional-value datatype shared by every module of the model. */
module Wrappers {

  /** `None` stands for JavaScript's `undefined`/`null` where the source uses them as "no value". */
  datatype Option<+T> = None | Some(value: T) {

    /** The wrapped value, or `default` when there is none. */
    function GetOr(default: T): T {
      match this
      case Some(v) => v
      case None => default
    }

    /** This value when there is one, else `other`. */
    function OrElse(other: Option<T>): Option<T> {
      if this.Some? then this else other
    }
  }
}
